=== FILE: README.md ===
# Game server core, modelled in Dafny

This project models the deterministic core of a small tick-based multiplayer game server. It covers:

- the progression and combat formulas;
- the A* pathfinder that monsters and players walk by;
- the two string codecs that compress the state sent to clients (Huffman and run-length);
- the actor state machine: entities, monsters, the bear and players;
- the world: its registries and action queue, and the tick that drives every actor;
- the snapshot and the difference that the server broadcasts after every tick.

Everything is modelled as pure functions over immutable records. Randomness and the clock are explicit parameters:

- the hit roll `floor(Math.random() * 100)`;
- the 50% wander decision and the wander coordinates;
- the time stamp of a tick.

A `TypeError` that the source would throw becomes either a `Failure`/`Threw` result or a `threw` flag. The tick stops at that point, as an uncaught exception in the interval callback would stop it.

Modules, one per file, in dependency order:

- `Wrappers` (wrappers.dfy): `Option` and `Result`.
- `Sorting` (sorting.dfy): the stable sort by a numeric key that `Array.prototype.sort` performs.
- `Experience` (experience.dfy): `ExperienceUtils`.
  - The per-level increment `floor((L - 1 + 300 * 2^((L-1)/7)) / 4)` is written exactly.
  - `2^((L-1)/7)` is split as `2^q * 2^(r/7)`. The seven constants `2^(r/7)` are the double values `Math.pow` returns, written as decimals.
- `Combat` (combat.dfy): `CombatUtils` and `CombatCalculator`. The factor 0.325 is the real 13/40.
- `Pathfinding` (pathfinding.dfy): `adjustWorldMapToIsometric` and `aStar`.
  - The search is a loop over open and closed lists, with parent links as indices into a node table.
  - The open list is re-sorted by `f` on every iteration, with the same stable sort as the source.
- `Huffman` (huffman.dfy): `buildHuffmanTree`, `buildCodeTable`, `huffmanEncode`, and two decoders: one walks the tree, the other has only the code table that is sent to the client.
  - The keys of the frequency table come out in JavaScript's `Object.entries` order: the keys `'0'`..`'9'` in ascending order first, then the others in insertion order.
- `RunLength` (runlength.dfy): `runLengthEncode`, as a loop with its invariant, and a reference definition by maximal runs.
- `Actors` (actors.dfy): the record shared by `Entity`, `Monster`, `Bear` and `Player`. It covers:
  - their constructors;
  - `resetEntity` and the respawn countdown;
  - the counter block of `update`;
  - idle wandering;
  - `attackEntity`;
  - `getDirection` and `updateSprite`;
  - `moveAlongPath`.
- `Registry` (registry.dfy): the `World` registries.
  - Operations: `addPlayer`, `removePlayer`, `addEntity`, `removeEntity`, `getEntityByID` and `enqueueAction`.
  - Also the chat post from the socket handler, and the tile map.
- `Behaviour` (behaviour.dfy): the world-level updates of one actor: `moveTowardsTarget`, `getTarget`, `Entity.update`, `Monster.update` and `Player.updatePlayer`.
- `Tick` (tick.dfy): `World.gameTick`.
  - Players update in registry order, then monsters in registry order.
  - Each player takes its queued actions, and those actions then leave the queue.
- `Sync` (sync.dfy): `getWorldData`, `getChangedData`, and the payload of `broadcastGameState`.

Modelling decisions that follow the code rather than a reading of its intent:

- Several guards compare freshly built objects by reference, so they never fire:
  - the early return in idle wandering;
  - the early return on `move` actions;
  - `targetTile !== newTargetTile` in `moveTowardsTarget`;
  - `previousGameState === gameState` in the broadcast.

  The model leaves them out. The last of these means that every tick sends a payload.
- A target id is "set" in the JavaScript sense: `Some` of a non-empty string.
- The hit chance is computed from raw attack and defence experience, not from levels, as `attackEntity` does.
- Chat messages are compared by reference in the diff. Here each message carries a serial number that stands for its identity.
- `moveTowardsTarget` reads `path[1]` to plan a detour. It throws when the path has a single tile while both a target tile and a new target tile are set.
- In `huffmanEncode`, an input with one distinct character gets the code `""`. Its encoding is therefore empty and cannot be decoded back.

## Model

| member | source | states |
|---|---|---|
| Experience.Increment | gameServer/game/utils/ExperienceUtils.ts:6-10 | the experience from one level to the next is at least 75; Experience.IncrementTable gives its first values |
| Experience.ExperienceDifference | gameServer/game/utils/ExperienceUtils.ts:2-12 | fails exactly for levels below 2; otherwise the increment is at least 75 |
| Experience.IncrementTable | gameServer/game/utils/ExperienceUtils.ts:6-11 | the increments to levels 2..6 are 83, 91, 101, 112, 124 |
| Experience.LevelFromExperience | gameServer/game/utils/ExperienceUtils.ts:14-30 | the level is at least 1 and is the level whose cumulative threshold is reached but the next one is not; reaching a threshold exactly admits the level |
| Experience.LevelLoop | gameServer/game/utils/ExperienceUtils.ts:18-27 | the level returned is at least the starting one, its threshold is reached (or it is 1), and the experience is below the next threshold |
| Experience.LevelUnique | gameServer/game/utils/ExperienceUtils.ts:14-30 | the threshold condition pins the level: any level meeting it is the one returned |
| Experience.LevelOneBelowFirstThreshold | gameServer/game/utils/ExperienceUtils.ts:15-22 | every experience below 83 gives level 1 |
| Experience.LevelMonotone | gameServer/game/utils/ExperienceUtils.ts:14-30 | the level never decreases as experience grows |
| Experience.CumulativeStrictlyIncreasing | gameServer/game/utils/ExperienceUtils.ts:19-26 | each further level costs at least 75 more experience |
| Experience.LevelExamples | gameServer/game/utils/ExperienceUtils.ts:14-30 | experience 0 and 82 give level 1, 83 gives 2, and 387 and 388 give 5 |
| Experience.ExperienceUntilNextLevel | gameServer/game/utils/ExperienceUtils.ts:32-42 | as written: fails exactly for experience below 83, because the level-1 increment is requested |
| Experience.UntilNextLevelAsWrittenDiffers | gameServer/game/utils/ExperienceUtils.ts:37-39 | at experience 174 (level 3) the source yields 18, while 101 more experience are needed for level 4 |
| Experience.ExperienceToNextLevel | gameServer/game/utils/ExperienceUtils.ts:32-42 | the corrected amount still missing before the next level is always positive; Experience.ExperienceToNextLevelIsExact states that it is exactly what raises the level by one |
| Experience.ExperienceToNextLevelIsExact | gameServer/game/utils/ExperienceUtils.ts:32-42 | the corrected amount is exactly what raises the level by one: one experience less keeps the level |
| Combat.AttackHitChance | gameServer/game/utils/CombatUtils.ts:5-14 | the chance lies in [5, 95]; inside the clamp it is 50 + 5 * (attack - defence); below it is 5 and above it is 95 |
| Combat.HitChanceMonotone | gameServer/game/utils/CombatUtils.ts:5-14 | the chance does not decrease with the attack value and does not increase with the defence value |
| Combat.HitChanceExamples | gameServer/game/utils/CombatUtils.ts:6 | equal values give 50; large gaps clamp to 95 and 5 |
| Combat.AttackDamage | gameServer/game/utils/CombatUtils.ts:16-31 | unarmed damage is 1 + floor(level / 4) and at least 1; armed damage is floor(level / 4) plus the weapon's attack value |
| Combat.DamageMonotone | gameServer/game/utils/CombatUtils.ts:16-31 | damage does not decrease with strength experience |
| Combat.SkillLevel | gameServer/game/entity/CombatCalculator.ts:12-17 | experience 0 is read as 1; the level is at least 1 |
| Combat.CombatLevelFromLevels | gameServer/game/entity/CombatCalculator.ts:19-47 | the result is at least 1 and is the floor of the largest of the melee, magic and ranged values |
| Combat.CombatLevelMonotone | gameServer/game/entity/CombatCalculator.ts:19-47 | the combat level does not decrease when any skill level grows |
| Combat.CombatLevel | gameServer/game/entity/CombatCalculator.ts:12-47 | the combat level of the seven experiences, each read as a level with 0 counting as 1, is at least 1; Combat.FreshCombatLevel and Combat.CombatLevelMonotoneInExperience state its value for no experience and its monotonicity |
| Combat.CombatLevelMonotoneInExperience | gameServer/game/entity/CombatCalculator.ts:12-47 | the combat level does not decrease when any experience grows |
| Combat.FreshCombatLevel | gameServer/game/entity/CombatCalculator.ts:12-47 | all seven experiences at 0 give combat level 1 |
| Sorting.SortBy | gameServer/game/pathfinding/aStar.ts:50-52 | the result is sorted by the key and is a permutation of the input; Sorting.SortStable states that it is stable |
| Sorting.SortStable | gameServer/network/encoding/huffman.ts:19-28 | for every key, the elements with that key leave the sort in their input order, so ties between equal frequencies and equal costs are broken by position |
| Sorting.SortedHeadIsMinimal | gameServer/game/pathfinding/aStar.ts:50-52 | the head after sorting has the smallest key |
| Pathfinding.CalculateCosts | gameServer/game/pathfinding/aStar.ts:19-22 | h is the Manhattan distance to the target and f = g + h |
| Pathfinding.HeuristicConsistent | gameServer/game/pathfinding/aStar.ts:19-22 | the Manhattan heuristic drops by at most 1 per unit step |
| Pathfinding.AdjustWorldMapToIsometric | gameServer/game/pathfinding/aStar.ts:25-34 | fails exactly when a row is longer than the map is tall; otherwise cell (y, x) holds worldMap[x][y], or nothing when that row is short |
| Pathfinding.SquareAdjustIsTranspose | gameServer/game/pathfinding/aStar.ts:25-34 | on a square map the adjustment is the transpose |
| Pathfinding.Reconstruct | gameServer/game/pathfinding/aStar.ts:59-65 | following parents from a node gives a walk from start to that node, with g + 1 tiles |
| Pathfinding.ExpandAll | gameServer/game/pathfinding/aStar.ts:70-127 | expanding the four neighbours keeps the search invariant; it fails only on an empty map |
| Pathfinding.PopKeepsValid | gameServer/game/pathfinding/aStar.ts:49-68 | the popped node was not closed; closing it shrinks the set of tiles not yet closed, so the loop terminates |
| Pathfinding.SearchLoop | gameServer/game/pathfinding/aStar.ts:49-130 | a found path is a valid walk from start to target; on a non-empty map the search does not throw |
| Pathfinding.AStar | gameServer/game/pathfinding/aStar.ts:36-131 | throws when a row is longer than the map is tall, and never on a non-empty map that fits. A returned path starts at start and ends at target, and its steps are 4-adjacent. Every tile after the first is in bounds and walkable. An unenterable target other than start gives no path |
| Pathfinding.StartIsTarget | gameServer/game/pathfinding/aStar.ts:52-66 | when start is the target, the path is [start] |
| Pathfinding.FoundPathAtLeastManhattan | gameServer/game/pathfinding/aStar.ts:71-76 | a returned path takes at least the Manhattan distance in steps |
| Huffman.FrequencyEntries | gameServer/network/encoding/huffman.ts:53-56 | one entry per distinct input character, no character twice, each with its count in the input |
| Huffman.BuildHuffmanTree | gameServer/network/encoding/huffman.ts:15-32 | the tree's leaves are exactly the keys and its frequency is the sum of theirs; two or more keys give an inner node |
| Huffman.MergeLoop | gameServer/network/encoding/huffman.ts:21-29 | merging keeps the total frequency and the multiset of leaf characters |
| Huffman.HuffmanTree | gameServer/network/encoding/huffman.ts:49-58 | no tree for empty input; otherwise the root frequency equals the input length and the leaves are exactly the input's distinct characters |
| Huffman.BuildCodeTable | gameServer/network/encoding/huffman.ts:34-46 | the table's keys are exactly the tree's leaf characters |
| Huffman.CodesPrefixFree | gameServer/network/encoding/huffman.ts:34-46 | no code is a prefix of another, because only leaves receive codes |
| Huffman.HuffmanEncode | gameServer/network/encoding/huffman.ts:49-66 | empty input gives "" and an empty table; the table's keys are the input's characters |
| Huffman.HuffmanTableIsPrefixCode | gameServer/network/encoding/huffman.ts:34-46 | the table is a prefix code over '0' and '1' |
| Huffman.EncodeConcat | gameServer/network/encoding/huffman.ts:60-63 | the encoding of a concatenation is the concatenation of the encodings, character by character in input order |
| Huffman.CodesNonEmpty | gameServer/network/encoding/huffman.ts:40-46 | with two or more distinct characters every code is non-empty |
| Huffman.TableDecodesEncoding | gameServer/network/encoding/huffman.ts:60-63 | for a prefix-free table with non-empty codes that covers the input, decoding the concatenated codes with the table alone gives back the input |
| Huffman.TableRoundTrip | gameServer/network/encoding/huffman.ts:49-66 | with two or more distinct characters, decoding the encoded text with only the returned code table reproduces the input |
| Huffman.RoundTrip | gameServer/network/encoding/huffman.ts:49-66 | with two or more distinct characters, decoding the output with the tree reproduces the input |
| Huffman.SingleCharacter | gameServer/network/encoding/huffman.ts:49-66 | with one distinct character its code is "" and the output is "" |
| Huffman.SingleCharacterLosesLength | gameServer/network/encoding/huffman.ts:60-63 | two inputs repeating the same single character encode identically, whatever their lengths |
| Huffman.EntriesFreqIsLength | gameServer/network/encoding/huffman.ts:53-56 | the counts of the distinct characters add up to the input length |
| RunLength.NatToString | gameServer/network/encoding/runLength.ts:9 | the decimal numeral has only digits and no leading zero |
| RunLength.DecimalRoundTrip | gameServer/network/encoding/runLength.ts:9 | reading the numeral back gives the number |
| RunLength.RunsExpand | gameServer/network/encoding/runLength.ts:5-12 | expanding the runs of a string gives the string back |
| RunLength.RunsMaximal | gameServer/network/encoding/runLength.ts:5-12 | runs are non-empty and neighbouring runs differ in character |
| RunLength.RunsUnique | gameServer/network/encoding/runLength.ts:5-12 | maximal runs that expand to a string are that string's runs |
| RunLength.RunLengthEncode | gameServer/network/encoding/runLength.ts:1-19 | the output is each maximal run as character plus decimal length, in order, followed by the last character and "1" for non-empty input; empty input gives "" |
| RunLength.ScanRuns | gameServer/network/encoding/runLength.ts:2-12 | after the loop every maximal run has been written as its character and decimal length, and the counter is back at 1 |
| RunLength.ScanStep | gameServer/network/encoding/runLength.ts:6-11 | a repeated next character only raises the counter; otherwise the character and the counter are written and the counter restarts at 1. Either way the scan invariant is kept |
| RunLength.ScanClose | gameServer/network/encoding/runLength.ts:9-11 | emitting a run closes it and the count starts over at the next character |
| RunLength.NoRepeatsLength | gameServer/network/encoding/runLength.ts:5-16 | a length-n input with no equal neighbours encodes to 2n + 2 characters |
| RunLength.Example | gameServer/network/encoding/runLength.ts:1-19 | "aaab" encodes to "a3b1b1" |
| Actors.DirectionOf | gameServer/game/entity/Entity.ts:418-431 | there is no direction exactly for the zero move |
| Actors.UnitStepDirections | gameServer/game/entity/Entity.ts:423-430 | right faces downRight, left upLeft, +y downLeft and -y upRight |
| Actors.DiagonalDirections | gameServer/game/entity/Entity.ts:422-425 | moves with both components non-zero face upRight, downRight, upLeft or downLeft by their signs |
| Actors.DirectionBySign | gameServer/game/entity/Entity.ts:418-431 | only the signs of the components matter |
| Actors.DirectionReverses | gameServer/game/entity/Entity.ts:418-431 | the reverse move faces the opposite direction |
| Actors.NextSprite | gameServer/game/entity/Entity.ts:433-448 | the sprite lands in the direction's three frames, on the first one when it was outside them |
| Actors.SpriteCycle | gameServer/game/entity/Entity.ts:433-448 | inside the frames the sprite always advances and returns after three steps |
| Actors.SpriteTurn | gameServer/game/entity/Entity.ts:433-448 | turning to another direction restarts at that direction's first frame |
| Actors.AttackFrame | gameServer/game/entity/Entity.ts:240-250 | the attack frame is the first walking frame of the facing direction (1, 4, 7, 10 for upLeft, upRight, downRight, downLeft), and 10 when there is no direction |
| Actors.NewEntity | gameServer/game/entity/Entity.ts:78-105 | a new actor has the given id, type and name, stands alive on its spawn tile with 10 hitpoints, no target, no target tiles, a hidden hp bar, no experience and idle counters |
| Actors.NewMonster | gameServer/game/monster/Monster.ts:6-15 | a monster has type 2, the given respawn time, and starts alive on its spawn tile |
| Actors.NewBear | gameServer/game/monster/Bear.ts:6-18 | a bear has the given id and stands alive on its spawn tile without a target; Actors.BearDefaults states its values |
| Actors.BearDefaults | gameServer/game/monster/Bear.ts:6-18 | the bear spawns at (0, 0) named "Bear" with respawn time 20, hitpoints experience 388, zero attack, strength and defence, 5 hitpoints and the examine text "A big bear." |
| Actors.NewPlayer | gameServer/game/player/Player.ts:9-27 | a player has the socket id as its id and the given name, and stands alive on its spawn tile without a target; Actors.PlayerDefaults states its values |
| Actors.PlayerDefaults | gameServer/game/player/Player.ts:15-27 | a player's id is the given one and its type is the player type. It has hitpoints experience 388, strength experience 500, zero attack and defence, 5 hitpoints and respawn time 1; its unarmed damage is 2 |
| Actors.ResetEntity | gameServer/game/entity/Entity.ts:117-127 | hitpoints become the hitpoints level and both targets and the hp bar clear. The actor is back on its spawn tile. Every field other than these and `dying` is unchanged |
| Actors.Respawn | gameServer/game/monster/Monster.ts:17-29 | a dead actor stays dead exactly while its counter is below the respawn time, counting up and reset to its spawn tile. Then it revives with counter 0 and full hitpoints. The counter stays within [0, respawnTime] |
| Actors.RespawnSchedule | gameServer/game/monster/Monster.ts:18-28 | through the countdown the actor stays dead on its spawn tile, and the counter equals the number of updates |
| Actors.RespawnAfterCountdown | gameServer/game/monster/Monster.ts:18-28 | the (respawnTime + 1)-th dead update revives it with full hitpoints |
| Actors.DecayCounters | gameServer/game/entity/Entity.ts:201-215 | each counter drops by one only when positive. At zero, the last damage clears and the hp bar hides. Nothing else changes |
| Actors.CountersAfter | gameServer/game/entity/Entity.ts:201-215 | after n updates each counter is max(0, c - n), so it never goes negative |
| Actors.HpBarHides | gameServer/game/entity/Entity.ts:205-215 | once the counters have run out, the hp bar is hidden and no damage is shown |
| Actors.Wander | gameServer/game/entity/Entity.ts:169-199 | an actor with a target does not wander. An idle actor whose counter has reached 7, that has no target tile and whose draw says so, gets the drawn tile as its new target tile, and in no other case does that tile change. An idle actor whose counter reached 7 restarts it at 0. The counter stays in [0, 7] |
| Actors.WanderWaits | gameServer/game/entity/Entity.ts:170-172 | before its eighth tick an idle actor keeps its target tile and counts up |
| Actors.Attack | gameServer/game/entity/Entity.ts:228-289 | the attack is a no-op for self, without a target and while cooling down. Otherwise the cooldown restarts and the victim loses exactly the damage on a hit and 0 on a miss, and its damage marker and hp bar are set. A victim at or below 0 hitpoints dies and the attacker drops its target. A victim without a target targets the attacker. The attacker's sprite faces the victim, and an attacker that follows its target waits 2 ticks before following again. A victim that survives leaves the attacker's chase and target tile as they were. Apart from these fields neither actor changes |
| Actors.HitsPerHundred | gameServer/game/entity/Entity.ts:264 | exactly `chance` of the hundred equally likely rolls hit |
| Actors.AttackBounds | gameServer/game/entity/Entity.ts:266 | an attack takes between 0 and the attacker's damage from the victim |
| Actors.KillingBlow | gameServer/game/entity/Entity.ts:274-279 | a hit of at least the victim's hitpoints kills it and clears the attacker's target |
| Actors.NoDoubleAttack | gameServer/game/entity/Entity.ts:236-252 | with a non-zero attack speed, a second attack in the same tick does nothing |
| Actors.Face | gameServer/game/entity/Entity.ts:410-416 | the facing becomes the move's direction, and the sprite lands in its frames when there is one |
| Actors.MoveAlongPath | gameServer/game/entity/Entity.ts:357-408 | the actor steps onto the next tile unless it is only turning towards a new target. It moves at most one tile and takes the pending target as its target tile. A last step clears the target tile and the facing; otherwise, with no pending target, the target tile is kept. It then faces the detour step when there is one, the next tile when only turning, and the tile after next after a step that is not the last. Only the position, facing, sprite and the two target tiles change |
| Registry.Set | gameServer/game/World.ts:7-199 | writing one actor changes that actor only and leaves every other actor, the chat, the queue and the time alone |
| Registry.FindIndex | gameServer/game/World.ts:190-195 | the index found holds the id and no earlier one does; none is found when no actor has the id |
| Registry.Lookup | gameServer/game/World.ts:190-195 | a found actor has the id. Nothing is found exactly when no monster and no player has it. A monster with the id is found before any player |
| Registry.LookupFindsFirst | gameServer/game/World.ts:190-195 | the first matching monster is found, else the first matching player |
| Registry.AddPlayer | gameServer/game/World.ts:71-74 | the player is appended to the player list and nothing else changes |
| Registry.AddEntity | gameServer/game/World.ts:176-178 | the monster is appended to the monster list and nothing else changes |
| Registry.RemovePlayer | gameServer/game/World.ts:77-81 | the player list loses exactly the players with the id and nothing else changes |
| Registry.RemoveEntity | gameServer/game/World.ts:83-87 | the monster list loses exactly the monsters with the id and nothing else changes |
| Registry.RemoveId | gameServer/game/World.ts:77-87 | every actor with the id goes and exactly the others stay |
| Registry.RemoveIdConcat | gameServer/game/World.ts:77-87 | removal works element by element, so the others keep their order |
| Registry.RemoveIdempotent | gameServer/game/World.ts:77-87 | removing twice is removing once |
| Registry.RemovedIsGone | gameServer/game/World.ts:77-87 | after removal from both registries the id is not found |
| Registry.AddedPlayerFound | gameServer/game/World.ts:71-74 | an added player with a fresh id is found at the end of the player list |
| Registry.Enqueue | gameServer/game/World.ts:66-68 | the action goes at the end of the queue and nothing else changes |
| Registry.ForPlayer | gameServer/game/World.ts:93-95 | a player's batch holds exactly its queued entries |
| Registry.WithoutPlayer | gameServer/game/World.ts:99-101 | the remaining queue holds exactly the other players' entries |
| Registry.SplitQueue | gameServer/game/World.ts:93-101 | the batch and the remainder together are as long as the queue |
| Registry.ForPlayerWithout | gameServer/game/World.ts:93-101 | taking out another player's entries leaves this player's batch unchanged |
| Registry.WithoutCommutes | gameServer/game/World.ts:99-101 | taking out two players' entries in either order gives the same queue |
| Registry.PostChat | gameServer/network/WebSocketEvents.ts:77-83 | the message goes at the end of the log and nothing else changes |
| Registry.GameMapIsSquare | gameServer/game/World.ts:7-24 | the world map is 16 x 16, so the pathfinder's adjustment succeeds on it |
| Behaviour.Put | gameServer/game/World.ts:7-199 | writing back an actor under its own id keeps both id lists |
| Behaviour.TargetOf | gameServer/game/entity/Entity.ts:341-355 | without a chase the target is the target tile, else the pending tile; chasing with both tiles set keeps the target tile; otherwise a chase aims at the chased actor's current tile, and there is no target when the id is not found |
| Behaviour.ChaseAttack | gameServer/game/entity/Entity.ts:303-313 | the attacker stays on its tile and forgets its facing and target tile, and the victim takes the attack |
| Behaviour.Walk | gameServer/game/entity/Entity.ts:316-338 | one step of at most one tile. A pending target with no target tile only turns the actor. A throw leaves the world unchanged |
| Behaviour.MoveTowardsTarget | gameServer/game/entity/Entity.ts:291-339 | no target means nothing happens. The actor moves at most one tile. Ids, chat and queue are kept. With no chase and no target tile on a usable map it does not step and does not throw |
| Behaviour.EntityUpdate | gameServer/game/entity/Entity.ts:168-226 | keeps the ids, the chat and the queue |
| Behaviour.MonsterUpdate | gameServer/game/monster/Monster.ts:17-32 | keeps the ids, the chat and the queue |
| Behaviour.DeadMonsterStaysAtSpawn | gameServer/game/monster/Monster.ts:18-31 | a monster inside its countdown ends its update dead on its spawn tile without throwing, although `Entity.update` still runs |
| Behaviour.FollowDelayHolds | gameServer/game/entity/Entity.ts:217-223 | an actor with a target whose follow delay is positive stays on its tile, only counts its delays down, and leaves every other actor unchanged |
| Behaviour.FollowDelayOver | gameServer/game/entity/Entity.ts:217-225 | once the follow delay is used up, an actor with a target moves towards it with its counters decayed |
| Behaviour.DeadPlayerWaits | gameServer/game/player/Player.ts:29-41 | a dead player inside its countdown, with no queued actions, ends its update dead on its spawn tile without throwing |
| Behaviour.AdjacentChaseAttacks | gameServer/game/entity/Entity.ts:303-313 | with a two-tile path to a found chased actor, the chaser attacks instead of stepping |
| Behaviour.ApplyActions | gameServer/game/player/Player.ts:60-103 | applying a batch in order keeps the ids, the chat and the queue; Behaviour.LastMoveWins and Behaviour.UnknownActionsChangeNothing state what the batch does |
| Behaviour.ApplyAction | gameServer/game/player/Player.ts:60-103 | a move sets the pending tile and drops the chase. An attack-move on a found id chases it from its current tile. An unknown id or action changes nothing |
| Behaviour.LastMoveWins | gameServer/game/player/Player.ts:60-103 | the last move of a batch decides the pending tile |
| Behaviour.UnknownActionsChangeNothing | gameServer/game/player/Player.ts:100-101 | unknown actions leave the world as it was |
| Behaviour.PlayerUpdate | gameServer/game/player/Player.ts:29-108 | keeps the ids, the chat and the queue |
| Tick.WithoutAll | gameServer/game/World.ts:92-102 | the queue without the listed players' entries holds exactly the entries of other ids |
| Tick.BatchesAreOwnEntries | gameServer/game/World.ts:92-102 | with distinct ids the k-th batch is exactly player k's entries of the original queue |
| Tick.PlayerTurns | gameServer/game/World.ts:92-102 | the players take their turns in registry order, each handed its batch, and the queue loses each batch in turn |
| Tick.MonsterTurns | gameServer/game/World.ts:104-106 | the monsters' updates keep the ids, the chat and the queue |
| Tick.GameTick | gameServer/game/World.ts:90-110 | ids and chat are kept. A tick that completes stamps the time, hands out every batch and leaves the queue without the registered players' entries |
| Tick.TickDeliversOwnActions | gameServer/game/World.ts:92-96 | with distinct ids each player receives exactly its queued actions, in arrival order |
| Tick.TickConservesQueue | gameServer/game/World.ts:98-101 | after a tick an entry stays queued exactly when its id is not a registered player; every other entry was handed to its player |
| Sync.WorldData | gameServer/game/World.ts:112-168 | the snapshot lists the players and monsters in registry order, with at most the seven newest chat messages, and an empty map |
| Sync.ChatWindow | gameServer/game/World.ts:163-165 | the window holds the newest min(7, n) messages in order |
| Sync.ChangedViews | gameServer/network/WebSocketEvents.ts:166-189 | only views of the current list are sent, never more than it holds |
| Sync.ChangedViewsExact | gameServer/network/WebSocketEvents.ts:166-189 | a view is sent exactly when it sits at a position that is new or differs from the previous view there |
| Sync.ChangedViewsOfSame | gameServer/network/WebSocketEvents.ts:166-189 | against the same list nothing is sent |
| Sync.ChangedViewsOfAppended | gameServer/network/WebSocketEvents.ts:166-189 | when the old list is a prefix of the new one, exactly the appended views are sent |
| Sync.NewMessages | gameServer/network/WebSocketEvents.ts:192-200 | the sent messages are exactly the current ones that were not in the previous list |
| Sync.ChatDeltaIsNewestPosted | gameServer/network/WebSocketEvents.ts:192-200 | messages posted between two broadcasts arrive as the newest seven of them, in order |
| Sync.ChangedData | gameServer/network/WebSocketEvents.ts:153-208 | with no previous snapshot the whole snapshot is sent. Otherwise the map is sent only if it changed, and the chat delta is the new messages |
| Sync.ChangedDataOfSame | gameServer/network/WebSocketEvents.ts:159-207 | identical snapshots give no players, no monsters, no messages and no map |
| Sync.BroadcastState | gameServer/network/WebSocketEvents.ts:127-151 | the payload adds the tick time and the online player ids in registry order; the current snapshot is kept for the next broadcast |
| Sync.RebroadcastIsEmpty | gameServer/network/WebSocketEvents.ts:127-151 | broadcasting an unchanged world again sends an empty delta |
| Sync.JoinAndChatDelta | gameServer/network/WebSocketEvents.ts:127-208 | when players join and messages are posted, the delta holds exactly the newcomers and the newest seven posted messages, and no map |

## Left out

- Sockets, the HTTP server, `setInterval`, `io.emit`, uuid generation and logging: input/output and timers, with no effect on the state.
- `encodeGameState` is a `JSON.stringify` wrapper. The payload is a record here, and its serialisation is not modelled.
- The login server, the database and the process bootstrap: outside the game core.
- `Entity.speak` and the dialogues: not called from the tick, and with no effect on combat, movement or the broadcast.
- `World.setInitialEntities` (two bears, three skeletons): Skeleton.ts is not part of this model. The model takes any initial monster list, built with `Actors.NewBear` or `Actors.NewMonster`.
- Weapons are only their integer attack value. The source always passes `null`, so actors fight unarmed.
- `huffmanEncode` counts characters with `for…of` (code points) but encodes with `split("")` (UTF-16 units). Input is a plain sequence of characters, so the mismatch on astral characters is not modelled.
- Pathfinding.AStar: the minimality of the returned path is not proved; only the lower bound of the Manhattan distance is.
- Actors.MoveAlongPath: requires the next path tile to be adjacent. Positions are integral and path steps are unit steps, so the fractional `distance > stepSize` branch, with its square root, is not modelled.
- Combat.CombatLevelFromLevels: the 0.325 factor is the exact real 13/40. Double rounding at an exact integer boundary is not captured.
- Experience.Increment: `Math.pow(2, r / 7)` for r < 7 is given by the seven double values it returns. The model does not reproduce double arithmetic itself.
- Tick.GameTick: a thrown update ends the tick with the world as it stands at the throw. What the interval timer does next is not modelled.
- Behaviour.MoveTowardsTarget: the map and tile table are a parameter (`Terrain`). The world passes its fixed 16 x 16 map, and `Registry.GameMapIsSquare` shows that map is usable.
- Huffman.FrequencyEntries: the `Object.entries` key order (digit keys ascending first, then insertion order) is built into the definition; the contract states the keys and counts, not their order.
- Tick.GameTick: that players update before monsters, each list in registry order, holds by construction and is not a separate contract.
- Behaviour.EntityUpdate, Behaviour.MonsterUpdate, Behaviour.PlayerUpdate: their contracts state only what they keep (ids, chat, queue). What they do is stated by the contracts of their parts (Actors.Respawn, Actors.Wander, Actors.DecayCounters, Behaviour.ApplyAction, Behaviour.MoveTowardsTarget, and the follow delay that Actors.Attack sets), by Behaviour.FollowDelayHolds and Behaviour.FollowDelayOver for that delay, and by Behaviour.DeadMonsterStaysAtSpawn and Behaviour.DeadPlayerWaits.
- Registry.Action: the coordinates and ids of queued actions are taken to be integers and strings; the socket handler passes untyped client data through unchecked, so malformed actions are not modelled.
- Sync.ChangedViews: the order of the sent views is that of the current list. This is stated by construction, and the lemmas state membership and the two exact cases.

## Findings

| source | as written | input that shows it | evidently intended | confidence | as-written member | corrected member |
|---|---|---|---|---|---|---|
| gameServer/game/utils/ExperienceUtils.ts:37-39 | subtracts the current level's increment, not its cumulative threshold, from the experience; for level 1 it requests the increment of level 1 and throws | experience 174 (level 3) yields 18, but 101 more are needed for level 4; experience 0 throws | the experience left until the next level's cumulative threshold | not executed | Experience.ExperienceUntilNextLevel (with Experience.UntilNextLevelAsWrittenDiffers) | Experience.ExperienceToNextLevel (with Experience.ExperienceToNextLevelIsExact) |

=== FILE: actors.dfy ===
/**
 * The per-actor state of the simulation: the record every player and monster
 * carries, and the operations on one actor alone (or on an attacker and its
 * victim) that make up a tick.
 *
 * Randomness enters as `Dice`: the hit roll is floor(Math.random() * 100),
 * the wander decision is `Math.random() > 0.5`, and the wander coordinates
 * are floor(Math.random() * 10).
 */
module Actors {
  import opened Wrappers
  import opened Experience
  import opened Combat
  import opened Pathfinding

  // ---------------------------------------------------------------------------
  // Facing and sprites

  datatype Direction = UpLeft | UpRight | DownLeft | DownRight

  /**
   * `getDirection`: diagonals by the signs of both components; a purely
   * horizontal move faces downRight (right) or upLeft (left), a purely
   * vertical one downLeft (+y) or upRight (-y); no move has no direction.
   */
  function DirectionOf(dx: int, dy: int): (d: Option<Direction>)
    ensures d.None? <==> dx == 0 && dy == 0
  {
    if dx > 0 && dy < 0 then Some(UpRight)
    else if dx > 0 && dy > 0 then Some(DownRight)
    else if dx < 0 && dy < 0 then Some(UpLeft)
    else if dx < 0 && dy > 0 then Some(DownLeft)
    else if dx > 0 then Some(DownRight)
    else if dx < 0 then Some(UpLeft)
    else if dy > 0 then Some(DownLeft)
    else if dy < 0 then Some(UpRight)
    else None
  }

  function Sign(n: int): int {
    if n > 0 then 1 else if n < 0 then -1 else 0
  }

  function Opposite(d: Direction): Direction {
    match d
    case UpLeft => DownRight
    case DownRight => UpLeft
    case UpRight => DownLeft
    case DownLeft => UpRight
  }

  /** Only the signs of the components matter. */
  lemma DirectionBySign(dx: int, dy: int)
    ensures DirectionOf(dx, dy) == DirectionOf(Sign(dx), Sign(dy))
  {
  }

  /**
   * The four steps a path can take: right faces downRight, left upLeft, +y
   * downLeft and -y upRight; with `DirectionBySign` this fixes every
   * straight move.
   */
  lemma UnitStepDirections()
    ensures DirectionOf(1, 0) == Some(DownRight) && DirectionOf(-1, 0) == Some(UpLeft)
    ensures DirectionOf(0, 1) == Some(DownLeft) && DirectionOf(0, -1) == Some(UpRight)
  {
  }

  /** Moves with both components non-zero face the matching diagonal. */
  lemma DiagonalDirections()
    ensures DirectionOf(1, -1) == Some(UpRight) && DirectionOf(1, 1) == Some(DownRight)
    ensures DirectionOf(-1, -1) == Some(UpLeft) && DirectionOf(-1, 1) == Some(DownLeft)
  {
  }

  /** Reversing a move faces the opposite way. */
  lemma DirectionReverses(dx: int, dy: int)
    ensures DirectionOf(-dx, -dy) == if dx == 0 && dy == 0 then None else Some(Opposite(DirectionOf(dx, dy).value))
  {
  }

  /** The three-frame walk cycle of each direction. */
  function Frames(d: Direction): (frames: seq<int>)
    ensures |frames| == 3
  {
    match d
    case UpLeft => [1, 2, 3]
    case UpRight => [4, 5, 6]
    case DownRight => [7, 8, 9]
    case DownLeft => [10, 11, 12]
  }

  /** `Array.prototype.indexOf`: the first index holding `x`, or -1. */
  function IndexOf(s: seq<int>, x: int): (i: int)
    ensures -1 <= i < |s|
    ensures i >= 0 ==> s[i] == x && forall j :: 0 <= j < i ==> s[j] != x
    ensures i == -1 ==> x !in s
  {
    if |s| == 0 then -1
    else if s[0] == x then 0
    else
      var i := IndexOf(s[1..], x);
      if i == -1 then -1 else i + 1
  }

  /** Three distinct frames. */
  predicate IsCycle(frames: seq<int>) {
    |frames| == 3 && frames[0] != frames[1] && frames[1] != frames[2] && frames[0] != frames[2]
  }

  /** The frame after `x` in a cycle; a frame outside it has index -1 and so yields the first. */
  function NextInCycle(frames: seq<int>, x: int): (r: int)
    requires |frames| == 3
    ensures r in frames
    ensures x !in frames ==> r == frames[0]
  {
    frames[(IndexOf(frames, x) + 1) % |frames|]
  }

  /** `updateSprite`: the next frame of the direction's cycle. */
  function NextSprite(spriteNum: int, d: Direction): (r: int)
    ensures r in Frames(d)
    ensures spriteNum !in Frames(d) ==> r == Frames(d)[0]
  {
    NextInCycle(Frames(d), spriteNum)
  }

  /** In a sequence without repeats, `indexOf` finds each element at its own index. */
  lemma IndexOfThree(s: seq<int>, k: nat)
    requires IsCycle(s) && k < 3
    ensures IndexOf(s, s[k]) == k
  {
    if k > 0 {
      assert s[1..][k - 1] == s[k];
      if k == 2 {
        assert s[1..][1..][0] == s[2];
      }
    }
  }

  lemma CycleReturns(f: seq<int>, x: int)
    requires IsCycle(f) && x in f
    ensures NextInCycle(f, x) != x
    ensures NextInCycle(f, NextInCycle(f, NextInCycle(f, x))) == x
  {
    var k := IndexOf(f, x);
    IndexOfThree(f, (k + 1) % 3);
    IndexOfThree(f, (k + 2) % 3);
  }

  /** Walking on in one direction cycles through its three frames and comes back. */
  lemma SpriteCycle(spriteNum: int, d: Direction)
    requires spriteNum in Frames(d)
    ensures NextSprite(spriteNum, d) != spriteNum
    ensures NextSprite(NextSprite(NextSprite(spriteNum, d), d), d) == spriteNum
  {
    CycleReturns(Frames(d), spriteNum);
  }

  /** Turning to a new direction starts its cycle at the first frame. */
  lemma SpriteTurn(spriteNum: int, d1: Direction, d2: Direction)
    requires spriteNum in Frames(d1) && d1 != d2
    ensures NextSprite(spriteNum, d2) == Frames(d2)[0]
  {
    assert spriteNum !in Frames(d2);
  }

  /** The frame an attacker shows while facing its victim. */
  function AttackFrame(d: Option<Direction>): (frame: int)
    ensures d.Some? ==> frame == Frames(d.value)[0]
    ensures d.None? ==> frame == 10
    ensures frame in [1, 4, 7, 10]
  {
    match d
    case Some(UpLeft) => 1
    case Some(UpRight) => 4
    case Some(DownRight) => 7
    case _ => 10
  }

  // ---------------------------------------------------------------------------
  // The actor record

  /** The type codes of the source: 0 player, 1 npc, 2 monster. */
  const PlayerType := 0
  const MonsterType := 2

  datatype Actor = Actor(
    entityID: string,
    kind: int,
    name: string,
    examineText: string,
    origin: Tile,
    pos: Tile,
    targetTile: Option<Tile>,
    newTargetTile: Option<Tile>,
    targetedEntityID: Option<string>,
    currentHitpoints: int,
    skills: Skills,
    direction: string,
    attackStyle: string,
    dying: bool,
    isHpBarShown: bool,
    hpBarCounter: int,
    attackSpeed: int,
    attackTickCounter: int,
    tickCounter: int,
    isDead: bool,
    respawnTime: int,
    respawnTickCounter: int,
    lastDamageDealt: Option<int>,
    lastDamageDealtCounter: int,
    spriteNum: int,
    followTickCounter: int,
    shouldFollow: bool,
    nextTileDirection: Option<Direction>)

  /** The source tests `targetedEntityID` for truthiness, so an empty id counts as no target. */
  predicate HasTarget(a: Actor) {
    a.targetedEntityID.Some? && a.targetedEntityID.value != ""
  }

  /** The `Entity` constructor; the uuid it draws is the `id` parameter. */
  function NewEntity(id: string, x: int, y: int, name: string, kind: int): (e: Actor)
    ensures e.entityID == id && e.kind == kind && e.name == name
    ensures e.pos == e.origin == Tile(x, y) && !e.isDead && e.currentHitpoints == 10
    ensures !HasTarget(e) && e.targetTile.None? && e.newTargetTile.None? && !e.isHpBarShown
    ensures e.skills == Skills(0, 0, 0, 0, 0, 0, 0) && e.attackTickCounter == 0 && e.followTickCounter == 0
  {
    Actor(
      entityID := id, kind := kind, name := name, examineText := "",
      origin := Tile(x, y), pos := Tile(x, y),
      targetTile := None, newTargetTile := None, targetedEntityID := None,
      currentHitpoints := 10, skills := Skills(0, 0, 0, 0, 0, 0, 0),
      direction := "down", attackStyle := "melee", dying := false,
      isHpBarShown := false, hpBarCounter := 0,
      attackSpeed := 4, attackTickCounter := 0, tickCounter := 0,
      isDead := false, respawnTime := 20, respawnTickCounter := 0,
      lastDamageDealt := Some(0), lastDamageDealtCounter := 0,
      spriteNum := 1, followTickCounter := 0, shouldFollow := true,
      nextTileDirection := None)
  }

  /** The `Monster` constructor: type 2 and the given respawn time. */
  function NewMonster(id: string, x: int, y: int, name: string, respawnTime: int): (m: Actor)
    ensures m.kind == MonsterType && m.respawnTime == respawnTime
    ensures m.pos == m.origin == Tile(x, y) && !m.isDead
  {
    NewEntity(id, x, y, name, MonsterType).(respawnTime := respawnTime)
  }

  /** The `Bear` constructor. */
  function NewBear(id: string): (b: Actor)
    ensures b.entityID == id && b.pos == b.origin && !b.isDead && !HasTarget(b)
  {
    NewMonster(id, 0, 0, "Bear", 20).(
      skills := Skills(0, 0, 0, 388, 0, 0, 0),
      examineText := "A big bear.",
      currentHitpoints := LevelFromExperience(388))
  }

  /** The `Player` constructor: the socket id becomes the entity id. */
  function NewPlayer(playerID: string, x: int, y: int, name: string): (p: Actor)
    ensures p.entityID == playerID && p.name == name
    ensures p.pos == p.origin == Tile(x, y) && !p.isDead && !HasTarget(p)
  {
    NewEntity(playerID, x, y, name, PlayerType).(
      skills := Skills(0, 500, 0, 388, 0, 0, 0),
      respawnTime := 1,
      currentHitpoints := LevelFromExperience(388))
  }

  /** A bear is a level-5-hitpoints monster at the origin that respawns after 20 ticks. */
  lemma BearDefaults(id: string)
    ensures NewBear(id).currentHitpoints == 5
    ensures NewBear(id).kind == MonsterType && NewBear(id).respawnTime == 20
    ensures NewBear(id).pos == Tile(0, 0) && NewBear(id).name == "Bear"
    ensures NewBear(id).skills.attack == 0 && NewBear(id).skills.strength == 0
    ensures NewBear(id).skills.defence == 0 && NewBear(id).skills.hitpoints == 388
    ensures NewBear(id).examineText == "A big bear."
  {
    LevelExamples();
  }

  /** A new player starts with 5 hitpoints, hits for 2 unarmed, and respawns after one tick. */
  lemma PlayerDefaults(playerID: string, x: int, y: int, name: string)
    ensures NewPlayer(playerID, x, y, name).entityID == playerID
    ensures NewPlayer(playerID, x, y, name).currentHitpoints == 5
    ensures NewPlayer(playerID, x, y, name).respawnTime == 1
    ensures NewPlayer(playerID, x, y, name).kind == PlayerType
    ensures NewPlayer(playerID, x, y, name).skills.hitpoints == 388 && NewPlayer(playerID, x, y, name).skills.strength == 500
    ensures NewPlayer(playerID, x, y, name).skills.attack == 0 && NewPlayer(playerID, x, y, name).skills.defence == 0
    ensures AttackDamage(NewPlayer(playerID, x, y, name).skills.strength, None) == 2
  {
    LevelExamples();
    assert LevelFromExperience(500) == 5 by {
      IncrementTable();
      assert Cumulative(5) == 387 && Cumulative(6) == 511;
      LevelUnique(5, 500);
    }
  }

  // ---------------------------------------------------------------------------
  // Respawn and reset

  /** `resetEntity`: full hitpoints, no targets, hp bar hidden, back at the spawn tile. */
  function ResetEntity(a: Actor): (r: Actor)
    ensures r.currentHitpoints == LevelFromExperience(a.skills.hitpoints) >= 1
    ensures r.targetTile.None? && !HasTarget(r) && !r.isHpBarShown && r.pos == a.origin
    ensures r.(currentHitpoints := a.currentHitpoints, targetTile := a.targetTile,
               targetedEntityID := a.targetedEntityID, isHpBarShown := a.isHpBarShown,
               dying := a.dying, pos := a.pos) == a
  {
    a.(currentHitpoints := LevelFromExperience(a.skills.hitpoints),
       targetTile := None, targetedEntityID := None,
       isHpBarShown := false, dying := false, pos := a.origin)
  }

  /**
   * The respawn countdown shared by `Monster.update` and `updatePlayer`: a
   * dead actor below its respawn time counts one tick and is reset; at the
   * respawn time it comes back to life with full hitpoints.
   */
  function Respawn(a: Actor): (r: Actor)
    ensures !a.isDead ==> r == a
    ensures r.entityID == a.entityID && r.origin == a.origin && r.skills == a.skills
    ensures 0 <= a.respawnTickCounter <= a.respawnTime ==> 0 <= r.respawnTickCounter <= r.respawnTime
    ensures a.isDead ==> (r.isDead <==> a.respawnTickCounter < a.respawnTime)
    ensures a.isDead && r.isDead ==> r.pos == a.origin && r.respawnTickCounter == a.respawnTickCounter + 1
    ensures a.isDead && !r.isDead ==> r.respawnTickCounter == 0 && r.currentHitpoints == LevelFromExperience(a.skills.hitpoints)
  {
    if !a.isDead then a
    else if a.respawnTickCounter < a.respawnTime then
      ResetEntity(a.(respawnTickCounter := a.respawnTickCounter + 1))
    else
      a.(isDead := false, respawnTickCounter := 0,
         currentHitpoints := LevelFromExperience(a.skills.hitpoints))
  }

  function RespawnTimes(a: Actor, n: nat): Actor {
    if n == 0 then a else Respawn(RespawnTimes(a, n - 1))
  }

  /**
   * An actor that dies with a fresh counter stays dead at its spawn tile for
   * `respawnTime` updates and is alive again on the next one.
   */
  lemma {:induction false} RespawnSchedule(a: Actor, n: nat)
    requires a.isDead && a.respawnTickCounter == 0 && n <= a.respawnTime
    ensures RespawnTimes(a, n).isDead && RespawnTimes(a, n).respawnTickCounter == n
    ensures n >= 1 ==> RespawnTimes(a, n).pos == a.origin
    ensures RespawnTimes(a, n).respawnTime == a.respawnTime && RespawnTimes(a, n).origin == a.origin
    ensures RespawnTimes(a, n).skills == a.skills
  {
    if n > 0 {
      RespawnSchedule(a, n - 1);
    }
  }

  lemma RespawnAfterCountdown(a: Actor)
    requires a.isDead && a.respawnTickCounter == 0 && a.respawnTime >= 0
    ensures !RespawnTimes(a, a.respawnTime + 1).isDead
    ensures RespawnTimes(a, a.respawnTime + 1).respawnTickCounter == 0
    ensures RespawnTimes(a, a.respawnTime + 1).currentHitpoints == LevelFromExperience(a.skills.hitpoints)
  {
    RespawnSchedule(a, a.respawnTime);
  }

  // ---------------------------------------------------------------------------
  // Counters

  /** One tick of a countdown: positive values go down by one, others stay. */
  function Tick(c: int): (r: int)
    ensures c > 0 ==> r == c - 1
    ensures c <= 0 ==> r == c
  {
    if c > 0 then c - 1 else c
  }

  /**
   * The counter block of `Entity.update` and `updatePlayer`: the attack
   * cooldown, the damage splash and the hp bar count down; a splash counter
   * already at 0 clears the splash, an hp-bar counter at 0 hides the bar.
   */
  function DecayCounters(a: Actor): (r: Actor)
    ensures r.attackTickCounter == Tick(a.attackTickCounter)
    ensures r.lastDamageDealtCounter == Tick(a.lastDamageDealtCounter)
    ensures r.hpBarCounter == Tick(a.hpBarCounter)
    ensures a.lastDamageDealtCounter <= 0 ==> r.lastDamageDealt.None?
    ensures a.lastDamageDealtCounter > 0 ==> r.lastDamageDealt == a.lastDamageDealt
    ensures a.hpBarCounter <= 0 ==> !r.isHpBarShown
    ensures a.hpBarCounter > 0 ==> r.isHpBarShown == a.isHpBarShown
    ensures r.(attackTickCounter := a.attackTickCounter, lastDamageDealtCounter := a.lastDamageDealtCounter,
               hpBarCounter := a.hpBarCounter, lastDamageDealt := a.lastDamageDealt,
               isHpBarShown := a.isHpBarShown) == a
  {
    a.(attackTickCounter := Tick(a.attackTickCounter),
       lastDamageDealtCounter := Tick(a.lastDamageDealtCounter),
       lastDamageDealt := if a.lastDamageDealtCounter > 0 then a.lastDamageDealt else None,
       hpBarCounter := Tick(a.hpBarCounter),
       isHpBarShown := if a.hpBarCounter > 0 then a.isHpBarShown else false)
  }

  function DecayTimes(a: Actor, n: nat): Actor {
    if n == 0 then a else DecayCounters(DecayTimes(a, n - 1))
  }

  function Max(a: int, b: int): int {
    if a >= b then a else b
  }

  /** After n ticks a non-negative countdown c reads max(0, c - n): it never goes below 0. */
  lemma {:induction false} CountersAfter(a: Actor, n: nat)
    requires a.attackTickCounter >= 0 && a.hpBarCounter >= 0 && a.lastDamageDealtCounter >= 0
    ensures DecayTimes(a, n).attackTickCounter == Max(0, a.attackTickCounter - n)
    ensures DecayTimes(a, n).hpBarCounter == Max(0, a.hpBarCounter - n)
    ensures DecayTimes(a, n).lastDamageDealtCounter == Max(0, a.lastDamageDealtCounter - n)
  {
    if n > 0 {
      CountersAfter(a, n - 1);
    }
  }

  /** A shown hp bar with counter c is hidden after c + 1 ticks, and the damage splash is cleared likewise. */
  lemma {:induction false} HpBarHides(a: Actor, n: nat)
    requires a.hpBarCounter >= 0 && a.lastDamageDealtCounter >= 0
    requires a.attackTickCounter >= 0
    requires n > a.hpBarCounter && n > a.lastDamageDealtCounter
    ensures !DecayTimes(a, n).isHpBarShown
    ensures DecayTimes(a, n).lastDamageDealt.None?
  {
    CountersAfter(a, n - 1);
  }

  // ---------------------------------------------------------------------------
  // Wandering

  /** The random draws one update may consume. */
  datatype Dice = Dice(hitRoll: int, wander: bool, wanderX: int, wanderY: int)

  /**
   * The idle part of `Entity.update`: without a target, every eighth tick an
   * actor with no target tile may pick a random tile to walk to. The source's
   * early return compares a fresh object by reference and never fires.
   */
  function Wander(a: Actor, dice: Dice): (r: Actor)
    ensures HasTarget(a) ==> r == a
    ensures 0 <= a.tickCounter <= 7 ==> 0 <= r.tickCounter <= 7
    ensures r.newTargetTile != a.newTargetTile ==>
              !HasTarget(a) && a.tickCounter >= 7 && a.targetTile.None? && dice.wander
              && r.newTargetTile == Some(Tile(dice.wanderX, dice.wanderY))
    ensures !HasTarget(a) && a.tickCounter >= 7 ==> r.tickCounter == 0
    ensures !HasTarget(a) && a.tickCounter >= 7 && a.targetTile.None? && dice.wander ==>
              r.newTargetTile == Some(Tile(dice.wanderX, dice.wanderY))
    ensures r.(tickCounter := a.tickCounter, newTargetTile := a.newTargetTile) == a
  {
    if HasTarget(a) then a
    else
      var counted := a.(tickCounter := a.tickCounter + 1);
      if counted.tickCounter > 7 then
        var reset := counted.(tickCounter := 0);
        if reset.targetTile.None? && dice.wander then
          reset.(newTargetTile := Some(Tile(dice.wanderX, dice.wanderY)))
        else reset
      else counted
  }

  /** An idle actor whose counter starts at 0 picks a new target no earlier than its eighth tick. */
  lemma WanderWaits(a: Actor, dice: Dice)
    requires !HasTarget(a) && 0 <= a.tickCounter < 7
    ensures Wander(a, dice).newTargetTile == a.newTargetTile
    ensures Wander(a, dice).tickCounter == a.tickCounter + 1
  {
  }

  // ---------------------------------------------------------------------------
  // Attacking

  datatype Outcome = Outcome(attacker: Actor, victim: Actor)

  /** `Math.random() * 100 < chance` for a percentile roll: floor(x) < n <==> x < n for integral n. */
  predicate Hits(hitRoll: int, chance: int) {
    hitRoll < chance
  }

  /** The damage a hit does: unarmed, from strength experience. */
  function HitDamage(a: Actor): int {
    AttackDamage(a.skills.strength, None)
  }

  /** Whether `attackEntity` acts at all: not on itself, only with a target, only off cooldown. */
  predicate CanAttack(a: Actor, v: Actor) {
    a.entityID != v.entityID && HasTarget(a) && a.attackTickCounter == 0
  }

  /**
   * `attackEntity`: the attacker faces its victim and starts its cooldown;
   * the roll decides whether the victim loses the damage; the victim shows
   * the splash and its hp bar, dies at 0 hitpoints (the attacker then drops
   * its target), and targets its attacker if it had no target. The hit
   * chance is fed the raw attack and defence experience, as in the source.
   */
  function Attack(a: Actor, v: Actor, hitRoll: int): (r: Outcome)
    ensures !CanAttack(a, v) ==> r == Outcome(a, v)
    ensures CanAttack(a, v) ==>
              var hit := Hits(hitRoll, AttackHitChance(a.skills.attack, v.skills.defence));
              var dealt := if hit then HitDamage(a) else 0;
              && r.attacker.attackTickCounter == a.attackSpeed
              && r.victim.currentHitpoints == v.currentHitpoints - dealt
              && r.victim.lastDamageDealt == Some(dealt)
              && r.victim.lastDamageDealtCounter == 3 && r.victim.hpBarCounter == 10
              && r.victim.isHpBarShown
              && (r.victim.isDead <==> v.isDead || r.victim.currentHitpoints <= 0)
              && (r.victim.currentHitpoints <= 0 ==> !HasTarget(r.attacker) && r.attacker.targetTile.None?)
              && (v.targetedEntityID.None? ==> r.victim.targetedEntityID == Some(a.entityID))
              && (v.targetedEntityID.Some? ==> r.victim.targetedEntityID == v.targetedEntityID)
              && r.attacker.spriteNum == AttackFrame(DirectionOf(v.pos.x - a.pos.x, v.pos.y - a.pos.y))
              && (a.shouldFollow ==> r.attacker.followTickCounter == 2)
              && (!a.shouldFollow ==> r.attacker.followTickCounter == a.followTickCounter)
    ensures CanAttack(a, v) && r.victim.currentHitpoints > 0 ==>
              r.attacker.targetedEntityID == a.targetedEntityID && r.attacker.targetTile == a.targetTile
    ensures r.attacker.(spriteNum := a.spriteNum, attackTickCounter := a.attackTickCounter,
                        followTickCounter := a.followTickCounter, targetedEntityID := a.targetedEntityID,
                        targetTile := a.targetTile) == a
    ensures r.victim.(currentHitpoints := v.currentHitpoints, lastDamageDealt := v.lastDamageDealt,
                      lastDamageDealtCounter := v.lastDamageDealtCounter, hpBarCounter := v.hpBarCounter,
                      isHpBarShown := v.isHpBarShown, isDead := v.isDead,
                      targetedEntityID := v.targetedEntityID) == v
    ensures r.attacker.entityID == a.entityID && r.victim.entityID == v.entityID
    ensures r.attacker.pos == a.pos && r.victim.pos == v.pos
    ensures r.attacker.skills == a.skills && r.victim.skills == v.skills
  {
    if !CanAttack(a, v) then Outcome(a, v)
    else
      var chance := AttackHitChance(a.skills.attack, v.skills.defence);
      var dealt := if Hits(hitRoll, chance) then HitDamage(a) else 0;
      var victim := Struck(a, v, dealt);
      Outcome(Striker(a, v, victim.currentHitpoints <= 0), victim)
  }

  /** The attacker's side of an effective attack; `killed` says whether the victim died. */
  function Striker(a: Actor, v: Actor, killed: bool): (r: Actor)
    ensures r.spriteNum == AttackFrame(DirectionOf(v.pos.x - a.pos.x, v.pos.y - a.pos.y))
    ensures r.attackTickCounter == a.attackSpeed
    ensures killed ==> !HasTarget(r) && r.targetTile.None?
    ensures !killed ==> r.targetedEntityID == a.targetedEntityID && r.targetTile == a.targetTile
    ensures a.shouldFollow ==> r.followTickCounter == 2
    ensures !a.shouldFollow ==> r.followTickCounter == a.followTickCounter
    ensures r.(spriteNum := a.spriteNum, attackTickCounter := a.attackTickCounter,
               followTickCounter := a.followTickCounter, targetedEntityID := a.targetedEntityID,
               targetTile := a.targetTile) == a
  {
    var facing := AttackFrame(DirectionOf(v.pos.x - a.pos.x, v.pos.y - a.pos.y));
    var a1 := a.(spriteNum := facing, attackTickCounter := a.attackSpeed);
    var a2 := if killed then a1.(targetedEntityID := None, targetTile := None) else a1;
    if a2.shouldFollow then a2.(followTickCounter := 2) else a2
  }

  /** The victim's side of an effective attack that deals `dealt` damage. */
  function Struck(a: Actor, v: Actor, dealt: int): (r: Actor)
    ensures r.currentHitpoints == v.currentHitpoints - dealt
    ensures r.lastDamageDealt == Some(dealt) && r.lastDamageDealtCounter == 3
    ensures r.hpBarCounter == 10 && r.isHpBarShown
    ensures r.isDead <==> v.isDead || r.currentHitpoints <= 0
    ensures v.targetedEntityID.None? ==> r.targetedEntityID == Some(a.entityID)
    ensures v.targetedEntityID.Some? ==> r.targetedEntityID == v.targetedEntityID
    ensures r.(currentHitpoints := v.currentHitpoints, lastDamageDealt := v.lastDamageDealt,
               lastDamageDealtCounter := v.lastDamageDealtCounter, hpBarCounter := v.hpBarCounter,
               isHpBarShown := v.isHpBarShown, isDead := v.isDead,
               targetedEntityID := v.targetedEntityID) == v
  {
    var v1 := v.(currentHitpoints := v.currentHitpoints - dealt, lastDamageDealt := Some(dealt),
                 lastDamageDealtCounter := 3, hpBarCounter := 10, isHpBarShown := true);
    var v2 := if v1.currentHitpoints <= 0 then v1.(isDead := true) else v1;
    if v2.targetedEntityID.None? then v2.(targetedEntityID := Some(a.entityID)) else v2
  }

  /** The rolls in [0, 100) that hit at the given chance. */
  function HitSet(chance: int): set<int> {
    set r | 0 <= r < 100 && Hits(r, chance)
  }

  /** Of the 100 equally likely rolls, exactly `chance` hit: the hit chance is a percentage. */
  lemma {:induction false} HitsPerHundred(chance: int)
    requires 0 <= chance <= 100
    ensures |HitSet(chance)| == chance
    decreases chance
  {
    if chance > 0 {
      HitsPerHundred(chance - 1);
      assert HitSet(chance) == HitSet(chance - 1) + {chance - 1};
    } else {
      assert HitSet(chance) == {};
    }
  }

  /** An attack never heals: the victim loses between 0 and one hit's damage. */
  lemma AttackBounds(a: Actor, v: Actor, hitRoll: int)
    ensures 0 <= v.currentHitpoints - Attack(a, v, hitRoll).victim.currentHitpoints <= HitDamage(a)
  {
  }

  /** A victim at no more hitpoints than the damage dies to a hit, and its killer stops targeting it. */
  lemma KillingBlow(a: Actor, v: Actor, hitRoll: int)
    requires CanAttack(a, v)
    requires Hits(hitRoll, AttackHitChance(a.skills.attack, v.skills.defence))
    requires v.currentHitpoints <= HitDamage(a)
    ensures Attack(a, v, hitRoll).victim.isDead
    ensures !HasTarget(Attack(a, v, hitRoll).attacker)
  {
  }

  /** Right after an attack the attacker is on cooldown, so a second attack in the same tick does nothing. */
  lemma NoDoubleAttack(a: Actor, v: Actor, w: Actor, hitRoll: int, roll2: int)
    requires CanAttack(a, v) && a.attackSpeed != 0
    ensures var o := Attack(a, v, hitRoll); Attack(o.attacker, w, roll2).attacker == o.attacker
  {
  }

  // ---------------------------------------------------------------------------
  // Walking one step

  /** `updateDirectionAndSprite`: face the move and, if it is a move, advance the sprite. */
  function Face(a: Actor, dx: int, dy: int): (r: Actor)
    ensures r.nextTileDirection == DirectionOf(dx, dy)
    ensures r.nextTileDirection.Some? ==> r.spriteNum in Frames(r.nextTileDirection.value)
    ensures r.nextTileDirection.None? ==> r.spriteNum == a.spriteNum
    ensures r.(nextTileDirection := a.nextTileDirection, spriteNum := a.spriteNum) == a
  {
    match DirectionOf(dx, dy)
    case None => a.(nextTileDirection := None)
    case Some(d) => a.(nextTileDirection := Some(d), spriteNum := NextSprite(a.spriteNum, d))
  }

  /**
   * `moveAlongPath` for a path from the actor's tile (so `path[1]` is one
   * step away). With a detour step (`toNewTarget`) the actor takes the step
   * and faces the detour; without one, an actor with no pending new target
   * takes the step, and one with a pending target only turns towards the
   * step. Either way the pending target becomes the target tile.
   */
  function MoveAlongPath(a: Actor, path: seq<Tile>, toNewTarget: Option<Tile>): (r: Actor)
    requires |path| > 1 && Adjacent(a.pos, path[1])
    ensures toNewTarget.Some? || a.newTargetTile.None? ==> r.pos == path[1]
    ensures toNewTarget.None? && a.newTargetTile.Some? ==> r.pos == a.pos
    ensures Manhattan(a.pos, r.pos) <= 1
    ensures r.newTargetTile.None?
    ensures a.newTargetTile.Some? ==> r.targetTile == a.newTargetTile
    ensures a.newTargetTile.None? && |path| == 2 && toNewTarget.None? ==> r.targetTile.None? && r.nextTileDirection.None?
    ensures a.newTargetTile.None? && !(|path| == 2 && toNewTarget.None?) ==> r.targetTile == a.targetTile
    ensures toNewTarget.Some? ==>
              r.nextTileDirection == DirectionOf(toNewTarget.value.x - path[1].x, toNewTarget.value.y - path[1].y)
    ensures toNewTarget.None? && a.newTargetTile.Some? ==>
              r.nextTileDirection == DirectionOf(path[1].x - a.pos.x, path[1].y - a.pos.y)
    ensures toNewTarget.None? && a.newTargetTile.None? && |path| > 2 ==>
              r.nextTileDirection == DirectionOf(path[2].x - path[1].x, path[2].y - path[1].y)
    ensures r.(pos := a.pos, nextTileDirection := a.nextTileDirection, spriteNum := a.spriteNum,
               targetTile := a.targetTile, newTargetTile := a.newTargetTile) == a
    ensures r.entityID == a.entityID && r.skills == a.skills && r.targetedEntityID == a.targetedEntityID
  {
    var next := path[1];
    var isLastStep := |path| == 2;
    var a1 :=
      match toNewTarget
      case Some(t) =>
        Face(a.(pos := next), t.x - next.x, t.y - next.y)
      case None =>
        var dx := next.x - a.pos.x;
        var dy := next.y - a.pos.y;
        var moved := if a.newTargetTile.None? then a.(pos := next) else Face(a, dx, dy);
        if isLastStep && a.newTargetTile.None? then
          moved.(targetTile := None, nextTileDirection := None)
        else if a.newTargetTile.None? then
          Face(moved, path[2].x - next.x, path[2].y - next.y)
        else moved;
    a1.(targetTile := if a.newTargetTile.Some? then a.newTargetTile else a1.targetTile,
        newTargetTile := None)
  }
}

=== FILE: behaviour.dfy ===
/**
 * What one actor does in a tick, at world level: `moveTowardsTarget` (which
 * may attack another actor, so it edits the world), `Entity.update`,
 * `Monster.update` and `Player.updatePlayer`.
 *
 * A thrown `TypeError` is the `threw` flag of the result; the world is then
 * left as it was when the exception happened.
 */
module Behaviour {
  import opened Wrappers
  import opened Experience
  import opened Pathfinding
  import opened Actors
  import opened Registry

  /** The static map and tile table the pathfinder reads. */
  datatype Terrain = Terrain(worldMap: seq<seq<int>>, tileInfo: map<int, bool>)

  /** The world after an update, and whether the update threw. */
  datatype Step = Step(world: World, threw: bool)

  /** The id lists of both registries; every update keeps them. */
  predicate SameIds(w: World, w': World) {
    Ids(w.players) == Ids(w'.players) && Ids(w.entities) == Ids(w'.entities)
  }

  /** Writes back an actor that kept its id: both registries keep their ids. */
  function Put(w: World, ref: Ref, a: Actor): (r: World)
    requires ValidRef(w, ref) && a.entityID == Get(w, ref).entityID
    ensures SameIds(w, r) && ValidRef(r, ref) && Get(r, ref) == a
    ensures forall other :: ValidRef(w, other) && other != ref ==> Get(r, other) == Get(w, other)
    ensures r.chatMessages == w.chatMessages && r.queue == w.queue && r.tickUpdateTime == w.tickUpdateTime
  {
    SetKeepsIds(w, ref, a);
    Set(w, ref, a)
  }

  /**
   * `getTarget`: a pending retarget while chasing keeps the current target
   * tile; otherwise a targeted actor's tile (none if it is not found), else
   * the target tile, else the pending new target.
   */
  function TargetOf(w: World, a: Actor): (t: Option<Tile>)
    ensures !HasTarget(a) ==> t == if a.targetTile.Some? then a.targetTile else a.newTargetTile
    ensures HasTarget(a) && a.targetTile.Some? && a.newTargetTile.Some? ==> t == a.targetTile
    ensures HasTarget(a) && !(a.targetTile.Some? && a.newTargetTile.Some?) ==>
              (t.Some? <==> Lookup(w, a.targetedEntityID.value).Some?)
              && (t.Some? ==> t.value == Get(w, Lookup(w, a.targetedEntityID.value).value).pos)
  {
    if a.targetTile.Some? && a.newTargetTile.Some? && HasTarget(a) then a.targetTile
    else if HasTarget(a) then
      match Lookup(w, a.targetedEntityID.value)
      case None => None
      case Some(ref) => Some(Get(w, ref).pos)
    else if a.targetTile.Some? then a.targetTile
    else a.newTargetTile
  }

  /** The step of a detour path, when it has one: `pathToNewTarget[1]`. */
  function SecondTile(p: PathResult): Option<Tile> {
    if p.Found? && |p.path| > 1 then Some(p.path[1]) else None
  }

  /**
   * The attack branch of `moveTowardsTarget`: the victim takes the attack,
   * then the attacker, which does not move, forgets its facing and its target
   * tile.
   */
  function ChaseAttack(w: World, ref: Ref, vref: Ref, hitRoll: int): (r: World)
    requires ValidRef(w, ref) && ValidRef(w, vref)
    ensures SameIds(w, r) && ValidRef(r, ref)
    ensures r.chatMessages == w.chatMessages && r.queue == w.queue
    ensures Get(r, ref).pos == Get(w, ref).pos
    ensures Get(r, ref) == Attack(Get(w, ref), Get(w, vref), hitRoll).attacker.(nextTileDirection := None, targetTile := None)
    ensures vref != ref ==> Get(r, vref) == Attack(Get(w, ref), Get(w, vref), hitRoll).victim
  {
    var a := Get(w, ref);
    var o := Attack(a, Get(w, vref), hitRoll);
    var w1 := Put(w, vref, o.victim);
    Put(w1, ref, o.attacker.(nextTileDirection := None, targetTile := None))
  }

  /**
   * The walking branch of `moveTowardsTarget`: with a pending retarget while
   * a target tile is set, a detour is planned from the next step (the
   * actor's own tile when there is no path); then the actor takes one step
   * along a path of two or more tiles.
   */
  function Walk(w: World, ref: Ref, path: PathResult, terrain: Terrain): (r: Step)
    requires ValidRef(w, ref)
    requires path.Found? ==> |path.path| > 1 && Adjacent(Get(w, ref).pos, path.path[1])
    ensures SameIds(w, r.world) && ValidRef(r.world, ref)
    ensures r.world.chatMessages == w.chatMessages && r.world.queue == w.queue
    ensures r.threw ==> r.world == w
    ensures Manhattan(Get(w, ref).pos, Get(r.world, ref).pos) <= 1
    ensures Get(w, ref).targetTile.None? && Get(w, ref).newTargetTile.Some? ==>
              !r.threw && Get(r.world, ref).pos == Get(w, ref).pos && Get(r.world, ref).isDead == Get(w, ref).isDead
  {
    var a := Get(w, ref);
    var detour :=
      if a.newTargetTile.Some? && a.targetTile.Some? then
        var nextStep := if path.Found? then path.path[1] else a.pos;
        AStar(nextStep, a.newTargetTile.value, terrain.worldMap, terrain.tileInfo)
      else NoPath;
    if detour.Threw? then Step(w, true)
    else if path.Found? then Step(Put(w, ref, MoveAlongPath(a, path.path, SecondTile(detour))), false)
    else Step(w, false)
  }

  /**
   * `moveTowardsTarget`. When the path to the target is two tiles long and
   * the actor chases someone it finds, it attacks instead of moving.
   * Otherwise it walks; a one-tile path while a retarget is pending throws,
   * because the source reads `path[1]` to plan the detour.
   */
  function MoveTowardsTarget(w: World, ref: Ref, terrain: Terrain, hitRoll: int): (r: Step)
    requires ValidRef(w, ref)
    ensures SameIds(w, r.world)
    ensures r.world.chatMessages == w.chatMessages && r.world.queue == w.queue
    ensures ValidRef(r.world, ref)
    ensures r.threw ==> r.world == w
    ensures TargetOf(w, Get(w, ref)).None? ==> r == Step(w, false)
    ensures Manhattan(Get(w, ref).pos, Get(r.world, ref).pos) <= 1
    ensures !HasTarget(Get(w, ref)) && Get(w, ref).targetTile.None? && |terrain.worldMap| > 0 && RowsFit(terrain.worldMap) ==>
              !r.threw && Get(r.world, ref).pos == Get(w, ref).pos && Get(r.world, ref).isDead == Get(w, ref).isDead
  {
    var a := Get(w, ref);
    match TargetOf(w, a)
    case None => Step(w, false)
    case Some(target) =>
      var path := AStar(a.pos, target, terrain.worldMap, terrain.tileInfo);
      if path.Threw? then Step(w, true)
      else if path.Found? && |path.path| == 2 && HasTarget(a) then
        match Lookup(w, a.targetedEntityID.value)
        case None => Step(w, false)
        case Some(vref) => Step(ChaseAttack(w, ref, vref, hitRoll), false)
      else if path.Found? && |path.path| < 2 then
        if a.newTargetTile.Some? && a.targetTile.Some? then Step(w, true)
        else Step(w, false)
      else Walk(w, ref, path, terrain)
  }

  /**
   * `Entity.update`: idle wandering, the counter block, then, for a chaser,
   * one tick of follow delay or a move; an idle actor always moves.
   */
  function EntityUpdate(w: World, ref: Ref, terrain: Terrain, dice: Dice): (r: Step)
    requires ValidRef(w, ref)
    ensures SameIds(w, r.world) && ValidRef(r.world, ref)
    ensures r.world.chatMessages == w.chatMessages && r.world.queue == w.queue
  {
    var a := DecayCounters(Wander(Get(w, ref), dice));
    if HasTarget(a) && a.followTickCounter > 0 then
      Step(Put(w, ref, a.(followTickCounter := a.followTickCounter - 1)), false)
    else
      var w1 := Put(w, ref, a);
      MoveTowardsTarget(w1, ref, terrain, dice.hitRoll)
  }

  /**
   * A chaser inside its follow delay only counts down: its counters decay,
   * the delay drops by one, it does not move and nothing throws; no other
   * actor changes.
   */
  lemma FollowDelayHolds(w: World, ref: Ref, terrain: Terrain, dice: Dice)
    requires ValidRef(w, ref) && HasTarget(Get(w, ref)) && Get(w, ref).followTickCounter > 0
    ensures var r := EntityUpdate(w, ref, terrain, dice);
            && !r.threw
            && Get(r.world, ref) == DecayCounters(Get(w, ref)).(followTickCounter := Get(w, ref).followTickCounter - 1)
            && Get(r.world, ref).pos == Get(w, ref).pos
            && forall other :: ValidRef(w, other) && other != ref ==> Get(r.world, other) == Get(w, other)
  {
  }

  /** Once the follow delay has run out, a chaser's counters decay and it moves towards its target. */
  lemma FollowDelayOver(w: World, ref: Ref, terrain: Terrain, dice: Dice)
    requires ValidRef(w, ref) && HasTarget(Get(w, ref)) && Get(w, ref).followTickCounter <= 0
    ensures EntityUpdate(w, ref, terrain, dice)
            == MoveTowardsTarget(Put(w, ref, DecayCounters(Get(w, ref))), ref, terrain, dice.hitRoll)
  {
  }

  /** `Monster.update`: the respawn countdown, then `Entity.update`, dead or alive. */
  function MonsterUpdate(w: World, i: nat, terrain: Terrain, dice: Dice): (r: Step)
    requires i < |w.entities|
    ensures SameIds(w, r.world) && |r.world.entities| == |w.entities|
    ensures r.world.chatMessages == w.chatMessages && r.world.queue == w.queue
  {
    var w1 := Put(w, EntityRef(i), Respawn(w.entities[i]));
    EntityUpdate(w1, EntityRef(i), terrain, dice)
  }

  /**
   * One queued action of a player. A move sets the pending target tile and
   * drops any chase (the source's early return compares a fresh object by
   * reference and never fires); an attack-move on a found id chases it from
   * its current tile; an unknown id or action changes nothing.
   */
  function ApplyAction(w: World, i: nat, action: Action): (r: World)
    requires i < |w.players|
    ensures SameIds(w, r) && r.chatMessages == w.chatMessages && r.queue == w.queue
    ensures action.Move? ==> r == Put(w, PlayerRef(i),
              w.players[i].(newTargetTile := Some(Tile(action.targetX, action.targetY)), targetedEntityID := None))
    ensures action.AttackMove? && Lookup(w, action.entityID).None? ==> r == w
    ensures action.AttackMove? && Lookup(w, action.entityID).Some? ==>
              r.players[i].targetedEntityID == Some(action.entityID)
              && r.players[i].newTargetTile == Some(Get(w, Lookup(w, action.entityID).value).pos)
    ensures action.Unknown? ==> r == w
  {
    var p := w.players[i];
    match action
    case Move(x, y) =>
      Put(w, PlayerRef(i), p.(newTargetTile := Some(Tile(x, y)), targetedEntityID := None))
    case AttackMove(id) =>
      (match Lookup(w, id)
       case None => w
       case Some(ref) =>
         Put(w, PlayerRef(i), p.(newTargetTile := Some(Get(w, ref).pos), targetedEntityID := Some(id))))
    case Unknown(_) => w
  }

  /** The actions of a batch, applied in order (`forEach`). */
  function ApplyActions(w: World, i: nat, actions: seq<Action>): (r: World)
    requires i < |w.players|
    ensures SameIds(w, r) && r.chatMessages == w.chatMessages && r.queue == w.queue
    decreases |actions|
  {
    if |actions| == 0 then w
    else
      var w1 := ApplyActions(w, i, actions[..|actions| - 1]);
      ApplyAction(w1, i, actions[|actions| - 1])
  }

  /** The last move of a batch decides the pending target tile and drops the chase. */
  lemma LastMoveWins(w: World, i: nat, actions: seq<Action>, x: int, y: int)
    requires i < |w.players|
    ensures ApplyActions(w, i, actions + [Move(x, y)]).players[i].newTargetTile == Some(Tile(x, y))
    ensures !HasTarget(ApplyActions(w, i, actions + [Move(x, y)]).players[i])
  {
    assert (actions + [Move(x, y)])[..|actions|] == actions;
  }

  /** Actions other than moves and attack-moves leave the world as it was. */
  lemma {:induction false} UnknownActionsChangeNothing(w: World, i: nat, actions: seq<Action>)
    requires i < |w.players|
    requires forall k :: 0 <= k < |actions| ==> actions[k].Unknown?
    ensures ApplyActions(w, i, actions) == w
    decreases |actions|
  {
    if |actions| > 0 {
      UnknownActionsChangeNothing(w, i, actions[..|actions| - 1]);
    }
  }

  /**
   * `updatePlayer`: the respawn countdown and the counter block (no idle
   * wandering and no follow delay for players), the batch of actions in
   * order, then one move.
   */
  function PlayerUpdate(w: World, i: nat, actions: seq<Action>, terrain: Terrain, dice: Dice): (r: Step)
    requires i < |w.players|
    ensures SameIds(w, r.world) && |r.world.players| == |w.players|
    ensures r.world.chatMessages == w.chatMessages && r.world.queue == w.queue
  {
    var w1 := Put(w, PlayerRef(i), DecayCounters(Respawn(w.players[i])));
    var w2 := ApplyActions(w1, i, actions);
    MoveTowardsTarget(w2, PlayerRef(i), terrain, dice.hitRoll)
  }

  /**
   * A dead monster still inside its countdown ends its update back on its
   * spawn tile: the reset drops its targets, so it can at most turn towards
   * a pending tile, never step.
   */
  lemma DeadMonsterStaysAtSpawn(w: World, i: nat, terrain: Terrain, dice: Dice)
    requires i < |w.entities| && |terrain.worldMap| > 0 && RowsFit(terrain.worldMap)
    requires w.entities[i].isDead && w.entities[i].respawnTickCounter < w.entities[i].respawnTime
    ensures !MonsterUpdate(w, i, terrain, dice).threw
    ensures MonsterUpdate(w, i, terrain, dice).world.entities[i].pos == w.entities[i].origin
    ensures MonsterUpdate(w, i, terrain, dice).world.entities[i].isDead
  {
    var ref := EntityRef(i);
    var w1 := Put(w, ref, Respawn(w.entities[i]));
    var a := DecayCounters(Wander(Get(w1, ref), dice));
    assert !HasTarget(a) && a.targetTile.None? && a.isDead && a.pos == w.entities[i].origin;
    var w2 := Put(w1, ref, a);
    assert MonsterUpdate(w, i, terrain, dice) == MoveTowardsTarget(w2, ref, terrain, dice.hitRoll);
  }

  /**
   * A dead player inside its countdown, with no queued actions, ends its
   * update on its spawn tile without throwing, as a monster does.
   */
  lemma DeadPlayerWaits(w: World, i: nat, terrain: Terrain, dice: Dice)
    requires i < |w.players| && |terrain.worldMap| > 0 && RowsFit(terrain.worldMap)
    requires w.players[i].isDead && w.players[i].respawnTickCounter < w.players[i].respawnTime
    ensures !PlayerUpdate(w, i, [], terrain, dice).threw
    ensures PlayerUpdate(w, i, [], terrain, dice).world.players[i].pos == w.players[i].origin
    ensures PlayerUpdate(w, i, [], terrain, dice).world.players[i].isDead
  {
    var ref := PlayerRef(i);
    var a := DecayCounters(Respawn(w.players[i]));
    assert !HasTarget(a) && a.targetTile.None? && a.isDead && a.pos == w.players[i].origin;
    var w1 := Put(w, ref, a);
    assert PlayerUpdate(w, i, [], terrain, dice) == MoveTowardsTarget(w1, ref, terrain, dice.hitRoll);
  }

  /**
   * Next to a chased actor that is found, the chaser attacks instead of
   * stepping: it stays put, forgets its target tile and its facing, and the
   * victim takes the attack.
   */
  lemma AdjacentChaseAttacks(w: World, ref: Ref, terrain: Terrain, hitRoll: int)
    requires ValidRef(w, ref)
    requires var a := Get(w, ref);
             && HasTarget(a) && !(a.targetTile.Some? && a.newTargetTile.Some?)
             && Lookup(w, a.targetedEntityID.value).Some?
             && AStar(a.pos, Get(w, Lookup(w, a.targetedEntityID.value).value).pos,
                      terrain.worldMap, terrain.tileInfo).Found?
             && |AStar(a.pos, Get(w, Lookup(w, a.targetedEntityID.value).value).pos,
                       terrain.worldMap, terrain.tileInfo).path| == 2
    ensures var a := Get(w, ref);
            var vref := Lookup(w, a.targetedEntityID.value).value;
            var o := Attack(a, Get(w, vref), hitRoll);
            var r := MoveTowardsTarget(w, ref, terrain, hitRoll);
            && !r.threw
            && Get(r.world, ref) == o.attacker.(nextTileDirection := None, targetTile := None)
            && (vref != ref ==> Get(r.world, vref) == o.victim)
  {
  }
}

=== FILE: combat.dfy ===
/**
 * Combat formulas: hit chance, damage, and the aggregate combat level of an
 * actor's seven skills.
 */
module Combat {
  import opened Wrappers
  import opened Experience

  /** The seven skill experience counters every actor carries. */
  datatype Skills = Skills(
    attack: int,
    strength: int,
    defence: int,
    hitpoints: int,
    ranged: int,
    magic: int,
    prayer: int)

  /** Hit chance in percent: 50 + 5 * (attack - defence), clamped to [5, 95]. */
  function AttackHitChance(attackValue: int, defenceValue: int): (chance: int)
    ensures 5 <= chance <= 95
    ensures 5 <= 50 + 5 * (attackValue - defenceValue) <= 95 ==>
              chance == 50 + 5 * (attackValue - defenceValue)
    ensures 50 + 5 * (attackValue - defenceValue) < 5 ==> chance == 5
    ensures 50 + 5 * (attackValue - defenceValue) > 95 ==> chance == 95
  {
    var hitChance := 50 + (attackValue - defenceValue) * 5;
    if hitChance < 5 then 5
    else if hitChance > 95 then 95
    else hitChance
  }

  /** A stronger attacker or a weaker defender never lowers the hit chance. */
  lemma HitChanceMonotone(a1: int, a2: int, d1: int, d2: int)
    requires a1 <= a2 && d2 <= d1
    ensures AttackHitChance(a1, d1) <= AttackHitChance(a2, d2)
  {
  }

  /** Equal values give even odds; a 98-point gap saturates at 95. */
  lemma HitChanceExamples()
    ensures AttackHitChance(7, 7) == 50
    ensures AttackHitChance(99, 1) == 95
    ensures AttackHitChance(1, 99) == 5
  {
  }

  /**
   * Damage of one successful hit. Unarmed it is 1 + floor(strength level / 4);
   * with a weapon, floor(strength level / 4) plus the weapon's attack value.
   */
  function AttackDamage(strengthExperience: int, weaponAttackValue: Option<int>): (damage: int)
    ensures weaponAttackValue.None? ==>
              damage == 1 + LevelFromExperience(strengthExperience) / 4 && damage >= 1
    ensures weaponAttackValue.Some? ==>
              damage == LevelFromExperience(strengthExperience) / 4 + weaponAttackValue.value
  {
    var strengthLevel := LevelFromExperience(strengthExperience);
    match weaponAttackValue
    case None => 1 + strengthLevel / 4
    case Some(attackValue) => strengthLevel / 4 + attackValue
  }

  /** Damage never decreases as strength experience grows. */
  lemma DamageMonotone(s1: int, s2: int, weaponAttackValue: Option<int>)
    requires s1 <= s2
    ensures AttackDamage(s1, weaponAttackValue) <= AttackDamage(s2, weaponAttackValue)
  {
    LevelMonotone(s1, s2);
  }

  /** Unarmed damage at strength level 1 is 1, and at level 5 (388 experience) is 2. */
  lemma DamageExamples()
    ensures AttackDamage(0, None) == 1
    ensures AttackDamage(388, None) == 2
  {
    LevelExamples();
  }

  /** `getLevel`: a missing or zero experience counter reads as 1. */
  function SkillLevel(experience: int): (level: nat)
    ensures level >= 1
    ensures experience == 0 ==> level == LevelFromExperience(1)
    ensures experience != 0 ==> level == LevelFromExperience(experience)
  {
    LevelFromExperience(if experience == 0 then 1 else experience)
  }

  lemma SkillLevelMonotone(x1: int, x2: int)
    requires x1 <= x2
    ensures SkillLevel(x1) <= SkillLevel(x2)
  {
    if x1 == 0 {
      LevelOneBelowFirstThreshold(1);
    } else if x2 == 0 {
      LevelOneBelowFirstThreshold(x1);
    } else {
      LevelMonotone(x1, x2);
    }
  }

  /** The combat styles' ratings; the level is the floor of the largest. */
  function BaseCombat(hitpoints: int, defence: int, prayer: int): real {
    (hitpoints + defence + prayer / 2) as real / 4.0
  }

  function MeleeCombat(hitpoints: int, defence: int, prayer: int, attack: int, strength: int): real {
    BaseCombat(hitpoints, defence, prayer) + (attack + strength) as real * 0.325
  }

  function StyleCombat(hitpoints: int, defence: int, prayer: int, style: int): real {
    BaseCombat(hitpoints, defence, prayer) + (style / 2 + style) as real * 0.325
  }

  function Max3(a: real, b: real, c: real): (m: real)
    ensures m >= a && m >= b && m >= c
    ensures m == a || m == b || m == c
  {
    if a >= b && a >= c then a else if b >= c then b else c
  }

  /**
   * `getCombatLevel` over skill levels: floor(max(melee, magic, ranged)) with
   * base = (hitpoints + defence + floor(prayer / 2)) / 4, melee adding
   * (attack + strength) * 0.325 and magic / ranged adding
   * (floor(level / 2) + level) * 0.325.
   */
  function CombatLevelFromLevels(
    prayer: int, hitpoints: int, defence: int, attack: int,
    strength: int, magic: int, ranged: int): (level: int)
    requires prayer >= 1 && hitpoints >= 1 && defence >= 1 && attack >= 1
    requires strength >= 1 && magic >= 1 && ranged >= 1
    ensures level >= 1
    ensures level as real <= MeleeCombat(hitpoints, defence, prayer, attack, strength)
            || level as real <= StyleCombat(hitpoints, defence, prayer, magic)
            || level as real <= StyleCombat(hitpoints, defence, prayer, ranged)
    ensures MeleeCombat(hitpoints, defence, prayer, attack, strength) < (level + 1) as real
    ensures StyleCombat(hitpoints, defence, prayer, magic) < (level + 1) as real
    ensures StyleCombat(hitpoints, defence, prayer, ranged) < (level + 1) as real
  {
    var melee := MeleeCombat(hitpoints, defence, prayer, attack, strength);
    var magicCombat := StyleCombat(hitpoints, defence, prayer, magic);
    var rangedCombat := StyleCombat(hitpoints, defence, prayer, ranged);
    Max3(melee, magicCombat, rangedCombat).Floor
  }

  /** The combat level of an actor's experience counters. */
  function CombatLevel(skills: Skills): (level: int)
    ensures level >= 1
  {
    CombatLevelFromLevels(
      SkillLevel(skills.prayer), SkillLevel(skills.hitpoints), SkillLevel(skills.defence),
      SkillLevel(skills.attack), SkillLevel(skills.strength), SkillLevel(skills.magic),
      SkillLevel(skills.ranged))
  }

  /** Raising any one skill level never lowers the combat level. */
  lemma CombatLevelMonotone(
    p1: int, h1: int, d1: int, a1: int, s1: int, m1: int, r1: int,
    p2: int, h2: int, d2: int, a2: int, s2: int, m2: int, r2: int)
    requires 1 <= p1 <= p2 && 1 <= h1 <= h2 && 1 <= d1 <= d2 && 1 <= a1 <= a2
    requires 1 <= s1 <= s2 && 1 <= m1 <= m2 && 1 <= r1 <= r2
    ensures CombatLevelFromLevels(p1, h1, d1, a1, s1, m1, r1)
            <= CombatLevelFromLevels(p2, h2, d2, a2, s2, m2, r2)
  {
    assert p1 / 2 <= p2 / 2 && m1 / 2 <= m2 / 2 && r1 / 2 <= r2 / 2;
    assert BaseCombat(h1, d1, p1) <= BaseCombat(h2, d2, p2);
    assert MeleeCombat(h1, d1, p1, a1, s1) <= MeleeCombat(h2, d2, p2, a2, s2);
    assert StyleCombat(h1, d1, p1, m1) <= StyleCombat(h2, d2, p2, m2);
    assert StyleCombat(h1, d1, p1, r1) <= StyleCombat(h2, d2, p2, r2);
  }

  /** More experience in any skill never lowers the combat level. */
  lemma CombatLevelMonotoneInExperience(x: Skills, y: Skills)
    requires x.prayer <= y.prayer && x.hitpoints <= y.hitpoints && x.defence <= y.defence
    requires x.attack <= y.attack && x.strength <= y.strength
    requires x.magic <= y.magic && x.ranged <= y.ranged
    ensures CombatLevel(x) <= CombatLevel(y)
  {
    SkillLevelMonotone(x.prayer, y.prayer);
    SkillLevelMonotone(x.hitpoints, y.hitpoints);
    SkillLevelMonotone(x.defence, y.defence);
    SkillLevelMonotone(x.attack, y.attack);
    SkillLevelMonotone(x.strength, y.strength);
    SkillLevelMonotone(x.magic, y.magic);
    SkillLevelMonotone(x.ranged, y.ranged);
    CombatLevelMonotone(
      SkillLevel(x.prayer), SkillLevel(x.hitpoints), SkillLevel(x.defence),
      SkillLevel(x.attack), SkillLevel(x.strength), SkillLevel(x.magic), SkillLevel(x.ranged),
      SkillLevel(y.prayer), SkillLevel(y.hitpoints), SkillLevel(y.defence),
      SkillLevel(y.attack), SkillLevel(y.strength), SkillLevel(y.magic), SkillLevel(y.ranged));
  }

  /** Experience 0 reads as 1, and an actor with no experience at all has combat level 1. */
  lemma FreshCombatLevel()
    ensures SkillLevel(0) == 1 && SkillLevel(1) == 1
    ensures CombatLevel(Skills(0, 0, 0, 0, 0, 0, 0)) == 1
    ensures CombatLevelFromLevels(1, 1, 1, 1, 1, 1, 1) == 1
  {
    LevelOneBelowFirstThreshold(1);
    LevelOneBelowFirstThreshold(0);
  }
}

=== FILE: experience.dfy ===
/**
 * Experience curve: how much experience each level costs, and the level an
 * experience total reaches.
 *
 * The source computes the per-level increment with `Math.pow(2, (L-1)/7)` in
 * double precision. Here 2^((L-1)/7) is split into 2^q * 2^(r/7) with
 * L - 1 = 7q + r; the power of two is exact and the seven fractional powers
 * are the IEEE doubles the runtime produces, so the increment is an exact
 * rational expression that is then floored.
 */
module Experience {
  import opened Wrappers

  /** 2^(r/7) for 0 <= r < 7, as the double-precision values of Math.pow. */
  function SeventhRootPow(r: nat): (c: real)
    requires r < 7
    ensures 1.0 <= c < 2.0
  {
    [1.0, 1.1040895136738123, 1.2190136542044754, 1.3459001926323562,
     1.4859942891369484, 1.640670712015276, 1.8114473285278132][r]
  }

  /**
   * floor((L - 1 + 300 * 2^(e/7)) / 4) with e = L - 1 written as 7q + r by
   * peeling off whole powers of two: `offset` is L - 1, `exponent` counts
   * down by 7 and `power` doubles each time.
   */
  function IncrementFrom(offset: int, exponent: nat, power: real): (d: int)
    requires offset >= 1 && power >= 1.0
    ensures d >= 75
  {
    if exponent < 7 then
      var scaled := power * SeventhRootPow(exponent);
      ProductAtLeastOne(power, SeventhRootPow(exponent));
      ((offset as real + 300.0 * scaled) / 4.0).Floor
    else IncrementFrom(offset, exponent - 7, 2.0 * power)
  }

  lemma ProductAtLeastOne(a: real, b: real)
    requires a >= 1.0 && b >= 1.0
    ensures a * b >= 1.0
  {
    assert a * b >= a * 1.0;
  }

  /**
   * Experience needed to go from level L-1 to level L, for L >= 2:
   * floor((L - 1 + 300 * 2^((L-1)/7)) / 4).
   */
  function Increment(level: int): (d: int)
    requires level >= 2
    ensures d >= 75
  {
    IncrementFrom(level - 1, level - 1, 1.0)
  }

  /** `calculateExperienceDifference`: throws for any level below 2. */
  function ExperienceDifference(level: int): (r: Result<int>)
    ensures r.Failure? <==> level < 2
    ensures r.Success? ==> r.value >= 75
  {
    if level < 2 then Failure("Level must be 2 or higher.")
    else Success(Increment(level))
  }

  /** Total experience needed to reach `level`: the sum of the increments 2..level. */
  function Cumulative(level: nat): int
    requires level >= 1
  {
    if level == 1 then 0 else Cumulative(level - 1) + Increment(level)
  }

  lemma {:induction false} CumulativeStrictlyIncreasing(a: nat, b: nat)
    requires 1 <= a < b
    ensures Cumulative(a) + 75 * (b - a) <= Cumulative(b)
    decreases b
  {
    if b > a + 1 {
      CumulativeStrictlyIncreasing(a, b - 1);
    }
  }

  lemma CumulativeMonotone(a: nat, b: nat)
    requires 1 <= a <= b
    ensures Cumulative(a) <= Cumulative(b)
  {
    if a < b {
      CumulativeStrictlyIncreasing(a, b);
    }
  }

  /**
   * One pass of the `while (true)` loop of `getLevelFromExperience`: `acc` is
   * the experience accumulated up to `level`; the loop stops at the first
   * level whose next threshold is strictly greater than the experience.
   */
  function LevelLoop(level: nat, acc: int, experience: int): (r: nat)
    requires level >= 1 && acc == Cumulative(level)
    requires level == 1 || acc <= experience
    ensures r >= level
    ensures r == 1 || Cumulative(r) <= experience
    ensures experience < Cumulative(r + 1)
    decreases experience - acc
  {
    var difference := Increment(level + 1);
    if acc + difference > experience then level
    else LevelLoop(level + 1, acc + difference, experience)
  }

  /**
   * `getLevelFromExperience`: the level L with
   * Cumulative(L) <= experience < Cumulative(L + 1); 1 when the experience is
   * below the first threshold (including negative experience).
   */
  function LevelFromExperience(experience: int): (r: nat)
    ensures r >= 1
    ensures r == 1 || Cumulative(r) <= experience
    ensures experience < Cumulative(r + 1)
  {
    LevelLoop(1, 0, experience)
  }

  /** `level` brackets `experience` between two consecutive thresholds. */
  ghost predicate IsLevelOf(level: nat, experience: int) {
    level >= 1 && (level == 1 || Cumulative(level) <= experience) && experience < Cumulative(level + 1)
  }

  /** The bracket characterises the level: the level bracketing the experience is the one computed. */
  lemma LevelUnique(level: nat, experience: int)
    requires IsLevelOf(level, experience)
    ensures LevelFromExperience(experience) == level
  {
    var r := LevelFromExperience(experience);
    if r < level {
      CumulativeMonotone(r + 1, level);
    } else if r > level {
      CumulativeMonotone(level + 1, r);
    }
  }

  /** Experience below the first increment (83) is level 1. */
  lemma LevelOneBelowFirstThreshold(experience: int)
    requires experience < 83
    ensures LevelFromExperience(experience) == 1
  {
    assert Increment(2) == 83;
  }

  /** More experience never means a lower level. */
  lemma LevelMonotone(x1: int, x2: int)
    requires x1 <= x2
    ensures LevelFromExperience(x1) <= LevelFromExperience(x2)
  {
    var l1 := LevelFromExperience(x1);
    var l2 := LevelFromExperience(x2);
    if l1 > l2 {
      CumulativeMonotone(l2 + 1, l1);
    }
  }

  /** The first increments are 83, 91, 101, 112 and 124. */
  lemma IncrementTable()
    ensures Increment(2) == 83 && Increment(3) == 91 && Increment(4) == 101
    ensures Increment(5) == 112 && Increment(6) == 124
  {
  }

  /**
   * Boundary values: 82 is level 1, 83 (equal to the first threshold) is
   * level 2, 387 and 388 are level 5.
   */
  lemma LevelExamples()
    ensures LevelFromExperience(0) == 1
    ensures LevelFromExperience(82) == 1
    ensures LevelFromExperience(83) == 2
    ensures LevelFromExperience(387) == 5
    ensures LevelFromExperience(388) == 5
  {
    IncrementTable();
    assert Cumulative(2) == 83 && Cumulative(3) == 174;
    assert Cumulative(5) == 387 && Cumulative(6) == 511;
    LevelUnique(1, 0);
    LevelUnique(1, 82);
    LevelUnique(2, 83);
    LevelUnique(5, 387);
    LevelUnique(5, 388);
  }

  /**
   * `getExperienceUntilNextLevel` as written: the next increment minus
   * (experience - the current level's own increment). For level 1 it asks for
   * the increment of level 1 and throws.
   */
  function ExperienceUntilNextLevel(experience: int): (r: Result<int>)
    ensures r.Failure? <==> experience < 83
  {
    var level := LevelFromExperience(experience);
    assert level == 1 <==> experience < 83 by {
      IncrementTable();
      if experience < 83 { LevelOneBelowFirstThreshold(experience); }
    }
    // level + 1 >= 2, so only the second difference can throw
    var next := Increment(level + 1);
    match ExperienceDifference(level)
    case Failure(e) => Failure(e)
    case Success(current) => Success(next - (experience - current))
  }

  /**
   * At experience 174 (level 3) the formula as written answers 18, whereas
   * level 4 is 101 experience away: it subtracts the current level's
   * increment where the cumulative threshold was meant.
   */
  lemma UntilNextLevelAsWrittenDiffers()
    ensures ExperienceUntilNextLevel(174) == Success(18)
    ensures Cumulative(4) - 174 == 101
  {
    IncrementTable();
    assert Cumulative(3) == 174 && Cumulative(4) == 275;
    LevelUnique(3, 174);
  }

  /**
   * The evidently intended quantity: the experience still missing before the
   * next level, defined for every experience value.
   */
  function ExperienceToNextLevel(experience: int): (r: int)
    ensures r > 0
  {
    Cumulative(LevelFromExperience(experience) + 1) - experience
  }

  /** The next threshold is exactly one level up, and one point below it is not. */
  lemma NextThreshold(experience: int, level: nat)
    requires IsLevelOf(level, experience)
    ensures LevelFromExperience(Cumulative(level + 1)) == level + 1
    ensures LevelFromExperience(Cumulative(level + 1) - 1) == level
  {
    CumulativeStrictlyIncreasing(level + 1, level + 2);
    if level > 1 {
      CumulativeStrictlyIncreasing(level, level + 1);
    }
    LevelUnique(level + 1, Cumulative(level + 1));
    LevelUnique(level, Cumulative(level + 1) - 1);
  }

  /** Gaining exactly the missing experience levels up once; one point less does not. */
  lemma ExperienceToNextLevelIsExact(experience: int)
    ensures LevelFromExperience(experience + ExperienceToNextLevel(experience))
            == LevelFromExperience(experience) + 1
    ensures LevelFromExperience(experience + ExperienceToNextLevel(experience) - 1)
            == LevelFromExperience(experience)
  {
    var level := LevelFromExperience(experience);
    assert IsLevelOf(level, experience);
    NextThreshold(experience, level);
    assert experience + ExperienceToNextLevel(experience) == Cumulative(level + 1);
  }
}

=== FILE: huffman.dfy ===
/**
 * The Huffman codec of the state broadcast: frequencies of the input's
 * characters, a tree built by repeatedly merging the two cheapest nodes, a
 * code table read off the tree ('0' left, '1' right), and the encoded text as
 * the literal concatenation of each character's code.
 */
module Huffman {
  import opened Wrappers
  import opened Sorting

  /** `HuffmanNode`: a leaf carries a character, an inner node two children. */
  datatype Tree = Leaf(c: char, freq: int) | Node(left: Tree, right: Tree, freq: int)

  datatype Encoding = Encoding(encoded: string, codeTable: map<char, string>)

  predicate Distinct<T(==)>(s: seq<T>) {
    forall i, j :: 0 <= i < j < |s| ==> s[i] != s[j]
  }

  function Count(input: string, c: char): nat {
    multiset(input)[c]
  }

  // ---------------------------------------------------------------------------
  // The frequency map and the order of its entries

  /** The distinct characters of the input in order of first occurrence (the map's insertion order). */
  function FirstOccurrence(input: string): (keys: string)
    ensures Distinct(keys)
    ensures forall c :: c in keys <==> c in input
  {
    if |input| == 0 then []
    else
      var keys := FirstOccurrence(input[..|input| - 1]);
      var last := input[|input| - 1];
      assert input == input[..|input| - 1] + [last];
      if last in keys then keys else keys + [last]
  }

  predicate IsDigit(c: char) {
    '0' <= c <= '9'
  }

  /** The characters of `candidates` that are keys, in the order of `candidates`. */
  function KeysAmong(keys: string, candidates: string): (r: string)
    requires Distinct(candidates)
    ensures Distinct(r)
    ensures forall c :: c in r <==> c in keys && c in candidates
  {
    if |candidates| == 0 then []
    else
      var rest := KeysAmong(keys, candidates[1..]);
      assert forall c :: c in candidates <==> c == candidates[0] || c in candidates[1..];
      if candidates[0] in keys then [candidates[0]] + rest else rest
  }

  function NonDigits(keys: string): (r: string)
    requires Distinct(keys)
    ensures Distinct(r)
    ensures forall c :: c in r <==> c in keys && !IsDigit(c)
  {
    if |keys| == 0 then []
    else
      var rest := NonDigits(keys[1..]);
      assert forall c :: c in keys <==> c == keys[0] || c in keys[1..];
      if IsDigit(keys[0]) then rest else [keys[0]] + rest
  }

  /**
   * `Object.entries` order: keys that are array indices (here the digits
   * '0'..'9') come first in ascending order, then the other keys in
   * insertion order.
   */
  function EntryOrder(keys: string): (r: string)
    requires Distinct(keys)
    ensures Distinct(r)
    ensures forall c :: c in r <==> c in keys
  {
    var digits := KeysAmong(keys, "0123456789");
    var others := NonDigits(keys);
    var r := digits + others;
    assert forall i :: 0 <= i < |digits| ==> IsDigit(r[i]) by {
      forall i | 0 <= i < |digits| ensures IsDigit(r[i]) {
        assert digits[i] in digits;
      }
    }
    assert forall i :: |digits| <= i < |r| ==> !IsDigit(r[i]) by {
      forall i | |digits| <= i < |r| ensures !IsDigit(r[i]) {
        assert others[i - |digits|] in others;
      }
    }
    r
  }

  /** `Object.entries(freqMap)` for the frequency map of `input`. */
  function FrequencyEntries(input: string): (entries: seq<(char, int)>)
    ensures Distinct(EntryKeys(entries))
    ensures forall c :: c in EntryKeys(entries) <==> c in input
    ensures forall i :: 0 <= i < |entries| ==> entries[i].1 == Count(input, entries[i].0)
  {
    var keys := EntryOrder(FirstOccurrence(input));
    var entries := seq(|keys|, i requires 0 <= i < |keys| => (keys[i], Count(input, keys[i])));
    assert EntryKeys(entries) == keys;
    entries
  }

  function EntryKeys(entries: seq<(char, int)>): (keys: string)
    ensures |keys| == |entries| && forall i :: 0 <= i < |entries| ==> keys[i] == entries[i].0
  {
    if |entries| == 0 then [] else [entries[0].0] + EntryKeys(entries[1..])
  }

  // ---------------------------------------------------------------------------
  // Forest measures

  /** The characters on the leaves of t, with multiplicity. */
  function LeafChars(t: Tree): multiset<char> {
    match t
    case Leaf(c, _) => multiset{c}
    case Node(l, r, _) => LeafChars(l) + LeafChars(r)
  }

  function ForestChars(s: seq<Tree>): multiset<char> {
    if |s| == 0 then multiset{} else LeafChars(s[0]) + ForestChars(s[1..])
  }

  function ForestFreq(s: seq<Tree>): int {
    if |s| == 0 then 0 else s[0].freq + ForestFreq(s[1..])
  }

  function FreqKey(t: Tree): int {
    t.freq
  }

  lemma {:induction false} ForestConcat(a: seq<Tree>, b: seq<Tree>)
    ensures ForestFreq(a + b) == ForestFreq(a) + ForestFreq(b)
    ensures ForestChars(a + b) == ForestChars(a) + ForestChars(b)
    decreases |a|
  {
    if |a| == 0 {
      assert a + b == b;
    } else {
      assert (a + b)[0] == a[0];
      assert (a + b)[1..] == a[1..] + b;
      ForestConcat(a[1..], b);
    }
  }

  /** Inserting a tree adds exactly its leaves and its frequency to the forest. */
  lemma {:induction false} InsertKeepsForest(x: Tree, s: seq<Tree>)
    requires SortedBy(s, FreqKey)
    ensures ForestFreq(InsertBy(x, s, FreqKey)) == x.freq + ForestFreq(s)
    ensures ForestChars(InsertBy(x, s, FreqKey)) == LeafChars(x) + ForestChars(s)
    decreases |s|
  {
    var r := InsertBy(x, s, FreqKey);
    if |s| == 0 || FreqKey(x) <= FreqKey(s[0]) {
      assert r[1..] == s;
    } else {
      var rest := InsertBy(x, s[1..], FreqKey);
      assert r == [s[0]] + rest;
      assert r[1..] == rest;
      InsertKeepsForest(x, s[1..]);
    }
  }

  /** Sorting the forest keeps its leaves and its total frequency. */
  lemma {:induction false} SortKeepsForest(s: seq<Tree>)
    ensures ForestFreq(SortBy(s, FreqKey)) == ForestFreq(s)
    ensures ForestChars(SortBy(s, FreqKey)) == ForestChars(s)
    decreases |s|
  {
    if |s| > 0 {
      SortKeepsForest(s[1..]);
      InsertKeepsForest(s[0], SortBy(s[1..], FreqKey));
    }
  }

  // ---------------------------------------------------------------------------
  // Building the tree

  function LeavesOf(entries: seq<(char, int)>): (leaves: seq<Tree>)
    ensures |leaves| == |entries|
  {
    if |entries| == 0 then [] else [Leaf(entries[0].0, entries[0].1)] + LeavesOf(entries[1..])
  }

  /**
   * The `while (nodes.length > 1)` loop: take the two cheapest nodes off the
   * front, merge them, push the merge and re-sort (stably) by frequency.
   */
  function MergeLoop(nodes: seq<Tree>): (root: Tree)
    requires |nodes| >= 1
    ensures root.freq == ForestFreq(nodes)
    ensures LeafChars(root) == ForestChars(nodes)
    ensures |nodes| >= 2 ==> root.Node?
    decreases |nodes|
  {
    if |nodes| == 1 then
      assert nodes[1..] == [];
      nodes[0]
    else
      MergeKeepsForest(nodes);
      MergeLoop(MergeStep(nodes))
  }

  /** One iteration: the two front nodes become one inner node, pushed at the back, then the list is re-sorted. */
  function MergeStep(nodes: seq<Tree>): (next: seq<Tree>)
    requires |nodes| >= 2
    ensures |next| == |nodes| - 1
  {
    SortBy(nodes[2..] + [Node(nodes[0], nodes[1], nodes[0].freq + nodes[1].freq)], FreqKey)
  }

  lemma MergeKeepsForest(nodes: seq<Tree>)
    requires |nodes| >= 2
    ensures ForestFreq(MergeStep(nodes)) == ForestFreq(nodes)
    ensures ForestChars(MergeStep(nodes)) == ForestChars(nodes)
  {
    MergeKeepsFreq(nodes);
    MergeKeepsChars(nodes);
  }

  lemma MergeKeepsFreq(nodes: seq<Tree>)
    requires |nodes| >= 2
    ensures ForestFreq(MergeStep(nodes)) == ForestFreq(nodes)
  {
    var merged := Node(nodes[0], nodes[1], nodes[0].freq + nodes[1].freq);
    var next := nodes[2..] + [merged];
    assert ForestFreq(next) == ForestFreq(nodes) by {
      ForestConcat(nodes[2..], [merged]);
      SplitFront(nodes);
      ForestSingleton(merged);
    }
    SortKeepsForest(next);
  }

  lemma MergeKeepsChars(nodes: seq<Tree>)
    requires |nodes| >= 2
    ensures ForestChars(MergeStep(nodes)) == ForestChars(nodes)
  {
    var merged := Node(nodes[0], nodes[1], nodes[0].freq + nodes[1].freq);
    var next := nodes[2..] + [merged];
    assert ForestChars(next) == ForestChars(nodes) by {
      ForestConcat(nodes[2..], [merged]);
      SplitFront(nodes);
      ForestSingleton(merged);
      assert LeafChars(merged) == LeafChars(nodes[0]) + LeafChars(nodes[1]);
    }
    SortKeepsForest(next);
  }

  lemma SplitFront(nodes: seq<Tree>)
    requires |nodes| >= 2
    ensures ForestFreq(nodes) == nodes[0].freq + nodes[1].freq + ForestFreq(nodes[2..])
    ensures ForestChars(nodes) == LeafChars(nodes[0]) + LeafChars(nodes[1]) + ForestChars(nodes[2..])
  {
    assert nodes[1..][1..] == nodes[2..];
  }

  lemma ForestSingleton(t: Tree)
    ensures ForestFreq([t]) == t.freq && ForestChars([t]) == LeafChars(t)
  {
    assert [t][1..] == [];
  }

  /** `buildHuffmanTree`: there is no tree (`undefined`) for an empty frequency map. */
  function BuildHuffmanTree(entries: seq<(char, int)>): (root: Option<Tree>)
    ensures root.None? <==> |entries| == 0
    ensures root.Some? ==> root.value.freq == ForestFreq(LeavesOf(entries))
    ensures root.Some? ==> LeafChars(root.value) == multiset(EntryKeys(entries))
    ensures |entries| >= 2 ==> root.Some? && root.value.Node?
  {
    if |entries| == 0 then None
    else
      var leaves := SortBy(LeavesOf(entries), FreqKey);
      SortKeepsForest(LeavesOf(entries));
      LeavesOfChars(entries);
      Some(MergeLoop(leaves))
  }

  /** The leaves of the entries carry exactly the entries' keys. */
  lemma {:induction false} LeavesOfChars(entries: seq<(char, int)>)
    ensures ForestChars(LeavesOf(entries)) == multiset(EntryKeys(entries))
    decreases |entries|
  {
    if |entries| > 0 {
      var keys := EntryKeys(entries);
      assert EntryKeys(entries[1..]) == keys[1..];
      assert keys == [keys[0]] + keys[1..];
      assert LeavesOf(entries)[1..] == LeavesOf(entries[1..]);
      LeavesOfChars(entries[1..]);
    }
  }

  /** The entries for `keys` with their counts in `input`. */
  function CountEntries(keys: string, input: string): (entries: seq<(char, int)>)
    ensures |entries| == |keys|
    ensures forall i :: 0 <= i < |keys| ==> entries[i] == (keys[i], Count(input, keys[i]))
  {
    seq(|keys|, i requires 0 <= i < |keys| => (keys[i], Count(input, keys[i])))
  }

  /** The frequencies of the entries of a prefix, and what one more character adds. */
  lemma {:induction false} EntriesFreqSnoc(keys: string, input: string, x: char)
    ensures ForestFreq(LeavesOf(CountEntries(keys, input + [x])))
            == ForestFreq(LeavesOf(CountEntries(keys, input))) + multiset(keys)[x]
    decreases |keys|
  {
    if |keys| > 0 {
      assert keys == [keys[0]] + keys[1..];
      assert CountEntries(keys, input + [x])[1..] == CountEntries(keys[1..], input + [x]);
      assert CountEntries(keys, input)[1..] == CountEntries(keys[1..], input);
      EntriesFreqSnoc(keys[1..], input, x);
    }
  }

  /** Each key of a duplicate-free sequence occurs once. */
  lemma DistinctMultiset(keys: string)
    requires Distinct(keys)
    ensures forall c :: multiset(keys)[c] == if c in keys then 1 else 0
  {
    forall c | c in keys ensures multiset(keys)[c] == 1 {
      var i :| 0 <= i < |keys| && keys[i] == c;
      assert keys == keys[..i] + [c] + keys[i + 1..];
      assert c !in keys[..i] && c !in keys[i + 1..];
    }
  }

  /** Over distinct keys covering the input, the counts add up to the input's length. */
  lemma {:induction false} EntriesFreqIsLength(keys: string, input: string)
    requires Distinct(keys) && forall c :: c in input ==> c in keys
    ensures ForestFreq(LeavesOf(CountEntries(keys, input))) == |input|
    decreases |input|
  {
    if |input| == 0 {
      ZeroCounts(keys, input);
    } else {
      var prefix := input[..|input| - 1];
      var x := input[|input| - 1];
      assert input == prefix + [x];
      EntriesFreqIsLength(keys, prefix);
      EntriesFreqSnoc(keys, prefix, x);
      DistinctMultiset(keys);
    }
  }

  lemma {:induction false} ZeroCounts(keys: string, input: string)
    requires |input| == 0
    ensures ForestFreq(LeavesOf(CountEntries(keys, input))) == 0
    decreases |keys|
  {
    if |keys| > 0 {
      assert CountEntries(keys, input)[1..] == CountEntries(keys[1..], input);
      ZeroCounts(keys[1..], input);
    }
  }

  /** The tree of an input's frequency map: one leaf per distinct character, weighing the input's length. */
  function HuffmanTree(input: string): (root: Option<Tree>)
    ensures root.None? <==> |input| == 0
    ensures root.Some? ==> root.value.freq == |input|
    ensures root.Some? ==> DistinctLeaves(root.value)
    ensures root.Some? ==> forall c :: c in LeafChars(root.value) <==> c in input
  {
    var entries := FrequencyEntries(input);
    var keys := EntryKeys(entries);
    assert entries == CountEntries(keys, input);
    EntriesFreqIsLength(keys, input);
    assert |input| > 0 ==> input[0] in keys;
    assert |keys| > 0 ==> keys[0] in input;
    var root := BuildHuffmanTree(entries);
    if root.Some? then
      KeysToLeaves(root.value, keys, input);
      root
    else root
  }

  /** Leaves carrying the distinct keys of the input, one each. */
  lemma KeysToLeaves(root: Tree, keys: string, input: string)
    requires LeafChars(root) == multiset(keys) && Distinct(keys)
    requires forall c :: c in keys <==> c in input
    ensures DistinctLeaves(root)
    ensures forall c :: c in LeafChars(root) <==> c in input
  {
    DistinctMultiset(keys);
  }

  // ---------------------------------------------------------------------------
  // The code table

  predicate IsBits(s: string) {
    forall i :: 0 <= i < |s| ==> s[i] == '0' || s[i] == '1'
  }

  predicate IsPrefix(p: string, s: string) {
    |p| <= |s| && s[..|p|] == p
  }

  /** s is `code` followed by '0'/'1' steps. */
  predicate Extends(code: string, s: string) {
    IsPrefix(code, s) && IsBits(s[|code|..])
  }

  /** No code is a prefix of another character's code. */
  predicate PrefixFree(table: map<char, string>) {
    forall a, b :: a in table && b in table && a != b ==> !IsPrefix(table[a], table[b])
  }

  predicate DistinctLeaves(t: Tree) {
    forall c :: LeafChars(t)[c] <= 1
  }

  /**
   * `buildCodeTable`: a preorder walk that records, for every leaf, the
   * string of '0' (left) and '1' (right) steps that leads to it from where
   * the walk started with `code`. A later entry for the same character
   * would overwrite an earlier one, as the right operand of `+` does.
   */
  function BuildCodeTable(t: Tree, code: string): (table: map<char, string>)
    ensures forall c :: c in table <==> c in LeafChars(t)
  {
    match t
    case Leaf(c, _) => map[c := code]
    case Node(l, r, _) => BuildCodeTable(l, code + "0") + BuildCodeTable(r, code + "1")
  }

  /** A step taken after `code`: the code extends with that bit in position |code|. */
  lemma StepExtends(code: string, step: char, s: string)
    requires step == '0' || step == '1'
    requires Extends(code + [step], s)
    ensures Extends(code, s) && |s| > |code| && s[|code|] == step
    ensures s[|code|..] == [step] + s[|code| + 1..]
  {
    var p := code + [step];
    assert s[..|code|] == s[..|p|][..|code|];
    assert s[|code|..] == [step] + s[|p|..];
  }

  /** Every code extends the starting code by bits, strictly below an inner node. */
  lemma {:induction false} CodesExtend(t: Tree, code: string)
    ensures forall c :: c in BuildCodeTable(t, code) ==> Extends(code, BuildCodeTable(t, code)[c])
    ensures t.Node? ==> forall c :: c in BuildCodeTable(t, code) ==> |BuildCodeTable(t, code)[c]| > |code|
    decreases t
  {
    match t
    case Leaf(c, _) =>
      assert code[..|code|] == code;
    case Node(l, r, _) =>
      var left := BuildCodeTable(l, code + "0");
      var right := BuildCodeTable(r, code + "1");
      CodesExtend(l, code + "0");
      CodesExtend(r, code + "1");
      forall c | c in left + right
        ensures Extends(code, (left + right)[c]) && |(left + right)[c]| > |code|
      {
        if c in right {
          StepExtends(code, '1', right[c]);
        } else {
          StepExtends(code, '0', left[c]);
        }
      }
  }

  /** With one leaf per character, no code is a prefix of another. */
  lemma {:induction false} CodesPrefixFree(t: Tree, code: string)
    requires DistinctLeaves(t)
    ensures PrefixFree(BuildCodeTable(t, code))
    decreases t
  {
    match t
    case Leaf(c, _) =>
    case Node(l, r, _) =>
      assert forall c :: LeafChars(t)[c] == LeafChars(l)[c] + LeafChars(r)[c];
      CodesPrefixFree(l, code + "0");
      CodesPrefixFree(r, code + "1");
      CodesExtend(l, code + "0");
      CodesExtend(r, code + "1");
      SplitPrefixFree(code, BuildCodeTable(l, code + "0"), BuildCodeTable(r, code + "1"));
  }

  /** Codes from opposite sides of a node differ in the step taken at that node. */
  lemma SplitPrefixFree(code: string, left: map<char, string>, right: map<char, string>)
    requires PrefixFree(left) && PrefixFree(right)
    requires forall c :: c in left ==> c !in right
    requires forall c :: c in left ==> Extends(code + "0", left[c])
    requires forall c :: c in right ==> Extends(code + "1", right[c])
    ensures PrefixFree(left + right)
  {
    var table := left + right;
    forall a, b | a in table && b in table && a != b
      ensures !IsPrefix(table[a], table[b])
    {
      if a in right && b !in right {
        StepExtends(code, '1', table[a]);
        StepExtends(code, '0', table[b]);
      } else if a !in right && b in right {
        StepExtends(code, '0', table[a]);
        StepExtends(code, '1', table[b]);
      }
    }
  }

  // ---------------------------------------------------------------------------
  // Encoding and decoding

  /** `input.split("").map(c => codeTable[c]).join("")`; a missing code joins as "". */
  function EncodeWith(table: map<char, string>, input: string): (encoded: string)
    ensures |input| == 0 ==> encoded == ""
  {
    if |input| == 0 then ""
    else (if input[0] in table then table[input[0]] else "") + EncodeWith(table, input[1..])
  }

  /** The encoding of a concatenation is the concatenation of the encodings. */
  lemma {:induction false} EncodeConcat(table: map<char, string>, a: string, b: string)
    ensures EncodeWith(table, a + b) == EncodeWith(table, a) + EncodeWith(table, b)
    decreases |a|
  {
    if |a| == 0 {
      assert a + b == b;
    } else {
      assert (a + b)[0] == a[0];
      assert (a + b)[1..] == a[1..] + b;
      EncodeConcat(table, a[1..], b);
    }
  }

  /** The table of `huffmanEncode`; an empty input has no tree and an empty table. */
  function HuffmanCodeTable(input: string): (table: map<char, string>)
    ensures forall c :: c in table <==> c in input
  {
    match HuffmanTree(input)
    case None => map[]
    case Some(root) => BuildCodeTable(root, "")
  }

  /** `huffmanEncode`: the code table has exactly the input's characters. */
  function HuffmanEncode(input: string): (r: Encoding)
    ensures |input| == 0 ==> r == Encoding("", map[])
    ensures forall c :: c in r.codeTable <==> c in input
  {
    var table := HuffmanCodeTable(input);
    Encoding(EncodeWith(table, input), table)
  }

  /** The table sent with every message is prefix-free and made of bits. */
  lemma HuffmanTableIsPrefixCode(input: string)
    ensures PrefixFree(HuffmanEncode(input).codeTable)
    ensures forall c :: c in HuffmanEncode(input).codeTable ==> IsBits(HuffmanEncode(input).codeTable[c])
  {
    if |input| > 0 {
      var root := HuffmanTree(input).value;
      var table := BuildCodeTable(root, "");
      assert HuffmanEncode(input).codeTable == table;
      CodesPrefixFree(root, "");
      CodesExtend(root, "");
      forall c | c in table ensures IsBits(table[c]) {
        assert table[c][0..] == table[c];
      }
    }
  }

  /** Walks from t along the bits to a leaf; the remaining bits come back with its character. */
  function DecodeOne(t: Tree, bits: string): (r: Option<(char, string)>)
    ensures r.Some? ==> |r.value.1| <= |bits|
    ensures r.Some? && t.Node? ==> |r.value.1| < |bits|
  {
    match t
    case Leaf(c, _) => Some((c, bits))
    case Node(l, r, _) =>
      if |bits| == 0 then None
      else if bits[0] == '0' then DecodeOne(l, bits[1..])
      else if bits[0] == '1' then DecodeOne(r, bits[1..])
      else None
  }

  /** Decodes a whole bit string against a tree with at least two leaves. */
  function Decode(root: Tree, bits: string): (r: Option<string>)
    requires root.Node?
    decreases |bits|
  {
    if |bits| == 0 then Some("")
    else
      match DecodeOne(root, bits)
      case None => None
      case Some((c, rest)) =>
        match Decode(root, rest)
        case None => None
        case Some(tail) => Some([c] + tail)
  }

  /** Following a character's code from the node where the table walk began reaches its leaf. */
  lemma {:induction false} CodeReachesLeaf(t: Tree, code: string, c: char, rest: string)
    requires DistinctLeaves(t) && c in LeafChars(t)
    ensures |code| <= |BuildCodeTable(t, code)[c]|
            && DecodeOne(t, BuildCodeTable(t, code)[c][|code|..] + rest) == Some((c, rest))
    decreases t
  {
    if t.Leaf? {
      assert BuildCodeTable(t, code)[c] == code;
      assert code[|code|..] + rest == rest;
    } else {
      var goRight := c in LeafChars(t.right);
      var child := if goRight then t.right else t.left;
      var step := if goRight then '1' else '0';
      var p := code + [step];
      var s := BuildCodeTable(t, code)[c];
      ChildEntry(t, code, c);
      CodeReachesLeaf(child, p, c, rest);
      DecodeStep(t, code, step, s, rest);
      assert s[|code| + 1..] == s[|p|..];
    }
  }

  /** Below an inner node, a character's code is the one its child's walk assigns. */
  lemma ChildEntry(t: Tree, code: string, c: char)
    requires t.Node? && DistinctLeaves(t) && c in LeafChars(t)
    ensures var goRight := c in LeafChars(t.right);
            var child := if goRight then t.right else t.left;
            var p := code + [if goRight then '1' else '0'];
            && DistinctLeaves(child) && c in LeafChars(child)
            && c in BuildCodeTable(child, p)
            && BuildCodeTable(t, code)[c] == BuildCodeTable(child, p)[c]
            && Extends(p, BuildCodeTable(child, p)[c])
  {
    var goRight := c in LeafChars(t.right);
    var child := if goRight then t.right else t.left;
    var p := code + [if goRight then '1' else '0'];
    assert forall d :: LeafChars(t)[d] == LeafChars(t.left)[d] + LeafChars(t.right)[d];
    CodesExtend(child, p);
  }

  /** One step of the walk: the bit after `code` selects the child, and the rest of the code continues from it. */
  lemma DecodeStep(t: Tree, code: string, step: char, s: string, rest: string)
    requires t.Node? && (step == '0' || step == '1')
    requires Extends(code + [step], s)
    ensures |code| <= |s|
    ensures DecodeOne(t, s[|code|..] + rest)
            == DecodeOne(if step == '1' then t.right else t.left, s[|code| + 1..] + rest)
  {
    StepExtends(code, step, s);
    var bits := s[|code|..] + rest;
    assert bits == [step] + (s[|code| + 1..] + rest);
    assert bits[0] == step && bits[1..] == s[|code| + 1..] + rest;
  }

  /** Decoding the encoding of any text over the tree's characters gives the text back. */
  lemma {:induction false} DecodeEncode(root: Tree, input: string)
    requires root.Node? && DistinctLeaves(root)
    requires forall i :: 0 <= i < |input| ==> input[i] in LeafChars(root)
    ensures Decode(root, EncodeWith(BuildCodeTable(root, ""), input)) == Some(input)
    decreases |input|
  {
    if |input| > 0 {
      var table := BuildCodeTable(root, "");
      var c := input[0];
      var rest := EncodeWith(table, input[1..]);
      var bits := table[c] + rest;
      assert EncodeWith(table, input) == bits;
      CodeReachesLeaf(root, "", c, rest);
      assert table[c][0..] == table[c];
      assert |bits| > 0;
      DecodeEncode(root, input[1..]);
      assert Decode(root, bits) == Some([c] + input[1..]);
      assert input == [c] + input[1..];
    }
  }

  /** The input has at least two distinct characters. */
  predicate ManyDistinct(input: string) {
    exists i, j :: 0 <= i < |input| && 0 <= j < |input| && input[i] != input[j]
  }

  /** Two distinct characters cannot share a single leaf. */
  lemma TwoCharsMakeNode(input: string)
    requires ManyDistinct(input)
    ensures HuffmanTree(input).Some? && HuffmanTree(input).value.Node?
  {
    var root := HuffmanTree(input).value;
    var i, j :| 0 <= i < |input| && 0 <= j < |input| && input[i] != input[j];
    assert input[i] in input && input[j] in input;
    assert LeafChars(root)[input[i]] == 1 && LeafChars(root)[input[j]] == 1;
  }

  /** With at least two distinct characters the tree decodes the encoded text back to the input. */
  lemma RoundTrip(input: string)
    requires ManyDistinct(input)
    ensures HuffmanTree(input).Some? && HuffmanTree(input).value.Node?
    ensures Decode(HuffmanTree(input).value, HuffmanEncode(input).encoded) == Some(input)
  {
    TwoCharsMakeNode(input);
    var root := HuffmanTree(input).value;
    assert HuffmanEncode(input).encoded == EncodeWith(BuildCodeTable(root, ""), input);
    forall k | 0 <= k < |input| ensures input[k] in LeafChars(root) {
      assert input[k] in input;
    }
    DecodeEncode(root, input);
  }

  /**
   * The receiver's decoder: it holds only the code table that `huffmanEncode`
   * returns, and repeatedly takes a character whose non-empty code starts the
   * remaining bits. For a prefix code that character is unique.
   */
  ghost function DecodeWithTable(table: map<char, string>, bits: string): (r: Option<string>)
    decreases |bits|
  {
    if |bits| == 0 then Some("")
    else if exists c :: c in table && |table[c]| > 0 && IsPrefix(table[c], bits) then
      var c :| c in table && |table[c]| > 0 && IsPrefix(table[c], bits);
      match DecodeWithTable(table, bits[|table[c]|..])
      case None => None
      case Some(rest) => Some([c] + rest)
    else None
  }

  /** In a prefix-free table at most one code starts a given bit string. */
  lemma CodeAtFront(table: map<char, string>, bits: string, x: char, c: char)
    requires PrefixFree(table) && x in table && c in table
    requires IsPrefix(table[x], bits) && IsPrefix(table[c], bits)
    ensures c == x
  {
  }

  /** The table alone decodes whatever was encoded with it, when it is a prefix code with non-empty codes. */
  lemma {:induction false} TableDecodesEncoding(table: map<char, string>, input: string)
    requires PrefixFree(table)
    requires forall c :: c in table ==> |table[c]| > 0
    requires forall i :: 0 <= i < |input| ==> input[i] in table
    ensures DecodeWithTable(table, EncodeWith(table, input)) == Some(input)
    decreases |input|
  {
    if |input| > 0 {
      var x := input[0];
      var code := table[x];
      var tail := EncodeWith(table, input[1..]);
      var bits := EncodeWith(table, input);
      assert bits == code + tail;
      assert bits[..|code|] == code && bits[|code|..] == tail;
      assert IsPrefix(code, bits);
      forall c | c in table && |table[c]| > 0 && IsPrefix(table[c], bits) ensures c == x {
        CodeAtFront(table, bits, x, c);
      }
      forall i | 0 <= i < |input[1..]| ensures input[1..][i] in table {
        assert input[1..][i] == input[i + 1];
      }
      TableDecodesEncoding(table, input[1..]);
      assert input == [x] + input[1..];
    }
  }

  /**
   * With at least two distinct characters, the client's decoder, which sees
   * only the returned code table, recovers the input from the encoded text.
   */
  lemma TableRoundTrip(input: string)
    requires ManyDistinct(input)
    ensures DecodeWithTable(HuffmanEncode(input).codeTable, HuffmanEncode(input).encoded) == Some(input)
  {
    var e := HuffmanEncode(input);
    HuffmanTableIsPrefixCode(input);
    CodesNonEmpty(input);
    forall i | 0 <= i < |input| ensures input[i] in e.codeTable {
      assert input[i] in input;
    }
    TableDecodesEncoding(e.codeTable, input);
  }

  /** With at least two distinct characters every character gets a non-empty code. */
  lemma CodesNonEmpty(input: string)
    requires ManyDistinct(input)
    ensures forall c :: c in HuffmanEncode(input).codeTable ==> |HuffmanEncode(input).codeTable[c]| > 0
  {
    TwoCharsMakeNode(input);
    CodesExtend(HuffmanTree(input).value, "");
  }

  /**
   * With a single distinct character the tree is a lone leaf, its code is
   * the empty string and the encoded text is empty, whatever the length.
   */
  lemma SingleCharacter(input: string)
    requires |input| > 0 && forall i :: 0 <= i < |input| ==> input[i] == input[0]
    ensures HuffmanEncode(input) == Encoding("", map[input[0] := ""])
  {
    var root := HuffmanTree(input).value;
    var c := input[0];
    assert forall d :: d in input ==> d == c;
    OneCharacterTreeIsLeaf(root, c);
    assert HuffmanEncode(input) == Encoding(EncodeWith(map[c := ""], input), map[c := ""]);
    EncodeAllEmpty(map[c := ""], input);
  }

  /** A tree with one leaf per character whose leaves all carry c is the single leaf c. */
  lemma OneCharacterTreeIsLeaf(t: Tree, c: char)
    requires DistinctLeaves(t) && forall d :: d in LeafChars(t) ==> d == c
    ensures t.Leaf? && t.c == c
  {
    if t.Node? {
      SameCharacterTwice(t, c);
    } else {
      assert t.c in LeafChars(t);
    }
  }

  /** An inner node whose leaves all carry c carries c at least twice. */
  lemma SameCharacterTwice(t: Tree, c: char)
    requires t.Node? && forall d :: d in LeafChars(t) ==> d == c
    ensures LeafChars(t)[c] >= 2
  {
    NonEmptyTree(t.left);
    NonEmptyTree(t.right);
    var d :| d in LeafChars(t.left);
    var e :| e in LeafChars(t.right);
    assert d in LeafChars(t) && e in LeafChars(t);
  }

  lemma {:induction false} NonEmptyTree(t: Tree)
    ensures |LeafChars(t)| >= 1 && exists d :: d in LeafChars(t)
    decreases t
  {
    match t
    case Leaf(d, _) => assert d in LeafChars(t);
    case Node(l, _, _) =>
      NonEmptyTree(l);
      var d :| d in LeafChars(l);
      assert d in LeafChars(t);
  }

  lemma {:induction false} EncodeAllEmpty(table: map<char, string>, input: string)
    requires forall c :: c in table ==> table[c] == ""
    ensures EncodeWith(table, input) == ""
    decreases |input|
  {
    if |input| > 0 {
      EncodeAllEmpty(table, input[1..]);
    }
  }

  /**
   * Two texts repeating the same character encode alike, whatever their
   * lengths: the encoding cannot be inverted there.
   */
  lemma SingleCharacterLosesLength(s: string, t: string)
    requires |s| > 0 && forall i :: 0 <= i < |s| ==> s[i] == s[0]
    requires |t| > 0 && forall i :: 0 <= i < |t| ==> t[i] == s[0]
    ensures HuffmanEncode(s) == HuffmanEncode(t)
  {
    SingleCharacter(s);
    SingleCharacter(t);
  }
}

=== FILE: pathfinding.dfy ===
/**
 * The A* grid pathfinder: 4-neighbour moves of unit cost, Manhattan
 * heuristic, an open list re-sorted by total cost on every iteration and a
 * closed list of expanded tiles.
 *
 * The source links search nodes by object references; here the nodes live in
 * an arena (`Search.nodes`) and a parent is an index into it. The closed list
 * is only ever asked "is there a node at this tile?", so it is a set of tiles.
 */
module Pathfinding {
  import opened Wrappers
  import opened Sorting

  datatype Tile = Tile(x: int, y: int)

  /** `PathNode`: cost so far `g`, heuristic `h`, total `f`, and the arena index of its parent. */
  datatype PathNode = PathNode(x: int, y: int, g: int, h: int, f: int, parent: Option<nat>)

  /** What `aStar` produces: a path, `null`, or a TypeError thrown while searching. */
  datatype PathResult = Found(path: seq<Tile>) | NoPath | Threw

  /** A tile code per cell; a missing cell (a ragged row) reads as `undefined`. */
  type Cells = seq<seq<Option<int>>>

  function Abs(n: int): nat {
    if n < 0 then -n else n
  }

  function Manhattan(a: Tile, b: Tile): nat {
    Abs(a.x - b.x) + Abs(a.y - b.y)
  }

  predicate Adjacent(a: Tile, b: Tile) {
    Manhattan(a, b) == 1
  }

  function Coord(n: PathNode): Tile {
    Tile(n.x, n.y)
  }

  /** `PathNode.calculateCosts`: h becomes the Manhattan distance to the target and f = g + h. */
  function CalculateCosts(node: PathNode, target: Tile): (r: PathNode)
    ensures r.h == Manhattan(Coord(node), target) && r.f == r.g + r.h
    ensures Coord(r) == Coord(node) && r.g == node.g && r.parent == node.parent
  {
    node.(h := Manhattan(Coord(node), target), f := node.g + Manhattan(Coord(node), target))
  }

  /** The heuristic never overestimates: one step changes it by at most one. */
  lemma HeuristicConsistent(a: Tile, b: Tile, target: Tile)
    requires Adjacent(a, b)
    ensures Manhattan(a, target) <= Manhattan(b, target) + 1
  {
  }

  /** Every row is at most as long as the number of rows. */
  predicate RowsFit(worldMap: seq<seq<int>>) {
    forall y :: 0 <= y < |worldMap| ==> |worldMap[y]| <= |worldMap|
  }

  predicate IsSquare(worldMap: seq<seq<int>>) {
    forall y :: 0 <= y < |worldMap| ==> |worldMap[y]| == |worldMap|
  }

  /**
   * `adjustWorldMapToIsometric`: row y of the result has as many cells as row y
   * of the input and cell (y, x) is input cell (x, y). Reading row x of the
   * input when there is none throws, which happens exactly when some row is
   * longer than the number of rows; a cell past the end of a shorter row is
   * `undefined`.
   */
  function AdjustWorldMapToIsometric(worldMap: seq<seq<int>>): (r: Result<Cells>)
    ensures r.Failure? <==> !RowsFit(worldMap)
    ensures r.Success? ==> |r.value| == |worldMap|
    ensures r.Success? ==> forall y :: 0 <= y < |worldMap| ==> |r.value[y]| == |worldMap[y]|
    ensures r.Success? ==> forall y, x :: 0 <= y < |worldMap| && 0 <= x < |worldMap[y]| ==>
              r.value[y][x] == (if y < |worldMap[x]| then Some(worldMap[x][y]) else None)
  {
    if !RowsFit(worldMap) then Failure("Cannot read properties of undefined")
    else
      Success(seq(|worldMap|, y requires 0 <= y < |worldMap| =>
        seq(|worldMap[y]|, x requires 0 <= x < |worldMap[y]| =>
          if y < |worldMap[x]| then Some(worldMap[x][y]) else None)))
  }

  /** On a square grid the adjustment is exactly the transpose. */
  lemma SquareAdjustIsTranspose(worldMap: seq<seq<int>>)
    requires IsSquare(worldMap)
    ensures AdjustWorldMapToIsometric(worldMap).Success?
    ensures forall y, x :: 0 <= y < |worldMap| && 0 <= x < |worldMap| ==>
              AdjustWorldMapToIsometric(worldMap).value[y][x] == Some(worldMap[x][y])
  {
  }

  function Width(cells: Cells): nat {
    if |cells| == 0 then 0 else |cells[0]|
  }

  /** The bounds test of the search: x against the first row's length, y against the row count. */
  predicate InBounds(cells: Cells, t: Tile) {
    0 <= t.x < Width(cells) && 0 <= t.y < |cells|
  }

  function CellAt(cells: Cells, t: Tile): Option<int>
    requires 0 <= t.y < |cells| && 0 <= t.x
  {
    if t.x < |cells[t.y]| then cells[t.y][t.x] else None
  }

  /** `tileInfo[tile]?.walkable`: unknown codes and missing cells are not walkable. */
  predicate IsWalkable(tileInfo: map<int, bool>, cell: Option<int>) {
    cell.Some? && cell.value in tileInfo && tileInfo[cell.value]
  }

  /** A tile the search may step onto. */
  predicate Enterable(cells: Cells, tileInfo: map<int, bool>, t: Tile) {
    InBounds(cells, t) && IsWalkable(tileInfo, CellAt(cells, t))
  }

  /**
   * A walk from `start` to `target`: consecutive tiles 4-adjacent and every
   * tile after the first enterable. The start tile itself is never checked.
   */
  predicate IsWalk(path: seq<Tile>, start: Tile, target: Tile, cells: Cells, tileInfo: map<int, bool>) {
    && |path| >= 1
    && path[0] == start
    && path[|path| - 1] == target
    && (forall i :: 0 <= i < |path| - 1 ==> Adjacent(path[i], path[i + 1]))
    && (forall i :: 1 <= i < |path| ==> Enterable(cells, tileInfo, path[i]))
  }

  /** The tiles a search can ever close: the grid, plus the start tile. */
  function Universe(start: Tile, cells: Cells): set<Tile> {
    (set x: int, y: int | 0 <= x < Width(cells) && 0 <= y < |cells| :: Tile(x, y)) + {start}
  }

  /** The open and closed lists over the node arena. */
  datatype Search = Search(nodes: seq<PathNode>, open: seq<nat>, closed: set<Tile>)

  function StartNode(start: Tile): PathNode {
    PathNode(start.x, start.y, 0, 0, 0, None)
  }

  /**
   * Arena node k is well linked: the start node has no parent; any other node
   * has as parent an expanded (closed) node one step away and one unit of
   * cost cheaper, and stands on an enterable tile.
   */
  ghost predicate LinkOk(nodes: seq<PathNode>, k: nat, closed: set<Tile>, cells: Cells, tileInfo: map<int, bool>)
    requires k < |nodes|
  {
    && nodes[k].g >= 0
    && (nodes[k].parent.None? ==> k == 0)
    && (nodes[k].parent.Some? ==>
          && nodes[k].parent.value < |nodes|
          && Coord(nodes[nodes[k].parent.value]) in closed
          && nodes[k].g == nodes[nodes[k].parent.value].g + 1
          && Adjacent(Coord(nodes[nodes[k].parent.value]), Coord(nodes[k])))
    && (k > 0 ==> Enterable(cells, tileInfo, Coord(nodes[k])))
  }

  ghost predicate ParentsValid(nodes: seq<PathNode>, closed: set<Tile>, start: Tile, cells: Cells, tileInfo: map<int, bool>) {
    && |nodes| >= 1
    && nodes[0] == StartNode(start)
    && forall k: nat :: k < |nodes| ==> LinkOk(nodes, k, closed, cells, tileInfo)
  }

  /** Open entries are arena indices on tiles that are not closed. */
  ghost predicate OpenIndices(s: Search) {
    forall a :: a in s.open ==> a < |s.nodes| && Coord(s.nodes[a]) !in s.closed
  }

  /** Each open entry is listed once, and distinct entries stand on distinct tiles. */
  ghost predicate OpenDistinct(s: Search)
    requires OpenIndices(s)
  {
    && (forall a :: a in multiset(s.open) ==> multiset(s.open)[a] == 1)
    && (forall a, b :: a in s.open && b in s.open && a != b ==> Coord(s.nodes[a]) != Coord(s.nodes[b]))
  }

  ghost predicate Valid(s: Search, start: Tile, cells: Cells, tileInfo: map<int, bool>) {
    && ParentsValid(s.nodes, s.closed, start, cells, tileInfo)
    && OpenIndices(s)
    && OpenDistinct(s)
    && s.closed <= Universe(start, cells)
    && (s.closed == {} ==> s.open == [0])
    && (s.closed != {} ==> start in s.closed)
  }

  /** Walks the parent links back to the start node; the result runs start → node k. */
  function Reconstruct(nodes: seq<PathNode>, k: nat, ghost closed: set<Tile>, ghost start: Tile,
                       ghost cells: Cells, ghost tileInfo: map<int, bool>): (path: seq<Tile>)
    requires ParentsValid(nodes, closed, start, cells, tileInfo) && k < |nodes|
    ensures IsWalk(path, start, Coord(nodes[k]), cells, tileInfo)
    ensures |path| == nodes[k].g + 1
    decreases nodes[k].g
  {
    assert LinkOk(nodes, k, closed, cells, tileInfo);
    match nodes[k].parent
    case None => [Coord(nodes[k])]
    case Some(p) => Reconstruct(nodes, p, closed, start, cells, tileInfo) + [Coord(nodes[k])]
  }

  /** The first open node standing on tile t (`openList.find`). */
  function FindOpen(nodes: seq<PathNode>, open: seq<nat>, t: Tile): (r: Option<nat>)
    requires forall a :: a in open ==> a < |nodes|
    ensures r.Some? ==> r.value in open && Coord(nodes[r.value]) == t
    ensures r.None? ==> forall a :: a in open ==> Coord(nodes[a]) != t
  {
    if |open| == 0 then None
    else
      assert open[0] in open;
      if Coord(nodes[open[0]]) == t then Some(open[0])
      else
        assert forall a :: a in open[1..] ==> a in open;
        assert forall a :: a in open ==> a == open[0] || a in open[1..];
        FindOpen(nodes, open[1..], t)
  }

  /**
   * One neighbour of the node being expanded (arena index `current`). Returns
   * None when the bounds test throws: it reads the length of the first row
   * once the x >= 0 test has passed, and there is no first row.
   */
  function ExpandNeighbor(s: Search, current: nat, neighbor: Tile, target: Tile,
                          start: Tile, cells: Cells, tileInfo: map<int, bool>): (r: Option<Search>)
    requires Valid(s, start, cells, tileInfo) && s.closed != {}
    requires current < |s.nodes| && Coord(s.nodes[current]) in s.closed
    requires Adjacent(Coord(s.nodes[current]), neighbor)
    ensures r.None? <==> neighbor.x >= 0 && |cells| == 0
    ensures r.Some? ==> Valid(r.value, start, cells, tileInfo) && r.value.closed == s.closed
    ensures r.Some? ==> current < |r.value.nodes| && r.value.nodes[current] == s.nodes[current]
  {
    if neighbor.x < 0 then Some(s)
    else if |cells| == 0 then None
    else if neighbor.x >= |cells[0]| || neighbor.y < 0 || neighbor.y >= |cells| then Some(s)
    else if !IsWalkable(tileInfo, CellAt(cells, neighbor)) then Some(s)
    else if neighbor in s.closed then Some(s)
    else
      var g := s.nodes[current].g + 1;
      match FindOpen(s.nodes, s.open, neighbor)
      case None =>
        var node := CalculateCosts(PathNode(neighbor.x, neighbor.y, g, 0, 0, Some(current)), target);
        var s' := Search(s.nodes + [node], s.open + [|s.nodes|], s.closed);
        assert Valid(s', start, cells, tileInfo) by { AppendKeepsValid(s, current, node, start, cells, tileInfo); }
        Some(s')
      case Some(j) =>
        if g < s.nodes[j].g then
          var node := CalculateCosts(s.nodes[j].(g := g, parent := Some(current)), target);
          var s' := Search(s.nodes[j := node], s.open, s.closed);
          assert Valid(s', start, cells, tileInfo) && j != current by {
            UpdateKeepsValid(s, current, j, node, start, cells, tileInfo);
          }
          Some(s')
        else Some(s)
  }

  lemma ParentsAppend(nodes: seq<PathNode>, closed: set<Tile>, start: Tile, cells: Cells, tileInfo: map<int, bool>, node: PathNode)
    requires ParentsValid(nodes, closed, start, cells, tileInfo)
    requires node.parent.Some? && node.parent.value < |nodes|
    requires Coord(nodes[node.parent.value]) in closed
    requires node.g == nodes[node.parent.value].g + 1 && node.g >= 0
    requires Adjacent(Coord(nodes[node.parent.value]), Coord(node))
    requires Enterable(cells, tileInfo, Coord(node))
    ensures ParentsValid(nodes + [node], closed, start, cells, tileInfo)
  {
    var nodes' := nodes + [node];
    forall k: nat | k < |nodes'|
      ensures LinkOk(nodes', k, closed, cells, tileInfo)
    {
      if k < |nodes| {
        assert LinkOk(nodes, k, closed, cells, tileInfo);
        assert nodes'[k] == nodes[k];
      }
    }
  }

  lemma AppendKeepsValid(s: Search, current: nat, node: PathNode, start: Tile, cells: Cells, tileInfo: map<int, bool>)
    requires Valid(s, start, cells, tileInfo) && s.closed != {}
    requires current < |s.nodes| && Coord(s.nodes[current]) in s.closed
    requires Adjacent(Coord(s.nodes[current]), Coord(node))
    requires node.parent == Some(current) && node.g == s.nodes[current].g + 1
    requires Enterable(cells, tileInfo, Coord(node)) && Coord(node) !in s.closed
    requires forall a :: a in s.open ==> Coord(s.nodes[a]) != Coord(node)
    ensures Valid(Search(s.nodes + [node], s.open + [|s.nodes|], s.closed), start, cells, tileInfo)
  {
    assert LinkOk(s.nodes, current, s.closed, cells, tileInfo);
    ParentsAppend(s.nodes, s.closed, start, cells, tileInfo, node);
    var s' := Search(s.nodes + [node], s.open + [|s.nodes|], s.closed);
    var k: nat := |s.nodes|;
    assert k !in s.open;
    assert multiset(s'.open) == multiset(s.open) + multiset{k};
    forall a | a in s'.open
      ensures a == k || (a in s.open && s'.nodes[a] == s.nodes[a])
    {
    }
  }

  lemma UpdateKeepsValid(s: Search, current: nat, j: nat, node: PathNode, start: Tile, cells: Cells, tileInfo: map<int, bool>)
    requires Valid(s, start, cells, tileInfo) && s.closed != {}
    requires current < |s.nodes| && Coord(s.nodes[current]) in s.closed
    requires j in s.open
    requires Coord(node) == Coord(s.nodes[j])
    requires Adjacent(Coord(s.nodes[current]), Coord(node))
    requires node.parent == Some(current) && node.g == s.nodes[current].g + 1
    ensures j != current
    ensures Valid(Search(s.nodes[j := node], s.open, s.closed), start, cells, tileInfo)
  {
    var nodes' := s.nodes[j := node];
    assert Coord(s.nodes[j]) !in s.closed;
    assert j != 0;
    assert LinkOk(s.nodes, current, s.closed, cells, tileInfo);
    assert LinkOk(s.nodes, j, s.closed, cells, tileInfo);
    forall k: nat | k < |nodes'|
      ensures LinkOk(nodes', k, s.closed, cells, tileInfo)
    {
      assert LinkOk(s.nodes, k, s.closed, cells, tileInfo);
      if k != j && nodes'[k].parent.Some? {
        assert nodes'[k].parent.value != j;
      }
    }
  }

  /** Expands the four neighbours in the source's order: up, down, left, right. */
  function ExpandAll(s: Search, current: nat, target: Tile,
                     start: Tile, cells: Cells, tileInfo: map<int, bool>): (r: Option<Search>)
    requires Valid(s, start, cells, tileInfo) && s.closed != {}
    requires current < |s.nodes| && Coord(s.nodes[current]) in s.closed
    ensures |cells| > 0 ==> r.Some?
    ensures r.Some? ==> Valid(r.value, start, cells, tileInfo) && r.value.closed == s.closed
  {
    var c := Coord(s.nodes[current]);
    match ExpandNeighbor(s, current, Tile(c.x, c.y - 1), target, start, cells, tileInfo)
    case None => None
    case Some(s1) =>
      match ExpandNeighbor(s1, current, Tile(c.x, c.y + 1), target, start, cells, tileInfo)
      case None => None
      case Some(s2) =>
        match ExpandNeighbor(s2, current, Tile(c.x - 1, c.y), target, start, cells, tileInfo)
        case None => None
        case Some(s3) => ExpandNeighbor(s3, current, Tile(c.x + 1, c.y), target, start, cells, tileInfo)
  }

  function OpenKey(nodes: seq<PathNode>): nat -> int {
    (i: nat) => if i < |nodes| then nodes[i].f else 0
  }

  /**
   * The main loop: sort the open list by f, take the first node, return its
   * path if it is the target, otherwise close it and expand its neighbours.
   * Each iteration closes a tile of the grid (or the start tile) that was not
   * closed before, which bounds the number of iterations.
   */
  function SearchLoop(s: Search, target: Tile, start: Tile, cells: Cells, tileInfo: map<int, bool>): (r: PathResult)
    requires Valid(s, start, cells, tileInfo)
    ensures r.Found? ==> IsWalk(r.path, start, target, cells, tileInfo)
    ensures |cells| > 0 ==> !r.Threw?
    decreases |Universe(start, cells) - s.closed|
  {
    if |s.open| == 0 then NoPath
    else
      var sorted := SortBy(s.open, OpenKey(s.nodes));
      PopKeepsValid(s, sorted, start, cells, tileInfo);
      var current := sorted[0];
      var node := s.nodes[current];
      if Coord(node) == target then
        Found(Reconstruct(s.nodes, current, s.closed, start, cells, tileInfo))
      else
        var s1 := Search(s.nodes, sorted[1..], s.closed + {Coord(node)});
        match ExpandAll(s1, current, target, start, cells, tileInfo)
        case None => Threw
        case Some(s2) => SearchLoop(s2, target, start, cells, tileInfo)
  }

  lemma ParentsGrowClosed(nodes: seq<PathNode>, closed: set<Tile>, closed': set<Tile>, start: Tile, cells: Cells, tileInfo: map<int, bool>)
    requires ParentsValid(nodes, closed, start, cells, tileInfo) && closed <= closed'
    ensures ParentsValid(nodes, closed', start, cells, tileInfo)
  {
    forall k: nat | k < |nodes|
      ensures LinkOk(nodes, k, closed', cells, tileInfo)
    {
      assert LinkOk(nodes, k, closed, cells, tileInfo);
    }
  }

  /** Removing the head of a permutation of the open list leaves exactly the other entries. */
  lemma PopOpen(open: seq<nat>, sorted: seq<nat>)
    requires |sorted| > 0 && multiset(sorted) == multiset(open)
    requires forall a :: a in multiset(open) ==> multiset(open)[a] == 1
    ensures sorted[0] in open
    ensures forall a :: a in sorted[1..] ==> a in open && a != sorted[0]
    ensures forall a :: a in multiset(sorted[1..]) ==> multiset(sorted[1..])[a] == 1
  {
    var current := sorted[0];
    assert current in multiset(open);
    assert sorted == [current] + sorted[1..];
    assert multiset(sorted[1..]) == multiset(open) - multiset{current};
    forall a | a in sorted[1..]
      ensures a in open && a != current
    {
      assert a in multiset(sorted[1..]);
    }
  }

  lemma PopKeepsValid(s: Search, sorted: seq<nat>, start: Tile, cells: Cells, tileInfo: map<int, bool>)
    requires Valid(s, start, cells, tileInfo)
    requires |sorted| > 0 && multiset(sorted) == multiset(s.open)
    ensures sorted[0] in s.open && sorted[0] < |s.nodes|
    ensures Coord(s.nodes[sorted[0]]) !in s.closed
    ensures |Universe(start, cells) - (s.closed + {Coord(s.nodes[sorted[0]])})| < |Universe(start, cells) - s.closed|
    ensures Valid(Search(s.nodes, sorted[1..], s.closed + {Coord(s.nodes[sorted[0]])}), start, cells, tileInfo)
  {
    var current := sorted[0];
    PopOpen(s.open, sorted);
    var c := Coord(s.nodes[current]);
    var closed := s.closed + {c};
    assert LinkOk(s.nodes, current, s.closed, cells, tileInfo);
    if s.closed == {} {
      assert s.open == [0];
    }
    assert c in Universe(start, cells);
    assert Universe(start, cells) - closed == (Universe(start, cells) - s.closed) - {c};
    ParentsGrowClosed(s.nodes, s.closed, closed, start, cells, tileInfo);
  }

  /**
   * `aStar`: searches the adjusted map from `start` to `target`. A path runs
   * from start to target over 4-adjacent, enterable tiles; a search that
   * cannot read the map throws instead of answering.
   */
  function AStar(start: Tile, target: Tile, worldMap: seq<seq<int>>, tileInfo: map<int, bool>): (r: PathResult)
    ensures !RowsFit(worldMap) ==> r.Threw?
    ensures r.Found? ==> IsWalk(r.path, start, target, AdjustWorldMapToIsometric(worldMap).value, tileInfo)
    ensures |worldMap| > 0 && RowsFit(worldMap) ==> !r.Threw?
    ensures (RowsFit(worldMap) && start != target
             && !Enterable(AdjustWorldMapToIsometric(worldMap).value, tileInfo, target)) ==> !r.Found?
  {
    match AdjustWorldMapToIsometric(worldMap)
    case Failure(_) => Threw
    case Success(cells) =>
      var s0 := Search([StartNode(start)], [0], {});
      SearchLoop(s0, target, start, cells, tileInfo)
  }

  /** A search whose start is its target answers with the one-tile path. */
  lemma StartIsTarget(start: Tile, worldMap: seq<seq<int>>, tileInfo: map<int, bool>)
    requires RowsFit(worldMap)
    ensures AStar(start, start, worldMap, tileInfo) == Found([start])
  {
    var cells := AdjustWorldMapToIsometric(worldMap).value;
    var s0 := Search([StartNode(start)], [0], {});
    assert SortBy(s0.open, OpenKey(s0.nodes)) == [0];
  }

  /** Every walk is at least as long as the Manhattan distance it covers. */
  lemma {:induction false} WalkAtLeastManhattan(path: seq<Tile>, start: Tile, target: Tile,
                                               cells: Cells, tileInfo: map<int, bool>)
    requires IsWalk(path, start, target, cells, tileInfo)
    ensures |path| >= Manhattan(start, target) + 1
    decreases |path|
  {
    if |path| > 1 {
      var prefix := path[..|path| - 1];
      var previous := path[|path| - 2];
      assert IsWalk(prefix, start, previous, cells, tileInfo);
      WalkAtLeastManhattan(prefix, start, previous, cells, tileInfo);
      HeuristicConsistent(target, previous, start);
    }
  }

  /** A path found by the search takes at least the Manhattan distance in steps. */
  lemma FoundPathAtLeastManhattan(start: Tile, target: Tile, worldMap: seq<seq<int>>, tileInfo: map<int, bool>)
    requires AStar(start, target, worldMap, tileInfo).Found?
    ensures |AStar(start, target, worldMap, tileInfo).path| - 1 >= Manhattan(start, target)
  {
    WalkAtLeastManhattan(AStar(start, target, worldMap, tileInfo).path, start, target,
                         AdjustWorldMapToIsometric(worldMap).value, tileInfo);
  }
}

=== FILE: registry.dfy ===
/**
 * The world's registry: the player and monster lists, the chat log, the
 * action queue, and the lookups and edits on them that `World` offers.
 */
module Registry {
  import opened Wrappers
  import opened Pathfinding
  import opened Actors

  /** What a client can ask for; any other action name is kept and ignored. */
  datatype Action = Move(targetX: int, targetY: int) | AttackMove(entityID: string) | Unknown(name: string)

  /** An entry of `currentTickActionQueue`. */
  datatype Queued = Queued(playerID: string, action: Action)

  /**
   * A chat message. The source compares messages by object identity; the
   * `serial` stands for that identity (every message posted gets a new one).
   */
  datatype ChatMessage = ChatMessage(serial: nat, playerID: string, timeSent: int, message: string)

  datatype World = World(
    players: seq<Actor>,
    entities: seq<Actor>,
    chatMessages: seq<ChatMessage>,
    queue: seq<Queued>,
    tickUpdateTime: int)

  /** Where `getEntityByID` found an actor: the monster list or the player list. */
  datatype Ref = EntityRef(i: nat) | PlayerRef(i: nat)

  predicate ValidRef(w: World, ref: Ref) {
    match ref
    case EntityRef(i) => i < |w.entities|
    case PlayerRef(i) => i < |w.players|
  }

  function Get(w: World, ref: Ref): Actor
    requires ValidRef(w, ref)
  {
    match ref
    case EntityRef(i) => w.entities[i]
    case PlayerRef(i) => w.players[i]
  }

  /** Writes one actor back; nothing else in the world changes. */
  function Set(w: World, ref: Ref, a: Actor): (r: World)
    requires ValidRef(w, ref)
    ensures ValidRef(r, ref) && Get(r, ref) == a
    ensures |r.players| == |w.players| && |r.entities| == |w.entities|
    ensures forall other :: ValidRef(w, other) && other != ref ==> Get(r, other) == Get(w, other)
    ensures r.chatMessages == w.chatMessages && r.queue == w.queue && r.tickUpdateTime == w.tickUpdateTime
  {
    match ref
    case EntityRef(i) => w.(entities := w.entities[i := a])
    case PlayerRef(i) => w.(players := w.players[i := a])
  }

  function Ids(s: seq<Actor>): (ids: seq<string>)
    ensures |ids| == |s| && forall k :: 0 <= k < |s| ==> ids[k] == s[k].entityID
  {
    if |s| == 0 then [] else Ids(s[..|s| - 1]) + [s[|s| - 1].entityID]
  }

  /** Writing back an actor with the same id keeps both id lists. */
  lemma SetKeepsIds(w: World, ref: Ref, a: Actor)
    requires ValidRef(w, ref) && a.entityID == Get(w, ref).entityID
    ensures Ids(Set(w, ref, a).players) == Ids(w.players)
    ensures Ids(Set(w, ref, a).entities) == Ids(w.entities)
  {
    var r := Set(w, ref, a);
    match ref
    case EntityRef(i) =>
      assert forall k :: 0 <= k < |w.entities| ==> Ids(r.entities)[k] == Ids(w.entities)[k];
    case PlayerRef(i) =>
      assert forall k :: 0 <= k < |w.players| ==> Ids(r.players)[k] == Ids(w.players)[k];
  }

  // ---------------------------------------------------------------------------
  // Lookup

  /** The first position of `id` in a list of ids. */
  function FindId(ids: seq<string>, id: string): (r: Option<nat>)
    ensures r.Some? ==> r.value < |ids| && ids[r.value] == id
                        && forall j :: 0 <= j < r.value ==> ids[j] != id
    ensures r.None? ==> forall j :: 0 <= j < |ids| ==> ids[j] != id
  {
    if |ids| == 0 then None
    else if ids[0] == id then Some(0)
    else
      match FindId(ids[1..], id)
      case None => None
      case Some(i) => Some(i + 1)
  }

  /** `Array.prototype.find` by id: the first index whose actor has the id. */
  function FindIndex(s: seq<Actor>, id: string): (r: Option<nat>)
    ensures r.Some? ==> r.value < |s| && s[r.value].entityID == id
                        && forall j :: 0 <= j < r.value ==> s[j].entityID != id
    ensures r.None? ==> forall j :: 0 <= j < |s| ==> s[j].entityID != id
  {
    FindId(Ids(s), id)
  }

  /** `getEntityByID`: the monsters are searched first, then the players. */
  function Lookup(w: World, id: string): (r: Option<Ref>)
    ensures r.Some? ==> ValidRef(w, r.value) && Get(w, r.value).entityID == id
    ensures r.None? <==> (forall j :: 0 <= j < |w.entities| ==> w.entities[j].entityID != id)
                         && (forall j :: 0 <= j < |w.players| ==> w.players[j].entityID != id)
    ensures (exists j :: 0 <= j < |w.entities| && w.entities[j].entityID == id) ==> r.Some? && r.value.EntityRef?
  {
    match FindIndex(w.entities, id)
    case Some(i) => Some(EntityRef(i))
    case None =>
      match FindIndex(w.players, id)
      case Some(i) => Some(PlayerRef(i))
      case None => None
  }

  /** The answer is the first holder of the id: no earlier monster, and for a player no monster at all. */
  lemma LookupFindsFirst(w: World, id: string)
    requires Lookup(w, id).Some?
    ensures match Lookup(w, id)
            case Some(EntityRef(i)) => forall j :: 0 <= j < i ==> w.entities[j].entityID != id
            case Some(PlayerRef(i)) =>
              (forall j :: 0 <= j < |w.entities| ==> w.entities[j].entityID != id)
              && (forall j :: 0 <= j < i ==> w.players[j].entityID != id)
            case None => false
  {
  }

  /** Lookups depend only on the id lists, so writes that keep ids keep every lookup. */
  lemma LookupByIds(w: World, w': World, id: string)
    requires Ids(w.players) == Ids(w'.players) && Ids(w.entities) == Ids(w'.entities)
    ensures Lookup(w, id) == Lookup(w', id)
  {
  }

  // ---------------------------------------------------------------------------
  // Adding and removing

  /** `addPlayer`: appends; nothing else changes. */
  function AddPlayer(w: World, p: Actor): (r: World)
    ensures r.players == w.players + [p] && r.(players := w.players) == w
  {
    w.(players := w.players + [p])
  }

  /** `addEntity`: appends; nothing else changes. */
  function AddEntity(w: World, e: Actor): (r: World)
    ensures r.entities == w.entities + [e] && r.(entities := w.entities) == w
  {
    w.(entities := w.entities + [e])
  }

  /** `filter(a => a.entityID !== id)`. */
  function RemoveId(s: seq<Actor>, id: string): (r: seq<Actor>)
    ensures |r| <= |s|
    ensures forall k :: 0 <= k < |r| ==> r[k].entityID != id
    ensures forall a :: a in r <==> a in s && a.entityID != id
  {
    if |s| == 0 then []
    else if s[|s| - 1].entityID == id then RemoveId(s[..|s| - 1], id)
    else RemoveId(s[..|s| - 1], id) + [s[|s| - 1]]
  }

  /** Removal distributes over concatenation: the survivors keep their order. */
  lemma {:induction false} RemoveIdConcat(s: seq<Actor>, t: seq<Actor>, id: string)
    ensures RemoveId(s + t, id) == RemoveId(s, id) + RemoveId(t, id)
    decreases |t|
  {
    if |t| > 0 {
      var t' := t[..|t| - 1];
      assert (s + t)[..|s + t| - 1] == s + t';
      RemoveIdConcat(s, t', id);
    } else {
      assert s + t == s;
    }
  }

  /** Removing an id nobody has changes nothing, so removal is idempotent. */
  lemma {:induction false} RemoveAbsent(s: seq<Actor>, id: string)
    requires forall k :: 0 <= k < |s| ==> s[k].entityID != id
    ensures RemoveId(s, id) == s
    decreases |s|
  {
    if |s| > 0 {
      RemoveAbsent(s[..|s| - 1], id);
    }
  }

  lemma RemoveIdempotent(s: seq<Actor>, id: string)
    ensures RemoveId(RemoveId(s, id), id) == RemoveId(s, id)
  {
    RemoveAbsent(RemoveId(s, id), id);
  }

  /** `removePlayer`: every player with the id goes; the rest of the world is untouched. */
  function RemovePlayer(w: World, id: string): (r: World)
    ensures r.players == RemoveId(w.players, id) && r.(players := w.players) == w
  {
    w.(players := RemoveId(w.players, id))
  }

  /** `removeEntity`: every monster with the id goes; the rest of the world is untouched. */
  function RemoveEntity(w: World, id: string): (r: World)
    ensures r.entities == RemoveId(w.entities, id) && r.(entities := w.entities) == w
  {
    w.(entities := RemoveId(w.entities, id))
  }

  /** Once removed from both lists an id is no longer found. */
  lemma RemovedIsGone(w: World, id: string)
    ensures Lookup(RemoveEntity(RemovePlayer(w, id), id), id).None?
  {
  }

  /** A player added to a world that has no actor with its id is found at the end of the player list. */
  lemma AddedPlayerFound(w: World, p: Actor)
    requires Lookup(w, p.entityID).None?
    ensures Lookup(AddPlayer(w, p), p.entityID) == Some(PlayerRef(|w.players|))
  {
    var r := AddPlayer(w, p);
    assert r.players[|w.players|] == p;
  }

  // ---------------------------------------------------------------------------
  // The action queue and the chat log

  /** `enqueueAction`: appends to the queue; nothing else changes. */
  function Enqueue(w: World, q: Queued): (r: World)
    ensures r.queue == w.queue + [q] && r.(queue := w.queue) == w
  {
    w.(queue := w.queue + [q])
  }

  /** The queued entries of one player, in arrival order. */
  function ForPlayer(queue: seq<Queued>, id: string): (r: seq<Queued>)
    ensures |r| <= |queue|
    ensures forall q :: q in r <==> q in queue && q.playerID == id
  {
    if |queue| == 0 then []
    else
      var rest := ForPlayer(queue[..|queue| - 1], id);
      if queue[|queue| - 1].playerID == id then rest + [queue[|queue| - 1]] else rest
  }

  /** The queue with one player's entries taken out, others in arrival order. */
  function WithoutPlayer(queue: seq<Queued>, id: string): (r: seq<Queued>)
    ensures |r| <= |queue|
    ensures forall q :: q in r <==> q in queue && q.playerID != id
  {
    if |queue| == 0 then []
    else
      var rest := WithoutPlayer(queue[..|queue| - 1], id);
      if queue[|queue| - 1].playerID != id then rest + [queue[|queue| - 1]] else rest
  }

  /** Splitting out one player's entries loses nothing: the two parts' lengths add up. */
  lemma {:induction false} SplitQueue(queue: seq<Queued>, id: string)
    ensures |ForPlayer(queue, id)| + |WithoutPlayer(queue, id)| == |queue|
    decreases |queue|
  {
    if |queue| > 0 {
      SplitQueue(queue[..|queue| - 1], id);
    }
  }

  /** Taking out another player's entries does not change this player's entries. */
  lemma {:induction false} ForPlayerWithout(queue: seq<Queued>, id: string, other: string)
    requires id != other
    ensures ForPlayer(WithoutPlayer(queue, other), id) == ForPlayer(queue, id)
    decreases |queue|
  {
    if |queue| > 0 {
      var front := queue[..|queue| - 1];
      var last := queue[|queue| - 1];
      ForPlayerWithout(front, id, other);
      if last.playerID != other {
        var w := WithoutPlayer(front, other) + [last];
        assert w[..|w| - 1] == WithoutPlayer(front, other);
      }
    }
  }

  /** Taking out two players' entries in either order gives the same queue. */
  lemma {:induction false} WithoutCommutes(queue: seq<Queued>, a: string, b: string)
    ensures WithoutPlayer(WithoutPlayer(queue, a), b) == WithoutPlayer(WithoutPlayer(queue, b), a)
    decreases |queue|
  {
    if |queue| > 0 {
      var front := queue[..|queue| - 1];
      var last := queue[|queue| - 1];
      WithoutCommutes(front, a, b);
      WithoutSnoc(front, last, a);
      WithoutSnoc(front, last, b);
      WithoutSnoc(WithoutPlayer(front, a), last, b);
      WithoutSnoc(WithoutPlayer(front, b), last, a);
    }
  }

  lemma WithoutSnoc(front: seq<Queued>, last: Queued, id: string)
    ensures WithoutPlayer(front + [last], id)
            == if last.playerID != id then WithoutPlayer(front, id) + [last] else WithoutPlayer(front, id)
  {
    assert (front + [last])[..|front|] == front;
  }

  /** The chat socket handler: a message is appended to the log. */
  function PostChat(w: World, m: ChatMessage): (r: World)
    ensures r.chatMessages == w.chatMessages + [m] && r.(chatMessages := w.chatMessages) == w
  {
    w.(chatMessages := w.chatMessages + [m])
  }

  // ---------------------------------------------------------------------------
  // The map

  /** The world's 16 x 16 tile map (rows are x, columns y, before the transpose). */
  const GameMap: seq<seq<int>> := [
    [1, 1, 1, 1, 1, 1, 1, 1, 1, 1, 1, 1, 2, 1, 4, 4],
    [1, 1, 1, 1, 1, 1, 1, 1, 1, 1, 1, 1, 2, 1, 4, 4],
    [1, 1, 1, 1, 1, 1, 1, 1, 1, 1, 1, 1, 2, 1, 4, 4],
    [1, 1, 1, 1, 4, 4, 1, 1, 1, 1, 1, 1, 2, 1, 4, 4],
    [1, 1, 1, 1, 4, 4, 1, 1, 1, 1, 1, 1, 2, 1, 4, 4],
    [1, 1, 1, 1, 4, 4, 1, 1, 1, 1, 1, 1, 2, 1, 4, 4],
    [1, 1, 1, 1, 4, 4, 5, 1, 1, 1, 1, 1, 2, 1, 4, 4],
    [1, 1, 1, 1, 1, 1, 1, 1, 1, 1, 1, 1, 2, 1, 4, 4],
    [1, 1, 1, 1, 1, 1, 1, 1, 1, 1, 1, 1, 2, 1, 4, 4],
    [1, 1, 1, 1, 1, 1, 1, 1, 1, 1, 1, 1, 2, 1, 4, 4],
    [1, 1, 1, 1, 1, 1, 1, 1, 1, 1, 1, 1, 2, 1, 4, 4],
    [1, 1, 1, 1, 1, 1, 1, 1, 1, 1, 1, 1, 2, 1, 4, 4],
    [1, 1, 1, 1, 1, 1, 1, 1, 1, 1, 1, 1, 2, 1, 4, 4],
    [1, 1, 1, 1, 1, 1, 1, 1, 1, 1, 1, 1, 2, 1, 4, 4],
    [1, 1, 1, 1, 1, 1, 1, 1, 1, 1, 1, 1, 2, 1, 4, 4],
    [1, 1, 1, 1, 1, 1, 1, 1, 1, 1, 1, 1, 2, 1, 4, 4]
  ]

  /** Only grass (1) is walkable. */
  const GameTiles: map<int, bool> := map[1 := true, 2 := false, 3 := false, 4 := false, 5 := false]

  /** The game map is a non-empty square, so the pathfinder never throws on it. */
  lemma GameMapIsSquare()
    ensures |GameMap| == 16 && IsSquare(GameMap) && RowsFit(GameMap)
  {
    assert forall i :: 0 <= i < 16 ==> |GameMap[i]| == 16;
  }
}

=== FILE: runlength.dfy ===
/**
 * The run-length encoder: every maximal run of a character is written as
 * the character followed by the run's length in decimal. After the loop the
 * encoder appends the last character once more with the counter, which the
 * loop has always just reset to 1.
 */
module RunLength {

  // ---------------------------------------------------------------------------
  // Decimal numerals

  function DigitChar(d: nat): (c: char)
    requires d < 10
    ensures '0' <= c <= '9'
  {
    "0123456789"[d]
  }

  /** `String(n)` for a non-negative integer: decimal digits, no leading zero. */
  function NatToString(n: nat): (s: string)
    ensures |s| >= 1 && (|s| == 1 <==> n < 10)
    ensures forall i :: 0 <= i < |s| ==> '0' <= s[i] <= '9'
    ensures |s| > 1 ==> s[0] != '0'
  {
    if n < 10 then [DigitChar(n)]
    else NatToString(n / 10) + [DigitChar(n % 10)]
  }

  function DigitValue(c: char): nat
    requires '0' <= c <= '9'
  {
    (c as int - '0' as int) as nat
  }

  /** Reads a string of decimal digits back as a number. */
  function ParseDecimal(s: string): nat
    requires forall i :: 0 <= i < |s| ==> '0' <= s[i] <= '9'
  {
    if |s| == 0 then 0
    else 10 * ParseDecimal(s[..|s| - 1]) + DigitValue(s[|s| - 1])
  }

  lemma DigitRoundTrip(d: nat)
    requires d < 10
    ensures DigitValue(DigitChar(d)) == d
  {
  }

  /** The numeral reads back as the number it was written from. */
  lemma {:induction false} DecimalRoundTrip(n: nat)
    ensures ParseDecimal(NatToString(n)) == n
    decreases n
  {
    var s := NatToString(n);
    if n < 10 {
      DigitRoundTrip(n);
    } else {
      DecimalRoundTrip(n / 10);
      DigitRoundTrip(n % 10);
      assert s[..|s| - 1] == NatToString(n / 10);
    }
  }

  // ---------------------------------------------------------------------------
  // Maximal runs

  /** A run: a character and how many times it repeats. */
  datatype Run = Run(c: char, length: nat)

  function Repeat(c: char, n: nat): (s: string)
    ensures |s| == n && forall i :: 0 <= i < n ==> s[i] == c
  {
    if n == 0 then [] else Repeat(c, n - 1) + [c]
  }

  /** The maximal runs of s, left to right. */
  function Runs(s: string): (runs: seq<Run>)
    ensures |s| == 0 <==> |runs| == 0
    ensures |s| > 0 ==> runs[|runs| - 1].c == s[|s| - 1]
  {
    if |s| == 0 then [] else AddChar(Runs(s[..|s| - 1]), s[|s| - 1])
  }

  /** Reading one more character: it lengthens the last run when it repeats it, else opens a run. */
  function AddChar(r: seq<Run>, x: char): (r': seq<Run>)
    ensures |r'| > 0 && r'[|r'| - 1].c == x
  {
    if |r| > 0 && r[|r| - 1].c == x then r[..|r| - 1] + [Run(x, r[|r| - 1].length + 1)]
    else r + [Run(x, 1)]
  }

  function Expand(runs: seq<Run>): string {
    if |runs| == 0 then [] else Expand(runs[..|runs| - 1]) + Repeat(runs[|runs| - 1].c, runs[|runs| - 1].length)
  }

  lemma ExpandSnoc(runs: seq<Run>, r: Run)
    ensures Expand(runs + [r]) == Expand(runs) + Repeat(r.c, r.length)
  {
    assert (runs + [r])[..|runs|] == runs;
  }

  /** The runs expand back to the text they were taken from. */
  lemma {:induction false} RunsExpand(s: string)
    ensures Expand(Runs(s)) == s
    decreases |s|
  {
    if |s| > 0 {
      var prefix := s[..|s| - 1];
      var r := Runs(prefix);
      var last := s[|s| - 1];
      assert s == prefix + [last];
      RunsSnoc(prefix, last);
      RunsExpand(prefix);
      if |r| > 0 && r[|r| - 1].c == last {
        var front := r[..|r| - 1];
        var lastRun := r[|r| - 1];
        assert r == front + [lastRun];
        ExpandSnoc(front, lastRun);
        ExpandSnoc(front, Run(last, lastRun.length + 1));
        calc {
          Expand(Runs(s));
          Expand(front + [Run(last, lastRun.length + 1)]);
          Expand(front) + Repeat(last, lastRun.length + 1);
          { assert Repeat(last, lastRun.length + 1) == Repeat(last, lastRun.length) + [last]; }
          Expand(front) + Repeat(last, lastRun.length) + [last];
          Expand(r) + [last];
        }
      } else {
        ExpandSnoc(r, Run(last, 1));
        assert Repeat(last, 1) == [last];
        assert Expand(Runs(s)) == Expand(r) + [last];
      }
    }
  }

  /** One more character either lengthens the last run or opens a new one. */
  lemma RunsSnoc(t: string, x: char)
    ensures var r := Runs(t);
            Runs(t + [x]) == if |r| > 0 && r[|r| - 1].c == x then r[..|r| - 1] + [Run(x, r[|r| - 1].length + 1)]
                             else r + [Run(x, 1)]
  {
    var s := t + [x];
    assert s[..|s| - 1] == t;
    assert Runs(s) == AddChar(Runs(t), x);
  }

  /** Every run is non-empty and neighbouring runs hold different characters: the runs are maximal. */
  predicate Maximal(runs: seq<Run>) {
    && (forall k :: 0 <= k < |runs| ==> runs[k].length >= 1)
    && (forall k :: 0 <= k < |runs| - 1 ==> runs[k].c != runs[k + 1].c)
  }

  lemma {:induction false} RunsMaximal(s: string)
    ensures Maximal(Runs(s))
    decreases |s|
  {
    if |s| > 0 {
      var t := s[..|s| - 1];
      assert s == t + [s[|s| - 1]];
      RunsMaximal(t);
      RunsSnoc(t, s[|s| - 1]);
    }
  }

  /** A character different from the last one opens a new run. */
  lemma RunsOpen(prefix: string, c: char)
    requires |prefix| == 0 || prefix[|prefix| - 1] != c
    ensures Runs(prefix + [c]) == Runs(prefix) + [Run(c, 1)]
  {
    RunsSnoc(prefix, c);
  }

  /** A character equal to the last one lengthens the last run. */
  lemma RunsExtend(front: seq<Run>, t: string, c: char, m: nat)
    requires Runs(t) == front + [Run(c, m)]
    ensures Runs(t + [c]) == front + [Run(c, m + 1)]
  {
    RunsSnoc(t, c);
    assert (front + [Run(c, m)])[..|front|] == front;
  }

  /** Appending a whole run of a new character to a text adds exactly that run. */
  lemma {:induction false} RunsAppendRun(prefix: string, c: char, m: nat)
    requires m >= 1
    requires |prefix| == 0 || prefix[|prefix| - 1] != c
    ensures Runs(prefix + Repeat(c, m)) == Runs(prefix) + [Run(c, m)]
    decreases m
  {
    var t := prefix + Repeat(c, m - 1);
    assert prefix + Repeat(c, m) == t + [c];
    if m > 1 {
      RunsAppendRun(prefix, c, m - 1);
      RunsExtend(Runs(prefix), t, c, m - 1);
    } else {
      assert t == prefix;
      RunsOpen(prefix, c);
    }
  }

  lemma ExpandEndsWithLastRun(runs: seq<Run>)
    requires |runs| > 0 && runs[|runs| - 1].length >= 1
    ensures var e := Expand(runs); |e| > 0 && e[|e| - 1] == runs[|runs| - 1].c
  {
  }

  lemma MaximalFront(runs: seq<Run>)
    requires Maximal(runs) && |runs| > 0
    ensures Maximal(runs[..|runs| - 1])
  {
  }

  /** Maximal runs are unique: any maximal run list spelling s is Runs(s). */
  lemma {:induction false} RunsUnique(runs: seq<Run>, s: string)
    requires Maximal(runs) && Expand(runs) == s
    ensures Runs(s) == runs
    decreases |runs|
  {
    if |runs| > 0 {
      var front := runs[..|runs| - 1];
      var r := runs[|runs| - 1];
      MaximalFront(runs);
      RunsUnique(front, Expand(front));
      if |front| > 0 {
        ExpandEndsWithLastRun(front);
      }
      RunsAppendRun(Expand(front), r.c, r.length);
      assert front + [r] == runs;
    }
  }

  /** The text of a run list: each run as its character and then its length. */
  function RunsText(runs: seq<Run>): string {
    if |runs| == 0 then ""
    else RunsText(runs[..|runs| - 1]) + [runs[|runs| - 1].c] + NatToString(runs[|runs| - 1].length)
  }

  lemma RunsTextSnoc(runs: seq<Run>, r: Run)
    ensures RunsText(runs + [r]) == RunsText(runs) + [r.c] + NatToString(r.length)
  {
    assert (runs + [r])[..|runs|] == runs;
  }

  /** What the encoder produces: the runs' text plus the trailing copy of the last character with "1". */
  function Encoded(input: string): string {
    RunsText(Runs(input)) + (if |input| > 0 then [input[|input| - 1]] + "1" else "")
  }

  // ---------------------------------------------------------------------------
  // The encoder

  /**
   * `runLengthEncode`: scanning left to right, the counter grows while the
   * next character equals the current one; otherwise the character and the
   * counter are written and the counter drops back to 1. Reading one past
   * the end gives `undefined`, which equals no character, so the last run is
   * always written inside the loop, and the final write after the loop adds
   * the last character once more with the counter, which is then 1.
   */
  method RunLengthEncode(input: string) returns (encoded: string)
    ensures |input| == 0 ==> encoded == ""
    ensures encoded == RunsText(Runs(input)) + (if |input| > 0 then [input[|input| - 1]] + "1" else "")
  {
    var count;
    encoded, count := ScanRuns(input);
    if |input| > 0 {
      OneNumeral();
      encoded := encoded + [input[|input| - 1]] + NatToString(count);
    }
  }

  /** The loop of `runLengthEncode`: every maximal run is written, and the counter ends at 1. */
  method ScanRuns(input: string) returns (encoded: string, count: nat)
    ensures encoded == RunsText(Runs(input)) && count == 1
  {
    encoded := "";
    count := 1;
    var i := 0;
    ghost var start := 0;
    while i < |input|
      invariant Scanned(input, start, i, encoded)
      invariant count == i - start + 1
    {
      encoded, count, start := ScanStep(input, i, encoded, count, start);
      i := i + 1;
    }
    ScanDone(input, start, encoded);
  }

  /**
   * One iteration: the counter grows while the next character repeats the
   * current one; otherwise the run is written and the counter restarts.
   */
  method ScanStep(input: string, i: nat, encoded: string, count: nat, ghost start: nat)
    returns (encoded': string, count': nat, ghost start': nat)
    requires i < |input| && Scanned(input, start, i, encoded) && count == i - start + 1
    ensures Scanned(input, start', i + 1, encoded') && count' == i + 1 - start' + 1
    ensures i + 1 < |input| && input[i] == input[i + 1] ==> encoded' == encoded && count' == count + 1
    ensures !(i + 1 < |input| && input[i] == input[i + 1]) ==>
              encoded' == encoded + [input[i]] + NatToString(count) && count' == 1
  {
    if i + 1 < |input| && input[i] == input[i + 1] {
      ScanExtend(input, start, i, encoded);
      encoded', count', start' := encoded, count + 1, start;
    } else {
      ScanClose(input, start, i, encoded);
      encoded', count', start' := encoded + [input[i]] + NatToString(count), 1, i + 1;
    }
  }

  /**
   * The encoder's state after reading input[..i]: the runs that ended before
   * `start` are written, and input[start..i] is the run still being counted.
   */
  predicate Scanned(input: string, start: nat, i: nat, encoded: string) {
    && start <= i <= |input|
    && encoded == RunsText(Runs(input[..start]))
    && Uniform(input, start, i)
    && (start < i ==> i < |input| && input[i - 1] == input[i])
    && (0 < start < |input| ==> input[start - 1] != input[start])
  }

  /** input[start..i] repeats one character. */
  predicate Uniform(input: string, start: nat, i: nat)
    requires start <= i <= |input|
  {
    forall k :: start <= k < i ==> input[k] == input[start]
  }

  lemma ScanExtend(input: string, start: nat, i: nat, encoded: string)
    requires Scanned(input, start, i, encoded)
    requires i + 1 < |input| && input[i] == input[i + 1]
    ensures Scanned(input, start, i + 1, encoded)
  {
  }

  lemma ScanClose(input: string, start: nat, i: nat, encoded: string)
    requires Scanned(input, start, i, encoded) && i < |input|
    requires !(i + 1 < |input| && input[i] == input[i + 1])
    ensures Scanned(input, i + 1, i + 1, encoded + [input[i]] + NatToString(i - start + 1))
  {
    CloseRun(input, start, i);
  }

  lemma ScanDone(input: string, start: nat, encoded: string)
    requires Scanned(input, start, |input|, encoded)
    ensures start == |input| && encoded == RunsText(Runs(input))
  {
    assert input[..|input|] == input;
  }

  lemma OneNumeral()
    ensures NatToString(1) == "1"
  {
  }

  /** Closing the run input[start..i] extends the runs of input[..start] by that run. */
  lemma CloseRun(input: string, start: nat, i: nat)
    requires start <= i < |input|
    requires Uniform(input, start, i)
    requires start < i ==> input[i - 1] == input[i]
    requires 0 < start ==> input[start - 1] != input[start]
    ensures RunsText(Runs(input[..i + 1]))
            == RunsText(Runs(input[..start])) + [input[i]] + NatToString(i - start + 1)
  {
    var c := input[start];
    var m := i - start + 1;
    assert input[i] == c;
    assert input[..i + 1] == input[..start] + Repeat(c, m);
    RunsAppendRun(input[..start], c, m);
    RunsTextSnoc(Runs(input[..start]), Run(c, m));
  }

  /** With no two equal neighbours every run has length 1, and the output has 2n + 2 characters. */
  lemma {:induction false} NoRepeatsLength(input: string)
    requires |input| > 0
    requires forall k :: 0 <= k < |input| - 1 ==> input[k] != input[k + 1]
    ensures |Encoded(input)| == 2 * |input| + 2
  {
    SingletonRunsText(input);
  }

  lemma {:induction false} SingletonRunsText(input: string)
    requires forall k :: 0 <= k < |input| - 1 ==> input[k] != input[k + 1]
    ensures |RunsText(Runs(input))| == 2 * |input|
    decreases |input|
  {
    if |input| > 0 {
      var prefix := input[..|input| - 1];
      var last := input[|input| - 1];
      assert input == prefix + Repeat(last, 1);
      RunsAppendRun(prefix, last, 1);
      RunsTextSnoc(Runs(prefix), Run(last, 1));
      SingletonRunsText(prefix);
    }
  }

  /** "aaab" has runs a×3, b×1 and encodes to "a3b1b1". */
  lemma Example()
    ensures Runs("aaab") == [Run('a', 3), Run('b', 1)]
    ensures Encoded("aaab") == "a3b1b1"
  {
    assert "aaab" == "" + Repeat('a', 3) + Repeat('b', 1);
    RunsAppendRun("", 'a', 3);
    assert "" + Repeat('a', 3) == "aaa";
    RunsAppendRun("aaa", 'b', 1);
    RunsTextSnoc([Run('a', 3)], Run('b', 1));
    RunsTextSnoc([], Run('a', 3));
  }
}

=== FILE: sorting.dfy ===
/**
 * The stable ascending sort the source gets from `Array.prototype.sort` with
 * a comparator `(a, b) => key(a) - key(b)`: elements are ordered by key, and
 * elements with equal keys keep their relative order.
 */
module Sorting {

  predicate SortedBy<T>(s: seq<T>, key: T -> int) {
    forall i, j :: 0 <= i < j < |s| ==> key(s[i]) <= key(s[j])
  }

  /**
   * Inserts `x` in front of the first element whose key is at least key(x).
   * Used on an element that precedes all of `s` in the input, this keeps
   * equal keys in input order.
   */
  function InsertBy<T>(x: T, s: seq<T>, key: T -> int): (r: seq<T>)
    requires SortedBy(s, key)
    ensures SortedBy(r, key)
    ensures multiset(r) == multiset(s) + multiset{x}
    ensures |r| == |s| + 1
    ensures r[0] == x || (|s| > 0 && r[0] == s[0])
  {
    if |s| == 0 || key(x) <= key(s[0]) then
      [x] + s
    else
      var rest := InsertBy(x, s[1..], key);
      assert s == [s[0]] + s[1..];
      assert key(s[0]) <= key(rest[0]);
      assert forall k :: 0 <= k < |rest| ==> key(rest[0]) <= key(rest[k]);
      [s[0]] + rest
  }

  /** Stable insertion sort by key. */
  function SortBy<T>(s: seq<T>, key: T -> int): (r: seq<T>)
    ensures SortedBy(r, key)
    ensures multiset(r) == multiset(s)
    ensures |r| == |s|
  {
    if |s| == 0 then []
    else
      assert s == [s[0]] + s[1..];
      InsertBy(s[0], SortBy(s[1..], key), key)
  }

  /** The elements of `s` whose key is `k`, in their order in `s`. */
  function KeyFilter<T>(s: seq<T>, key: T -> int, k: int): seq<T> {
    if |s| == 0 then []
    else (if key(s[0]) == k then [s[0]] else []) + KeyFilter(s[1..], key, k)
  }

  /** Inserting `x` puts it in front of every element of `s` with the same key. */
  lemma {:induction false} InsertFilter<T>(x: T, s: seq<T>, key: T -> int, k: int)
    requires SortedBy(s, key)
    ensures KeyFilter(InsertBy(x, s, key), key, k) == (if key(x) == k then [x] else []) + KeyFilter(s, key, k)
  {
    if |s| == 0 || key(x) <= key(s[0]) {
      assert ([x] + s)[1..] == s;
    } else {
      assert SortedBy(s[1..], key) by {
        forall i, j | 0 <= i < j < |s| - 1 ensures key(s[1..][i]) <= key(s[1..][j]) {
          assert s[1..][i] == s[i + 1] && s[1..][j] == s[j + 1];
        }
      }
      var rest := InsertBy(x, s[1..], key);
      var mine := if key(x) == k then [x] else [];
      var first := if key(s[0]) == k then [s[0]] else [];
      assert InsertBy(x, s, key) == [s[0]] + rest;
      assert ([s[0]] + rest)[1..] == rest;
      InsertFilter(x, s[1..], key, k);
      // key(s[0]) < key(x), so at most one of the two is non-empty and they commute.
      assert mine == [] || first == [];
      calc {
        KeyFilter(InsertBy(x, s, key), key, k);
        first + KeyFilter(rest, key, k);
        first + (mine + KeyFilter(s[1..], key, k));
        mine + (first + KeyFilter(s[1..], key, k));
        mine + KeyFilter(s, key, k);
      }
    }
  }

  /**
   * The sort is stable: for every key, the elements with that key appear in
   * the output in the order they had in the input.
   */
  lemma {:induction false} SortStable<T>(s: seq<T>, key: T -> int, k: int)
    ensures KeyFilter(SortBy(s, key), key, k) == KeyFilter(s, key, k)
  {
    if |s| > 0 {
      SortStable(s[1..], key, k);
      InsertFilter(s[0], SortBy(s[1..], key), key, k);
    }
  }

  /** The head of a sorted permutation has the smallest key of the input. */
  lemma SortedHeadIsMinimal<T>(s: seq<T>, key: T -> int, i: int)
    requires 0 <= i < |s|
    ensures |SortBy(s, key)| > 0
    ensures key(SortBy(s, key)[0]) <= key(s[i])
  {
    var r := SortBy(s, key);
    assert s[i] in multiset(s);
    assert s[i] in multiset(r);
    var j :| 0 <= j < |r| && r[j] == s[i];
  }
}

=== FILE: sync.dfy ===
/**
 * The state sent to clients after a tick: the snapshot the world exposes
 * (`World.getWorldData`), the difference from the previous snapshot
 * (`getChangedData`), and the payload `broadcastGameState` sends. The
 * payload's Huffman coding is in the Huffman module; socket delivery is not
 * modelled.
 *
 * Chat messages are compared by identity in the source; here a message's
 * identity is its serial, so two posts of the same text are different
 * messages.
 */
module Sync {
  import opened Wrappers
  import opened Pathfinding
  import opened Combat
  import opened Actors
  import opened Registry

  /** The fields of a player a client sees. */
  datatype PlayerView = PlayerView(
    entityID: string, pos: Tile, name: string, direction: string,
    currentHitpoints: int, hitpointsExperience: int, attackStyle: string,
    isHpBarShown: bool, examineText: string, isDead: bool,
    lastDamageDealt: Option<int>, spriteNum: int,
    nextTileDirection: Option<Direction>, hpBarCounter: int, combatLevel: int)

  /** The fields of a monster a client sees: its type instead of an attack style. */
  datatype EntityView = EntityView(
    entityID: string, pos: Tile, name: string, kind: int,
    currentHitpoints: int, hitpointsExperience: int, direction: string,
    isHpBarShown: bool, examineText: string, isDead: bool,
    lastDamageDealt: Option<int>, spriteNum: int,
    nextTileDirection: Option<Direction>, hpBarCounter: int, combatLevel: int)

  datatype Snapshot = Snapshot(
    tickUpdateTime: int,
    players: seq<PlayerView>,
    entities: seq<EntityView>,
    chatMessages: seq<ChatMessage>,
    worldMap: seq<seq<int>>)

  /** How many of the newest chat messages a snapshot carries. */
  const ChatWindowSize := 7

  function PlayerViewOf(p: Actor): (v: PlayerView)
    ensures v.entityID == p.entityID && v.pos == p.pos && v.isDead == p.isDead
    ensures v.combatLevel == CombatLevel(p.skills) && v.hitpointsExperience == p.skills.hitpoints
  {
    PlayerView(p.entityID, p.pos, p.name, p.direction, p.currentHitpoints, p.skills.hitpoints,
               p.attackStyle, p.isHpBarShown, p.examineText, p.isDead, p.lastDamageDealt,
               p.spriteNum, p.nextTileDirection, p.hpBarCounter, CombatLevel(p.skills))
  }

  function EntityViewOf(e: Actor): (v: EntityView)
    ensures v.entityID == e.entityID && v.pos == e.pos && v.kind == e.kind && v.isDead == e.isDead
    ensures v.combatLevel == CombatLevel(e.skills) && v.hitpointsExperience == e.skills.hitpoints
  {
    EntityView(e.entityID, e.pos, e.name, e.kind, e.currentHitpoints, e.skills.hitpoints,
               e.direction, e.isHpBarShown, e.examineText, e.isDead, e.lastDamageDealt,
               e.spriteNum, e.nextTileDirection, e.hpBarCounter, CombatLevel(e.skills))
  }

  function PlayerViews(s: seq<Actor>): seq<PlayerView> {
    seq(|s|, k requires 0 <= k < |s| => PlayerViewOf(s[k]))
  }

  function EntityViews(s: seq<Actor>): seq<EntityView> {
    seq(|s|, k requires 0 <= k < |s| => EntityViewOf(s[k]))
  }

  /** The newest messages of the log, at most seven, oldest first. */
  function ChatWindow(log: seq<ChatMessage>): (r: seq<ChatMessage>)
    ensures |r| == if |log| < ChatWindowSize then |log| else ChatWindowSize
    ensures r == log[|log| - |r|..]
  {
    log[Max(|log| - ChatWindowSize, 0)..]
  }

  /**
   * `getWorldData`: the views of both registries in order, the chat window
   * and an empty map.
   */
  function WorldData(w: World): (r: Snapshot)
    ensures r.tickUpdateTime == w.tickUpdateTime && r.worldMap == []
    ensures |r.players| == |w.players| && |r.entities| == |w.entities|
    ensures forall k :: 0 <= k < |w.players| ==> r.players[k].entityID == w.players[k].entityID
    ensures forall k :: 0 <= k < |w.entities| ==> r.entities[k].entityID == w.entities[k].entityID
    ensures r.chatMessages == ChatWindow(w.chatMessages)
  {
    Snapshot(w.tickUpdateTime, PlayerViews(w.players), EntityViews(w.entities), ChatWindow(w.chatMessages), [])
  }

  // ---------------------------------------------------------------------------
  // The difference between two snapshots

  /** Position `i` of `cur` is new or differs from the same position of `prev`. */
  predicate Differs<T(==)>(prev: seq<T>, cur: seq<T>, i: nat)
    requires i < |cur|
  {
    i >= |prev| || prev[i] != cur[i]
  }

  /**
   * The views of `cur` that differ from the view at the same position of
   * `prev` (the source walks the array's indices and deep-compares), in order.
   */
  function ChangedViews<T(==)>(prev: seq<T>, cur: seq<T>): (r: seq<T>)
    ensures |r| <= |cur|
    ensures forall v :: v in r ==> v in cur
  {
    if |cur| == 0 then []
    else
      var front := ChangedViews(prev, cur[..|cur| - 1]);
      if Differs(prev, cur, |cur| - 1) then front + [cur[|cur| - 1]] else front
  }

  /** Every view at a differing position is sent, and only views at differing positions are. */
  lemma {:induction false} ChangedViewsExact<T>(prev: seq<T>, cur: seq<T>, v: T)
    ensures v in ChangedViews(prev, cur) <==> exists i :: 0 <= i < |cur| && Differs(prev, cur, i) && cur[i] == v
    decreases |cur|
  {
    if |cur| > 0 {
      var front := cur[..|cur| - 1];
      ChangedViewsExact(prev, front, v);
      if exists i :: 0 <= i < |front| && Differs(prev, front, i) && front[i] == v {
        var i :| 0 <= i < |front| && Differs(prev, front, i) && front[i] == v;
        assert Differs(prev, cur, i) && cur[i] == v;
      }
      if exists i :: 0 <= i < |cur| && Differs(prev, cur, i) && cur[i] == v {
        var i :| 0 <= i < |cur| && Differs(prev, cur, i) && cur[i] == v;
        if i < |front| {
          assert Differs(prev, front, i) && front[i] == v;
        }
      }
    }
  }

  /** Against an identical array nothing is sent. */
  lemma {:induction false} ChangedViewsOfSame<T>(s: seq<T>, cur: seq<T>)
    requires |cur| <= |s| && cur == s[..|cur|]
    ensures ChangedViews(s, cur) == []
    decreases |cur|
  {
    if |cur| > 0 {
      assert cur[..|cur| - 1] == s[..|cur| - 1];
      ChangedViewsOfSame(s, cur[..|cur| - 1]);
    }
  }

  /** When the old array is a prefix of the new one, exactly the appended views are sent. */
  lemma {:induction false} ChangedViewsOfAppended<T>(prev: seq<T>, extra: seq<T>)
    ensures ChangedViews(prev, prev + extra) == extra
    decreases |extra|
  {
    if |extra| == 0 {
      assert prev + extra == prev[..|prev + extra|];
      ChangedViewsOfSame(prev, prev + extra);
    } else {
      var front := extra[..|extra| - 1];
      ChangedViewsOfAppended(prev, front);
      assert (prev + extra)[..|prev + extra| - 1] == prev + front;
    }
  }

  /** The messages of `cur` that are not in `prev`, in order. */
  function NewMessages(prev: seq<ChatMessage>, cur: seq<ChatMessage>): (r: seq<ChatMessage>)
    ensures |r| <= |cur|
    ensures forall m :: m in r <==> m in cur && m !in prev
  {
    if |cur| == 0 then []
    else
      var front := NewMessages(prev, cur[..|cur| - 1]);
      if cur[|cur| - 1] !in prev then front + [cur[|cur| - 1]] else front
  }

  lemma {:induction false} NewMessagesConcat(prev: seq<ChatMessage>, a: seq<ChatMessage>, b: seq<ChatMessage>)
    ensures NewMessages(prev, a + b) == NewMessages(prev, a) + NewMessages(prev, b)
    decreases |b|
  {
    if |b| == 0 {
      assert a + b == a;
    } else {
      var front := b[..|b| - 1];
      var last := b[|b| - 1];
      NewMessagesConcat(prev, a, front);
      assert (a + b)[..|a + b| - 1] == a + front && (a + b)[|a + b| - 1] == last;
      var na := NewMessages(prev, a);
      var nf := NewMessages(prev, front);
      assert NewMessages(prev, a + b) == na + nf + (if last !in prev then [last] else []);
      assert NewMessages(prev, b) == nf + (if last !in prev then [last] else []);
    }
  }

  lemma {:induction false} NewMessagesOfFresh(prev: seq<ChatMessage>, cur: seq<ChatMessage>)
    requires forall m :: m in cur ==> m !in prev
    ensures NewMessages(prev, cur) == cur
    decreases |cur|
  {
    if |cur| > 0 {
      NewMessagesOfFresh(prev, cur[..|cur| - 1]);
    }
  }

  lemma {:induction false} NewMessagesOfSeen(prev: seq<ChatMessage>, cur: seq<ChatMessage>)
    requires forall m :: m in cur ==> m in prev
    ensures NewMessages(prev, cur) == []
    decreases |cur|
  {
    if |cur| > 0 {
      NewMessagesOfSeen(prev, cur[..|cur| - 1]);
    }
  }

  /** The last `k` elements of `a + b`, when `b` is no longer than `k`, are a tail of `a` followed by `b`. */
  lemma TailOfAppend<T>(a: seq<T>, b: seq<T>, k: nat)
    requires |b| <= k <= |a| + |b|
    ensures (a + b)[|a| + |b| - k..] == a[|a| - (k - |b|)..] + b
  {
  }

  /** The last `k` elements of `a + b`, when `b` has at least `k`, are the last `k` of `b`. */
  lemma TailOfSecond<T>(a: seq<T>, b: seq<T>, k: nat)
    requires k <= |b|
    ensures (a + b)[|a| + |b| - k..] == b[|b| - k..]
  {
  }

  /** Every element of a shorter tail of `s` is an element of a longer one. */
  lemma TailWithinTail<T>(s: seq<T>, shortTail: seq<T>, longTail: seq<T>)
    requires |shortTail| <= |longTail| <= |s|
    requires shortTail == s[|s| - |shortTail|..] && longTail == s[|s| - |longTail|..]
    ensures forall x :: x in shortTail ==> x in longTail
  {
    assert shortTail == longTail[|longTail| - |shortTail|..];
  }

  /**
   * Messages posted between two broadcasts reach the clients as the newest
   * seven of them, in order: with at most seven new messages, all of them,
   * and with more, the older ones are never sent.
   */
  lemma ChatDeltaIsNewestPosted(log: seq<ChatMessage>, posted: seq<ChatMessage>)
    requires forall m :: m in posted ==> m !in log
    ensures NewMessages(ChatWindow(log), ChatWindow(log + posted)) == ChatWindow(posted)
  {
    var before := ChatWindow(log);
    var after := ChatWindow(log + posted);
    if |posted| >= ChatWindowSize {
      TailOfSecond(log, posted, ChatWindowSize);
      assert after == posted[|posted| - ChatWindowSize..];
      assert log == log[|log| - |log|..] && posted == posted[|posted| - |posted|..];
      TailWithinTail(log, before, log);
      TailWithinTail(posted, after, posted);
      NewMessagesOfFresh(before, after);
    } else {
      var keep := |after| - |posted|;
      TailOfAppend(log, posted, |after|);
      var seen := log[|log| - keep..];
      assert after == seen + posted;
      TailWithinTail(log, seen, before);
      NewMessagesConcat(before, seen, posted);
      NewMessagesOfSeen(before, seen);
      NewMessagesOfFresh(before, posted);
    }
  }

  /**
   * What a broadcast sends: the whole snapshot when there was none before,
   * otherwise the changed views, the new messages, and the map only if it
   * changed.
   */
  datatype Changes =
    | Full(snapshot: Snapshot)
    | Delta(players: seq<PlayerView>, entities: seq<EntityView>,
            chatMessages: seq<ChatMessage>, worldMap: Option<seq<seq<int>>>)

  const NoChanges := Delta([], [], [], None)

  /** `getChangedData`. */
  function ChangedData(prev: Option<Snapshot>, cur: Snapshot): (r: Changes)
    ensures prev.None? <==> r.Full?
    ensures r.Full? ==> r.snapshot == cur
    ensures r.Delta? ==> (r.worldMap.Some? <==> prev.value.worldMap != cur.worldMap)
    ensures r.Delta? && r.worldMap.Some? ==> r.worldMap.value == cur.worldMap
    ensures r.Delta? ==> forall m :: m in r.chatMessages <==> m in cur.chatMessages && m !in prev.value.chatMessages
  {
    match prev
    case None => Full(cur)
    case Some(p) =>
      Delta(ChangedViews(p.players, cur.players), ChangedViews(p.entities, cur.entities),
            NewMessages(p.chatMessages, cur.chatMessages),
            if p.worldMap != cur.worldMap then Some(cur.worldMap) else None)
  }

  /** Two identical snapshots give an empty delta. */
  lemma ChangedDataOfSame(s: Snapshot)
    ensures ChangedData(Some(s), s) == NoChanges
  {
    assert s.players == s.players[..|s.players|];
    assert s.entities == s.entities[..|s.entities|];
    ChangedViewsOfSame(s.players, s.players);
    ChangedViewsOfSame(s.entities, s.entities);
    NewMessagesOfSeen(s.chatMessages, s.chatMessages);
  }

  /** The payload of one broadcast: the changes, the tick time and the ids of the players online. */
  datatype Payload = Payload(changes: Changes, tickUpdateTime: int, onlinePlayers: seq<string>)

  /** A broadcast's payload and the snapshot kept for the next one. */
  datatype Broadcast = Broadcast(payload: Payload, kept: Snapshot)

  /**
   * `broadcastGameState`. The early return compares a fresh object by
   * reference and never fires, so every tick sends a payload.
   */
  function BroadcastState(prev: Option<Snapshot>, w: World): (r: Broadcast)
    ensures r.kept == WorldData(w)
    ensures r.payload.tickUpdateTime == w.tickUpdateTime
    ensures r.payload.onlinePlayers == Ids(w.players)
    ensures prev.None? <==> r.payload.changes.Full?
    ensures prev.None? ==> r.payload.changes.snapshot == WorldData(w)
  {
    var cur := WorldData(w);
    Broadcast(Payload(ChangedData(prev, cur), w.tickUpdateTime, Ids(w.players)), cur)
  }

  /** Broadcasting a world that did not change since the last broadcast sends an empty delta. */
  lemma RebroadcastIsEmpty(prev: Option<Snapshot>, w: World)
    ensures BroadcastState(Some(BroadcastState(prev, w).kept), w).payload.changes == NoChanges
  {
    ChangedDataOfSame(WorldData(w));
  }

  lemma PlayerViewsAppend(a: seq<Actor>, b: seq<Actor>)
    ensures PlayerViews(a + b) == PlayerViews(a) + PlayerViews(b)
  {
    var l := PlayerViews(a + b);
    var r := PlayerViews(a) + PlayerViews(b);
    assert |l| == |r|;
    forall k | 0 <= k < |l| ensures l[k] == r[k] {
      if k < |a| {
        assert (a + b)[k] == a[k];
      } else {
        assert (a + b)[k] == b[k - |a|];
      }
    }
  }

  /**
   * When players join and nobody else changes, the delta carries exactly the
   * newcomers' views, and the chat delta is the newest seven of the posted
   * messages.
   */
  lemma JoinAndChatDelta(w: World, joined: seq<Actor>, posted: seq<ChatMessage>)
    requires forall m :: m in posted ==> m !in w.chatMessages
    ensures var w' := w.(players := w.players + joined, chatMessages := w.chatMessages + posted);
            var d := ChangedData(Some(WorldData(w)), WorldData(w'));
            d.Delta? && d.players == PlayerViews(joined) && d.chatMessages == ChatWindow(posted)
            && d.worldMap.None?
  {
    var w' := w.(players := w.players + joined, chatMessages := w.chatMessages + posted);
    PlayerViewsAppend(w.players, joined);
    ChangedViewsOfAppended(PlayerViews(w.players), PlayerViews(joined));
    ChatDeltaIsNewestPosted(w.chatMessages, posted);
    var prev := WorldData(w);
    var cur := WorldData(w');
    assert cur.players == prev.players + PlayerViews(joined);
    assert cur.chatMessages == ChatWindow(w.chatMessages + posted);
    assert cur.worldMap == prev.worldMap;
  }
}

=== FILE: tick.dfy ===
/**
 * `World.gameTick`: every player in registry order takes its own queued
 * actions and updates, and those actions leave the queue; then every
 * monster updates; then the tick time is stamped. An update that throws
 * ends the tick where it is: the rest of the actors, the time stamp and the
 * broadcast are skipped.
 *
 * The random draws of one tick (the hit roll and the idle wander of each
 * actor) and the clock reading are parameters.
 */
module Tick {
  import opened Wrappers
  import opened Actors
  import opened Registry
  import opened Behaviour

  /** The actions carried by a batch of queued entries. */
  function ActionsOf(batch: seq<Queued>): (r: seq<Action>)
    ensures |r| == |batch| && forall k :: 0 <= k < |batch| ==> r[k] == batch[k].action
  {
    if |batch| == 0 then [] else ActionsOf(batch[..|batch| - 1]) + [batch[|batch| - 1].action]
  }

  /** The queue once the entries of every listed player are taken out, one player after another. */
  function WithoutAll(queue: seq<Queued>, ids: seq<string>): (r: seq<Queued>)
    ensures forall q :: q in r <==> q in queue && q.playerID !in ids
  {
    if |ids| == 0 then queue
    else WithoutPlayer(WithoutAll(queue, ids[..|ids| - 1]), ids[|ids| - 1])
  }

  /** Taking out one more player of a list is one more `WithoutPlayer`. */
  lemma WithoutAllPrefix(queue: seq<Queued>, ids: seq<string>, n: nat)
    requires 0 < n <= |ids|
    ensures WithoutAll(queue, ids[..n]) == WithoutPlayer(WithoutAll(queue, ids[..n - 1]), ids[n - 1])
  {
    assert ids[..n][..n - 1] == ids[..n - 1];
  }

  /**
   * The batches handed to the listed players in turn: each gets its entries
   * of the queue left by the players before it.
   */
  function Batches(queue: seq<Queued>, ids: seq<string>): (r: seq<seq<Queued>>)
    ensures |r| == |ids|
  {
    if |ids| == 0 then []
    else
      var front := ids[..|ids| - 1];
      Batches(queue, front) + [ForPlayer(WithoutAll(queue, front), ids[|ids| - 1])]
  }

  /** With distinct ids, every player's batch is exactly its own entries of the original queue. */
  lemma {:induction false} BatchesAreOwnEntries(queue: seq<Queued>, ids: seq<string>)
    requires Distinct(ids)
    ensures forall k :: 0 <= k < |ids| ==> Batches(queue, ids)[k] == ForPlayer(queue, ids[k])
    decreases |ids|
  {
    if |ids| > 0 {
      var front := ids[..|ids| - 1];
      var last := ids[|ids| - 1];
      assert Distinct(front);
      BatchesAreOwnEntries(queue, front);
      assert last !in front by {
        forall j | 0 <= j < |front| ensures front[j] != last {
          assert front[j] == ids[j];
        }
      }
      ForPlayerWithoutAll(queue, front, last);
      var b := Batches(queue, ids);
      assert b == Batches(queue, front) + [ForPlayer(WithoutAll(queue, front), last)];
      forall k | 0 <= k < |ids| ensures b[k] == ForPlayer(queue, ids[k]) {
        if k < |front| {
          assert b[k] == Batches(queue, front)[k] && front[k] == ids[k];
        }
      }
    }
  }

  lemma BatchesPrefix(queue: seq<Queued>, ids: seq<string>, n: nat)
    requires 0 < n <= |ids|
    ensures Batches(queue, ids[..n])
            == Batches(queue, ids[..n - 1]) + [ForPlayer(WithoutAll(queue, ids[..n - 1]), ids[n - 1])]
  {
    assert ids[..n][..n - 1] == ids[..n - 1];
  }

  predicate Distinct(ids: seq<string>) {
    forall j, k :: 0 <= j < k < |ids| ==> ids[j] != ids[k]
  }

  /** Taking out other players' entries leaves this player's entries as they were. */
  lemma {:induction false} ForPlayerWithoutAll(queue: seq<Queued>, ids: seq<string>, id: string)
    requires id !in ids
    ensures ForPlayer(WithoutAll(queue, ids), id) == ForPlayer(queue, id)
    decreases |ids|
  {
    if |ids| > 0 {
      var front := ids[..|ids| - 1];
      assert forall x :: x in front ==> x in ids;
      ForPlayerWithoutAll(queue, front, id);
      ForPlayerWithout(WithoutAll(queue, front), id, ids[|ids| - 1]);
    }
  }

  /** The random draws of one tick, one per player slot and one per monster slot. */
  datatype Draws = Draws(players: seq<Dice>, entities: seq<Dice>)

  /**
   * A tick in progress: the world, whether an update threw, and the batch of
   * queued entries each updated player was handed.
   */
  datatype TickState = TickState(world: World, threw: bool, delivered: seq<seq<Queued>>)

  /**
   * The first `n` players' turns. Player `k` is handed the entries of the
   * queue as it stands at its turn, then its entries are taken out. The ids
   * are those of the registry before the tick, since updates keep them.
   */
  function PlayerTurns(w: World, n: nat, terrain: Terrain, dice: seq<Dice>): (r: TickState)
    requires n <= |w.players| && n <= |dice|
    ensures SameIds(w, r.world) && r.world.chatMessages == w.chatMessages
    ensures |r.delivered| <= n
    ensures !r.threw ==> |r.delivered| == n && r.world.queue == WithoutAll(w.queue, Ids(w.players)[..n])
    ensures !r.threw ==> r.delivered == Batches(w.queue, Ids(w.players)[..n])
    decreases n
  {
    if n == 0 then TickState(w, false, [])
    else
      var s := PlayerTurns(w, n - 1, terrain, dice);
      if s.threw then s
      else
        var ids := Ids(w.players);
        assert Ids(s.world.players) == ids;
        var id := s.world.players[n - 1].entityID;
        var batch := ForPlayer(s.world.queue, id);
        var st := PlayerUpdate(s.world, n - 1, ActionsOf(batch), terrain, dice[n - 1]);
        if st.threw then TickState(st.world, true, s.delivered)
        else
          WithoutAllPrefix(w.queue, ids, n);
          BatchesPrefix(w.queue, ids, n);
          TickState(st.world.(queue := WithoutPlayer(st.world.queue, id)), false, s.delivered + [batch])
  }

  /** The first `n` monsters' updates, in registry order. */
  function MonsterTurns(w: World, n: nat, terrain: Terrain, dice: seq<Dice>): (r: Step)
    requires n <= |w.entities| && n <= |dice|
    ensures SameIds(w, r.world) && r.world.chatMessages == w.chatMessages && r.world.queue == w.queue
    decreases n
  {
    if n == 0 then Step(w, false)
    else
      var s := MonsterTurns(w, n - 1, terrain, dice);
      if s.threw then s
      else
        assert Ids(s.world.entities) == Ids(w.entities);
        MonsterUpdate(s.world, n - 1, terrain, dice[n - 1])
  }

  /** `gameTick`: players first, then monsters, then the time stamp. */
  function GameTick(w: World, terrain: Terrain, draws: Draws, now: int): (r: TickState)
    requires |draws.players| == |w.players| && |draws.entities| == |w.entities|
    ensures SameIds(w, r.world) && r.world.chatMessages == w.chatMessages
    ensures !r.threw ==> r.world.tickUpdateTime == now
    ensures !r.threw ==> r.world.queue == WithoutAll(w.queue, Ids(w.players))
    ensures !r.threw ==> r.delivered == Batches(w.queue, Ids(w.players))
  {
    var p := PlayerTurns(w, |w.players|, terrain, draws.players);
    if p.threw then p
    else
      assert Ids(w.players)[..|w.players|] == Ids(w.players);
      assert Ids(p.world.entities) == Ids(w.entities);
      var m := MonsterTurns(p.world, |w.entities|, terrain, draws.entities);
      if m.threw then TickState(m.world, true, p.delivered)
      else TickState(m.world.(tickUpdateTime := now), false, p.delivered)
  }

  /**
   * With distinct player ids, a tick that completes hands every player
   * exactly its own queued entries, in arrival order.
   */
  lemma TickDeliversOwnActions(w: World, terrain: Terrain, draws: Draws, now: int)
    requires |draws.players| == |w.players| && |draws.entities| == |w.entities|
    requires Distinct(Ids(w.players))
    ensures var r := GameTick(w, terrain, draws, now);
            !r.threw ==> forall k :: 0 <= k < |w.players| ==>
              r.delivered[k] == ForPlayer(w.queue, w.players[k].entityID)
  {
    BatchesAreOwnEntries(w.queue, Ids(w.players));
  }

  /**
   * A tick that completes leaves in the queue exactly the entries of ids that
   * are not registered players; nothing registered players queued is lost,
   * since it was handed to them.
   */
  lemma TickConservesQueue(w: World, terrain: Terrain, draws: Draws, now: int, q: Queued)
    requires |draws.players| == |w.players| && |draws.entities| == |w.entities|
    requires Distinct(Ids(w.players))
    requires q in w.queue
    ensures var r := GameTick(w, terrain, draws, now);
            !r.threw ==>
              (q in r.world.queue <==> q.playerID !in Ids(w.players))
              && (q in r.world.queue || exists k :: 0 <= k < |w.players| && q in r.delivered[k])
  {
    var r := GameTick(w, terrain, draws, now);
    if !r.threw && q.playerID in Ids(w.players) {
      var k :| 0 <= k < |w.players| && Ids(w.players)[k] == q.playerID;
      TickDeliversOwnActions(w, terrain, draws, now);
      assert q in r.delivered[k];
    }
  }
}

=== FILE: wrappers.dfy ===
/** Failure-compatible result types shared by the whole model. */
module Wrappers {

  /** A value that may be absent: the model of the source's `null`. */
  datatype Option<+T> = None | Some(value: T) {
    predicate IsFailure() { None? }

    function PropagateFailure<U>(): Option<U>
      requires None?
    {
      None
    }

    function Extract(): T
      requires Some?
    {
      value
    }

    function GetOr(default: T): T {
      match this
      case Some(v) => v
      case None => default
    }
  }

  /** The outcome of an operation that the source lets throw. */
  datatype Result<+R> = Success(value: R) | Failure(error: string) {
    predicate IsFailure() { Failure? }

    function PropagateFailure<U>(): Result<U>
      requires Failure?
    {
      Failure(error)
    }

    function Extract(): R
      requires Success?
    {
      value
    }
  }
}
